=== FILE: README.md ===
# DENG engine cores in Dafny

A model of the self-contained integer and string logic inside the DENG game
engine (C and C++), with proofs of what that logic promises. Each Dafny
module follows one source file. State is immutable: every operation takes
the old state and returns the new one. Hardware, renderer, filesystem and
hash calls are parameters.

- `Common` (src/common.c): power-of-two rounding at 8, 16, 32 and 64 bits,
  with the wrap-around each width has. Also chunk rounding, file extension
  extraction, character replacement, ASCII case mapping and line counting.
- `GpuMemoryManager` (src/GPUMemoryManager.cpp): the main buffer's block
  list, with the append placement (F), the gap placement (P) and the
  binary-search delete. 32-bit arithmetic is explicit.
- `GpuMemoryAllocator` (Sources/GPUMemoryAllocator.cpp): the region and
  free-fragment lists of `RequestMemory` and `FreeMemory`, with `size_t`
  arithmetic and the alignment mask `~(a - 1)`.
- `Assets`, `OffsetFinder` (src/deng/cross_api/offset_finder.cpp) and
  `BufferManager` (src/deng/vulkan/bm.cpp): per-asset byte offsets in the
  OpenGL and Vulkan layouts, ImGui offsets, the 1.5x capacity checks and
  the largest asset footprint.
- `Registry` (src/deng/registry/registry.cpp): an id-keyed store of typed
  entries with per-type id lists and type-mask checks.
- `Shader` (Include/deng/IShader.h) and `GraphicsShader`
  (Include/deng/IGraphicsShader.h): the shader property word, the pipeline
  modes, the texture hash list, and the 256-bit graphics shader identifier.
  `Bits` writes a machine word as the set of its one-bit positions.
- `UberShader` (src/UberShader.cpp): shader input and output location
  numbering for the vertex, geometry and fragment stages.
- `ModelShaderManager` (src/ModelShaderManager.cpp): the attribute mask, its
  shader variant, and the per-variant shader id cache.
- `ByteCodeToolset` (Sources/IByteCodeToolset.cpp): input strides of shader
  input formats.
- `Dam` (src/data/dam.c): the asset manager's command-line parser.
- `FilePicker` (src/FilePicker.cpp): the file type list splitter and the
  directory entry filter.
- `CVars` (Include/deng/CVars.h): the CVar text formatter and the CVar
  trie's `Set`/`Get`.

Where the code has a defect, the module holds two versions: the code as
written, with a lemma that shows the defect, and the evidently intended
version with its property proved. The rest of the model uses the
intended one (see "## Findings").

## Model

| member | source | states |
|---|---|---|
| Common.StrLen | src/common.c:25 | strlen: no NUL before the returned length, and a NUL at it when it is inside the buffer |
| Common.ToPow2I8 | src/common.c:90-97 | for an 8-bit n below 0x80 the result is a power of two above n whose half is at most n, so it is the next power of two strictly above n; from 0x80 upwards the 8-bit addition wraps to 0 |
| Common.ToPow2I16 | src/common.c:80-87 | the same at 16 bits, with the wrap from 0x8000 |
| Common.ToPow2I32 | src/common.c:69-77 | the same at 32 bits, with the wrap from 0x8000_0000 |
| Common.ToPow2I64 | src/common.c:57-66 | the same at 64 bits, with the wrap from 2^63 |
| Common.ToPow2I32Least | src/common.c:69-77 | no power of two strictly above n is below the 32-bit result: it is the least one |
| Common.FindChunkSize | src/common.c:208-210 | for chunk > 0 and no 64-bit overflow, the result is a multiple of chunk in [reqMem, reqMem + chunk); it always fits 64 bits |
| Common.FindChunkSizeLeast | src/common.c:208-210 | every multiple of chunk that is at least reqMem is at least the result: it is the least such multiple |
| Common.FindChunkSizeIdempotent | src/common.c:208-210 | rounding a rounded size returns it unchanged |
| Common.FileExtAtLastDot | src/common.c:39-45 | the backward scan's answer is the text after the last '.' that is not the final character |
| Common.ExtractFileExtName | src/common.c:35-50 | the result is absent exactly when no '.' other than the final character exists, and otherwise is the suffix after the last such '.' |
| Common.StrReplaceCh | src/common.c:19-31 | the length is kept; with a non-NUL replacement every find character becomes rep and every other character is kept; a NUL replacement cuts the string at the first find, because the loop re-reads strlen |
| Common.MakeUpperCase | src/common.c:611-620 | exactly the characters 'a'..'z' before the first NUL change, strlen and the bytes from the NUL on are kept, no lower-case letter is left before the NUL, and lower-casing the result there gives the same as lower-casing the input |
| Common.MakeLowerCase | src/common.c:624-632 | exactly the characters 'A'..'Z' before the first NUL change, strlen and the bytes from the NUL on are kept, no upper-case letter is left before the NUL, and upper-casing the result there gives the same as upper-casing the input |
| Common.CaseMappingStopsAtNul | src/common.c:613-616 | the loop stops at strlen: "a\0b" upper-cases to "A\0b" and "A\0B" lower-cases to "a\0B" |
| Common.CaseMappingKeepsCString | src/common.c:611-632 | neither mapping writes a NUL, so the C string keeps its length |
| Common.CaseMappingRoundTrip | src/common.c:611-632 | upper-casing is idempotent, and lower-casing after upper-casing equals lower-casing alone (and the converse) |
| Common.CountNewlinesAppend | src/common.c:603-604 | the newline count of a concatenation is the sum of the counts |
| Common.FindLineCount | src/common.c:599-607 | one plus the number of '\n' among the first rlen characters, as a 32-bit counter |
| CVars.Tabs | Include/deng/CVars.h:151 | `setfill('\t') << setw(n) << ""` writes exactly n tab characters |
| CVars.NodeName | Include/deng/CVars.h:163 | the node name holds no '.', and is either the whole key or the key's suffix right after a '.', so it is the text after the last '.' |
| CVars.MakeCVarStringAsWritten | Include/deng/CVars.h:138-167 | the loop as written produces the comment with prefixes where the code puts them, the closing newline when the description does not end in one, then the indented "name: value" entry |
| CVars.MakeCVarString | Include/deng/CVars.h:138-167 | the corrected loop produces the description with a "# " prefix at every line start, the closing newline, and the entry indented by one tab per '.' in the key |
| CVars.CommentsAgree | Include/deng/CVars.h:144-158 | the loop as written and the corrected one agree on every description that does not start with a newline followed by text |
| CVars.SingleLineComment | Include/deng/CVars.h:144-158 | a description without newlines becomes one comment line: the indentation, "# ", then the text |
| CVars.CommentKeepsText | Include/deng/CVars.h:144-158 | the comment holds every description character once plus one prefix per line start |
| CVars.LeadingNewlineUncommented | Include/deng/CVars.h:144-157 | as written, "\nab" yields "# \nab": the second line has no comment marker, while the corrected loop writes "# \n# ab" |
| CVars.EntryShape | Include/deng/CVars.h:163-164 | the entry is one tab per '.' in the key followed by the node name, ": " and the value |
| CVars.Insert | Include/deng/CVars.h:208-238 | after inserting below a table the first word's hash is present, and every other hash of the table is untouched |
| CVars.Set | Include/deng/CVars.h:208-238 | a set leaves every root entry other than the first word's untouched |
| CVars.InsertThenFind | Include/deng/CVars.h:216-237 | after a set the path exists; an existing node is kept as it was (map insert does not overwrite), a missing one holds the new variable, and the returned pointer is that node's variable when it has the set type |
| CVars.SetThenGet | Include/deng/CVars.h:200-238 | setting a fresh key makes Get of its type return the variable; setting an existing key changes nothing and returns what Get of that type read before |
| CVars.InsertCreatesPath | Include/deng/CVars.h:213-225 | every proper prefix of the path exists after a set; nodes already there keep their value, and created ones hold none |
| CVars.SetCreatesEmptyIntermediates | Include/deng/CVars.h:213-225 | an intermediate node a set creates records its word and parent hash 0 at the root level and holds no variable |
| GpuMemoryManager.ComponentPadSpec | src/GPUMemoryManager.cpp:16 | the component padding is below the stride and lifts the offset to a multiple of it |
| GpuMemoryManager.RequestMainMemoryLocationF | src/GPUMemoryManager.cpp:13-23 | exactly one block is appended, the earlier blocks are unchanged, the new block has the requested size at the returned offset, and an empty list places it at offset 0 |
| GpuMemoryManager.RequestFAligned | src/GPUMemoryManager.cpp:14-18 | without uint32 wrap-around the returned offset is the end of the last block rounded up to a multiple of the stride |
| GpuMemoryManager.RequestFKeepsDisjoint | src/GPUMemoryManager.cpp:13-23 | appending keeps the blocks sorted and non-overlapping when the new block still fits in 32 bits |
| GpuMemoryManager.FirstGapAsWritten | src/GPUMemoryManager.cpp:43-52 | the scan stops at the first index whose uint32 gap test passes; no earlier index passes, and none passes when the scan finds nothing |
| GpuMemoryManager.InsertAfter | src/GPUMemoryManager.cpp:55-65 | the rebuilt list is the old one with the new block right after block i |
| GpuMemoryManager.RequestPInsertsOne | src/GPUMemoryManager.cpp:37-70 | the P variant adds exactly the new block and keeps all others in order, and is the F variant when no gap passes the test |
| GpuMemoryManager.RequestPAlignedGapOverlaps | src/GPUMemoryManager.cpp:46-48 | on the disjoint list (0,4),(12,4) with stride 4 a size-8 request is probed at offset 4 but placed at 8, overlapping the block at 12 |
| GpuMemoryManager.RequestPWrappedGapOverlaps | src/GPUMemoryManager.cpp:44-48 | on the adjacent blocks (0,3),(3,4) the uint32 gap subtraction wraps and a 100-byte block is put on top of the block at 3 |
| GpuMemoryManager.FirstGap | src/GPUMemoryManager.cpp:43-52 | the corrected scan returns an index whose gap holds the padded block, and none exists when it returns nothing |
| GpuMemoryManager.RequestMainMemoryLocationPCorrected | src/GPUMemoryManager.cpp:37-70 | the corrected P variant inserts exactly the new block and keeps the list sorted and non-overlapping |
| GpuMemoryManager.GapOffset | src/GPUMemoryManager.cpp:44-48 | the corrected gap offset is the first multiple of the stride at or after the end of block i |
| GpuMemoryManager.PlaceInGap | src/GPUMemoryManager.cpp:55-66 | placing in an accepted gap inserts exactly one block at the gap offset and keeps the layout |
| GpuMemoryManager.CorrectedPlacementAligned | src/GPUMemoryManager.cpp:37-70 | the corrected placement's offset is always a multiple of the stride |
| GpuMemoryManager.FallbackPlacement | src/GPUMemoryManager.cpp:69 | the append fallback inserts exactly one aligned block and keeps the layout |
| GpuMemoryManager.InsertKeepsDisjoint | src/GPUMemoryManager.cpp:55-65 | a block that fits between neighbours i and i+1 keeps the list sorted and non-overlapping |
| GpuMemoryManager.DeleteMainMemoryLocation | src/GPUMemoryManager.cpp:134-155 | on a list sorted by offset, a present offset's block is removed and nothing else changes; an absent offset is covered by `DeleteAbsentOffset` |
| GpuMemoryManager.SearchFindsPresent | src/GPUMemoryManager.cpp:132-153 | on a strictly sorted list the search probes the block holding the offset within as many iterations as there are blocks |
| GpuMemoryManager.StepLeft | src/GPUMemoryManager.cpp:140-144 | a probe right of the key moves left, keeps the key between the bounds and shrinks the candidate range |
| GpuMemoryManager.StepRight | src/GPUMemoryManager.cpp:145-149 | a probe left of the key moves right, keeps the key between the bounds and shrinks the candidate range |
| GpuMemoryManager.SearchFinds | src/GPUMemoryManager.cpp:136-153 | from any state keeping the search invariant, the loop hits the key's index before the candidate count runs out |
| GpuMemoryManager.DeleteMissingOffsetLoops | src/GPUMemoryManager.cpp:136-153 | on offsets 0,10,20 a delete of 15 never leaves the loop: the probe bounces between indices 1 and 2 |
| GpuMemoryManager.ExitsRight | src/GPUMemoryManager.cpp:148-154 | when every offset is below the key, each probe moves right and the loop leaves past the end without a match |
| GpuMemoryManager.ExitsLeft | src/GPUMemoryManager.cpp:139-147 | when every offset is above the key, each probe moves left and the index wraps below 0, leaving the loop without a match |
| GpuMemoryManager.Bounces | src/GPUMemoryManager.cpp:139-154 | when the key lies strictly between the offsets at k and k+1 and the bounds bracket them, the loop is still running after any number of rounds |
| GpuMemoryManager.DeleteAbsentOffset | src/GPUMemoryManager.cpp:134-155 | on a sorted list, deleting an offset no block has leaves the list unchanged iff the list is empty or the offset lies below the first or above the last block; every other absent offset never leaves the loop |
| GpuMemoryManager.DeleteBetweenNeverEnds | src/GPUMemoryManager.cpp:134-155 | an offset strictly between two neighbouring blocks' offsets keeps the search running for any number of rounds |
| GpuMemoryManager.DeleteMainMemoryLocationCorrected | src/GPUMemoryManager.cpp:134-155 | a terminating search removes the one block with the offset when present and leaves the list unchanged otherwise |
| GpuMemoryAllocator.RoundedSize | Sources/GPUMemoryAllocator.cpp:41-43 | for a power-of-two alignment and no overflow the size is rounded up to the least multiple of the alignment; with alignment 0 it is kept |
| GpuMemoryAllocator.AlignMaskRoundsUp | Sources/GPUMemoryAllocator.cpp:42 | the size_t mask `(x + a - 1) & ~(a - 1)` rounds x up to the least multiple of a power-of-two a |
| GpuMemoryAllocator.AlignMaskPow2 | Sources/GPUMemoryAllocator.cpp:42 | the same for a = 2^k: `~(a - 1)` clears exactly the low k bits |
| GpuMemoryAllocator.ClearLowBits | Sources/GPUMemoryAllocator.cpp:42 | ANDing m < 2^n with 2^n - 2^k clears its low k bits, giving m rounded down to a multiple of 2^k |
| GpuMemoryAllocator.InsertAt | Sources/GPUMemoryAllocator.cpp:63-68 | `emplace` puts the region at the position and removing it gives back the old list |
| GpuMemoryAllocator.RenumberUp | Sources/GPUMemoryAllocator.cpp:63-68 | after the emplace each iterator moves by at most one, none names the new region, and erasing that region again restores every iterator |
| GpuMemoryAllocator.RenumberUpKeepsRegions | Sources/GPUMemoryAllocator.cpp:63-68 | every renumbered iterator names, in the list after the emplace, the same region it named before |
| GpuMemoryAllocator.PlaceInFragment | Sources/GPUMemoryAllocator.cpp:58-101 | a region placed in a fragment is the requested one, is the only new entry of the region list, and every fragment still refers to existing regions |
| GpuMemoryAllocator.Reshape | Sources/GPUMemoryAllocator.cpp:71-97 | the fragments kept before, after or instead of the used fragment refer only to existing regions |
| GpuMemoryAllocator.Append | Sources/GPUMemoryAllocator.cpp:104-131 | the region goes after the last one with the requested size, earlier fragments are kept, and a new fragment lies between the old last region and the new one; an empty list places it at the given offset |
| GpuMemoryAllocator.Request | Sources/GPUMemoryAllocator.cpp:40-132 | the handed-out region has the rounded size and is exactly one new entry of the region list, and the fragments stay well formed |
| GpuMemoryAllocator.RequestMemoryAsWritten | Sources/GPUMemoryAllocator.cpp:40-132 | as written the region has the rounded size, and the first request on an empty allocator lands at offset 0 |
| GpuMemoryAllocator.RequestMemory | Sources/GPUMemoryAllocator.cpp:40-132 | the corrected request: the region has the rounded size, is exactly one new entry, fragments stay well formed, and an empty allocator gives offset 0 and a one-region list |
| GpuMemoryAllocator.AppendAligned | Sources/GPUMemoryAllocator.cpp:59-111 | on the append path, taken when there is no free fragment or the offered one is too small for the rounded size, the region goes after the last one, its offset is aligned and below the previous end plus the alignment, and with alignment 0 it is exactly that end |
| GpuMemoryAllocator.AppendOffsetAligned | Sources/GPUMemoryAllocator.cpp:104-111 | after an existing region the corrected append puts the new one at the previous end rounded up to a power-of-two alignment, aligned and less than one alignment past that end; with alignment 0 exactly at that end |
| GpuMemoryAllocator.ZeroAlignmentAppendOverlaps | Sources/GPUMemoryAllocator.cpp:106-108 | as written, alignment 0 on the append path masks with `~(0 - 1) == 0` and puts the region (0,4) on top of (0,4); corrected, it goes to 4 |
| GpuMemoryAllocator.FindRegion | Sources/GPUMemoryAllocator.cpp:138-145 | the lookup finds the first region with the offset, or reports that none has it |
| GpuMemoryAllocator.StartMoved | Sources/GPUMemoryAllocator.cpp:148-160 | a fragment that started at the freed region now starts at the previous region's end and still ends where its end region begins; after a freed first region it runs from 0 with both iterators on its end region |
| GpuMemoryAllocator.EndMoved | Sources/GPUMemoryAllocator.cpp:162-173 | a fragment that ended at a freed region that was not last now ends at the next region, keeps its start region, and spans from that region's end to the next region's offset |
| GpuMemoryAllocator.Repoint | Sources/GPUMemoryAllocator.cpp:147-175 | fragments off the freed region are kept, ones starting at it are moved as `StartMoved` says, ones only ending at it are moved as `EndMoved` says or, when it was the last region, dropped (exactly those); afterwards no iterator is on it unless some fragment had both there, and all iterators name existing regions |
| GpuMemoryAllocator.RenumberDown | Sources/GPUMemoryAllocator.cpp:204 | after the erase each iterator moves back by at most one and offsets and sizes are kept |
| GpuMemoryAllocator.RenumberDownKeepsRegions | Sources/GPUMemoryAllocator.cpp:204 | every renumbered iterator that was not on the erased region names, in the shorter list, the same region it named before |
| GpuMemoryAllocator.RemoveRegion | Sources/GPUMemoryAllocator.cpp:148-206 | the region list loses exactly region i |
| GpuMemoryAllocator.FreeMemoryAsWritten | Sources/GPUMemoryAllocator.cpp:137-208 | as written a missing offset erases `end()` (undefined, modelled as no result) and a found one reports true |
| GpuMemoryAllocator.FreeMemory | Sources/GPUMemoryAllocator.cpp:137-208 | returns true iff a region has the offset; then exactly the first such region is removed, and otherwise nothing changes |
| GpuMemoryAllocator.FreeMemoryWellFormed | Sources/GPUMemoryAllocator.cpp:146-204 | freeing keeps every fragment's iterators on existing regions, unless a fragment had both iterators on the freed region |
| GpuMemoryAllocator.FreePinnedDangles | Sources/GPUMemoryAllocator.cpp:148-153 | freeing the only region of [(4,4)] with the fragment (0,0,0,4) leaves that fragment naming no region |
| GpuMemoryAllocator.FreeMissingOffset | Sources/GPUMemoryAllocator.cpp:145-206 | freeing offset 8 of [(0,4)] is undefined as written and a no-op when corrected |
| GpuMemoryAllocator.FreeFirstRegionKeepsGap | Sources/GPUMemoryAllocator.cpp:195-203 | freeing the first of two flush regions records no fragment as written, because the test compares the region's end with its own offset; corrected, the fragment [0,4) is recorded |
| GpuMemoryAllocator.RequestThenFree | Sources/GPUMemoryAllocator.cpp:104-208 | on an allocator without fragments, freeing the region a request hands out restores the allocator exactly |
| GpuMemoryAllocator.FreeAfterAppend | Sources/GPUMemoryAllocator.cpp:160-206 | freeing a freshly appended last region drops the fragments ending at it and restores the old region list |
| GpuMemoryAllocator.NewOffsetIsFresh | Sources/GPUMemoryAllocator.cpp:104-111 | an appended region's offset differs from every existing one |
| GpuMemoryAllocator.RepointDropsLast | Sources/GPUMemoryAllocator.cpp:162-166 | fragments ending at the freed last region are erased |
| OffsetFinder.Grow | src/deng/cross_api/offset_finder.cpp:18-26 | below the capacity nothing changes; otherwise the check reports growth and the new capacity is at least 1.5 times both the old capacity and the size |
| OffsetFinder.GrowAligned | src/deng/cross_api/offset_finder.cpp:22-23 | with the ceil-remainder padding the grown capacity is the least multiple of the index size not below max(cap*3/2, size*3/2) |
| OffsetFinder.GrowSettles | src/deng/cross_api/offset_finder.cpp:18-26 | from size 2 upwards a grown capacity exceeds the size, so the next check is a no-op |
| OffsetFinder.AssetCapCheck | src/deng/cross_api/offset_finder.cpp:18-26 | no-op while asset_size < asset_cap; otherwise only asset_cap changes, to at least max(cap*3/2, size*3/2) |
| OffsetFinder.IndicesCapCheck | src/deng/cross_api/offset_finder.cpp:30-38 | the same rule on the index fields only |
| OffsetFinder.UiCapCheck | src/deng/cross_api/offset_finder.cpp:42-50 | the same rule on the ui fields only |
| OffsetFinder.FindGLAssetOffsets | src/deng/cross_api/offset_finder.cpp:53-95 | pos_offset is the asset size before the call and ind_offset the index size before it; the asset section grows by at least the vertex bytes, the index section by exactly the index bytes, nothing else changes, and an unhandled mode changes nothing |
| OffsetFinder.FindVkAssetOffsets | src/deng/cross_api/offset_finder.cpp:98-171 | an unhandled mode is an error and only then; otherwise pos_offset is the asset size before the call, only the offsets change, and the section ends after IndexStreams index streams |
| OffsetFinder.VkStreamOffsets | src/deng/cross_api/offset_finder.cpp:104-162 | texture data follows the positions, normals follow both, absent streams are UINT64_MAX, and ind_offset is the padded end of the vertex data |
| OffsetFinder.VkIndicesAligned | src/deng/cross_api/offset_finder.cpp:112-162 | with the ceil-remainder padding ind_offset is a multiple of the index size less than 4 bytes after the vertex data |
| OffsetFinder.CeilRemSpec | src/deng/cross_api/offset_finder.cpp:23 | the padding is below n and lifts x to a multiple of n |
| OffsetFinder.FindAssetOffsets | src/deng/cross_api/offset_finder.cpp:175-180 | OpenGL assets take the interleaved layout, the others the Vulkan layout |
| OffsetFinder.PlaceGrows | src/deng/cross_api/offset_finder.cpp:175-180 | placing an asset never moves the section ends backwards, and a handled asset starts where the asset section ended |
| OffsetFinder.PlaceAll | src/deng/cross_api/offset_finder.cpp:204-208 | placing the list keeps one asset per input and leaves the ui size alone |
| OffsetFinder.PlaceAllStartsAfter | src/deng/cross_api/offset_finder.cpp:204-208 | every asset placed starts between the starting asset size and the final one |
| OffsetFinder.PlaceAllOrdered | src/deng/cross_api/offset_finder.cpp:204-208 | asset positions increase along the list |
| OffsetFinder.UiNext | src/deng/cross_api/offset_finder.cpp:186-194 | one command grows the ui section by at least its vertex bytes; only the ui and index sizes change, and the index size only under OpenGL |
| OffsetFinder.GuiEntitiesOffsets | src/deng/cross_api/offset_finder.cpp:183-196 | one output per command; the ui and index sizes only grow, nothing else changes, and outside OpenGL the index section is untouched |
| OffsetFinder.GuiOffsetsBounds | src/deng/cross_api/offset_finder.cpp:185-195 | each command keeps its counts and its vertex data lies within the ui section the pass fills |
| OffsetFinder.GuiOffsetsOrdered | src/deng/cross_api/offset_finder.cpp:185-195 | the vertex data of an earlier command ends before any later command's vertex offset |
| OffsetFinder.CalcOffsets | src/deng/cross_api/offset_finder.cpp:200-216 | one asset per input, and ImGui offsets exactly when ImGui data is present |
| OffsetFinder.CalcOffsetsFromZero | src/deng/cross_api/offset_finder.cpp:202-208 | the pass ignores the asset and index sizes left by an earlier pass, the first asset starts at 0, and positions increase in list order |
| OffsetFinder.FindMaxAssetSize | src/deng/cross_api/offset_finder.cpp:220-270 | 0 for an empty range; otherwise at least every handled asset's footprint and equal to one of them (or 0) |
| BufferManager.AssetCapCheck | src/deng/vulkan/bm.cpp:316-324 | no-op while asset_size < asset_cap; otherwise only asset_cap changes, to at least cap*3/2 and, from size 2 upwards, above the size |
| BufferManager.UiCapCheck | src/deng/vulkan/bm.cpp:328-336 | the same rule on the ui fields only |
| BufferManager.GrownCapAgainstMax | src/deng/vulkan/bm.cpp:320-321 | the Vulkan growth never exceeds the cross-API max(cap*3/2, size*3/2) and equals it when cap*3/2 is at most the size |
| BufferManager.AssetCapSettles | src/deng/vulkan/bm.cpp:316-324 | from size 2 upwards a grown capacity passes the next check |
| BufferManager.FindAssetOffsets | src/deng/vulkan/bm.cpp:136-207 | an unhandled mode is an error and only then; pos_offset is the asset size before the call and the size ends after the index streams |
| BufferManager.IndexAfterVertices | src/deng/vulkan/bm.cpp:150-198 | ind_offset is exactly the end of the vertex streams: this manager does not pad |
| BufferManager.SameAsCrossApiWithoutPadding | src/deng/vulkan/bm.cpp:136-207 | the layout equals the cross-API Vulkan layout with zero padding, asset for asset |
| BufferManager.IndexBytesPerMode | src/deng/vulkan/bm.cpp:151-199 | the index bytes an asset adds are n*4, 2n*4, 2n*4 and 3n*4 for the four modes |
| BufferManager.PlaceAll | src/deng/vulkan/bm.cpp:280-288 | one placed asset per input, and only the asset size changes, never downwards |
| BufferManager.ReallocCheck | src/deng/vulkan/bm.cpp:274-312 | one placed asset per input; reallocation is reported iff either size reached its capacity, and then from size 2 upwards both capacities exceed their sizes |
| BufferManager.FootprintCoversLayout | src/deng/vulkan/bm.cpp:226-253 | the footprint equals the cross-API one without padding and covers the bytes the asset's own layout takes |
| BufferManager.FindMaxAssetSize | src/deng/vulkan/bm.cpp:211-261 | 0 for an empty range; otherwise at least every handled asset's footprint and equal to one of them (or 0) |
| Registry.Empty | src/deng/registry/registry.cpp:12-15 | a new registry is well formed, holds no entries and maps no id |
| Registry.Push | src/deng/registry/registry.cpp:162-215 | fails iff the id is already mapped; otherwise appends one entry numbered by its position, maps the id to it and appends the id to its own type's list only |
| Registry.PushRecordsOnce | src/deng/registry/registry.cpp:180-214 | a successful push of a listed type records the id in exactly the list of its type, and an unlisted type in none |
| Registry.Retrieve | src/deng/registry/registry.cpp:133-157 | succeeds iff the id is mapped and every bit of the stored type lies in the mask, and then returns the stored element with its type (the feedback value) |
| Registry.Pop | src/deng/registry/registry.cpp:243-254 | fails on an unmapped id and changes nothing; otherwise unmaps the id even when the type shares no bit with the mask, and returns the element only when it does; entries never shrink |
| Registry.PushThenRetrieve | src/deng/registry/registry.cpp:162-228 | what was pushed is retrieved under its id by any mask covering its type, and refused by any other |
| Registry.PushKeepsOthers | src/deng/registry/registry.cpp:135-177 | a push leaves every other id's retrieval unchanged |
| Registry.PushThenPop | src/deng/registry/registry.cpp:162-260 | a pop after a push returns the element iff the mask shares a bit with its type, frees the id for another push, and size() still counts the popped push |
| Shader.SetProperty | Include/deng/IShader.h:174-178 | enabling makes the word hold the given bits and every old one; disabling leaves none of them and adds nothing; bits outside the given ones keep their values |
| Shader.IsPropertySet | Include/deng/IShader.h:179 | reports set iff some queried bit is in the word |
| Shader.EnableReportsSet | Include/deng/IShader.h:174-179 | enabling a non-empty set of property bits makes the query for them report set |
| Shader.DisableReportsUnset | Include/deng/IShader.h:174-179 | disabling property bits makes the query for them report unset |
| Shader.SetPropertyKeepsOthers | Include/deng/IShader.h:174-179 | setting or clearing bits leaves every other bit, and every query disjoint from them, as it was |
| Shader.SetPipelineCullMode | Include/deng/IShader.h:168-169 | the cull getter reads back the mode just set and the primitive getter reads what it read before |
| Shader.SetPrimitiveMode | Include/deng/IShader.h:171-172 | the primitive getter reads back the mode just set and the cull getter reads what it read before |
| Shader.ModesIndependent | Include/deng/IShader.h:168-172 | the two mode setters do not disturb each other and commute |
| Shader.PushTextureHash | Include/deng/IShader.h:181-184 | appends the hash, keeps the earlier ones and returns the previous length, the index of the new hash |
| Shader.GetTextureHash | Include/deng/IShader.h:193-197 | an id past the end reads 0, any other id its stored hash |
| Shader.ReplaceTextureHash | Include/deng/IShader.h:186-191 | an id past the end returns 0 and changes nothing; otherwise only that id's hash is replaced and the new hash returned |
| Shader.PushThenGet | Include/deng/IShader.h:181-197 | the id a push returns reads back the pushed hash, and every other id reads what it did before |
| Shader.ReplaceThenGet | Include/deng/IShader.h:186-197 | after a replacement the id reads back what the replacement returned, in range or not |
| GraphicsShader.Shifted | Include/deng/IGraphicsShader.h:51-53 | a value shifted into the 256-bit identifier keeps only positions below 256 |
| GraphicsShader.PlaceField | Include/deng/IGraphicsShader.h:158-172 | a value below 2^k ORed in at an offset occupies only its k-bit window and reads back when that window was clear |
| GraphicsShader.OtherWindowKept | Include/deng/IGraphicsShader.h:52-68 | ORing a value into one window leaves the reading of every disjoint window unchanged |
| GraphicsShader.CullCode | Include/deng/IShader.h:32-36 | the cull modes are the codes 0 to 2 |
| GraphicsShader.PrimitiveCode | Include/deng/IShader.h:38-42 | the primitive modes are the codes 0 to 3 |
| GraphicsShader.SetPipelineCullMode | Include/deng/IGraphicsShader.h:156-159 | the setter only ORs: no bit is cleared and every new bit lies in the two-bit cull field |
| GraphicsShader.GetPipelineCullMode | Include/deng/IGraphicsShader.h:160-163 | the getter reads a two-bit code, below 4 |
| GraphicsShader.SetPrimitiveMode | Include/deng/IGraphicsShader.h:165-168 | the setter only ORs: no bit is cleared and every new bit lies in the two-bit primitive field |
| GraphicsShader.GetPrimitiveMode | Include/deng/IGraphicsShader.h:169-172 | the getter reads a two-bit code, below 4 |
| GraphicsShader.CullModeRoundTrip | Include/deng/IGraphicsShader.h:156-163 | on a clear cull field the getter returns the mode just set, and the primitive mode and property bits keep their values |
| GraphicsShader.PrimitiveModeRoundTrip | Include/deng/IGraphicsShader.h:165-172 | on a clear primitive field the getter returns the mode just set, and the cull mode and property bits keep their values |
| GraphicsShader.CullModeSettersAccumulate | Include/deng/IGraphicsShader.h:156-163 | the setter only ORs: Clockwise then CounterClockwise reads back as 3, which names no mode |
| GraphicsShader.IsPropertySet | Include/deng/IGraphicsShader.h:174-177 | reports set iff for some i below 10 bit i of the query is one and position 246+i of the identifier is set |
| GraphicsShader.SetPropertyAsWritten | Include/deng/IGraphicsShader.h:179-190 | as written, enabling keeps every bit, and both branches leave every position below the property bits alone |
| GraphicsShader.SetProperty | Include/deng/IGraphicsShader.h:179-190 | corrected, enabling only adds bits, disabling only removes them, and no position below the property bits changes |
| GraphicsShader.ShiftedPropertyBit | Include/deng/IGraphicsShader.h:176-183 | identifier position 246+i holds bit i of the property word for the ten bits that fit |
| GraphicsShader.IsPropertySetAgrees | Include/deng/IGraphicsShader.h:174-177 | the identifier's property query equals the shader interface's query on the low ten bits of the word |
| GraphicsShader.SetPropertyAgrees | Include/deng/IGraphicsShader.h:179-190 | the corrected setter acts on the property bits as the shader interface's setter does and changes no position below them |
| GraphicsShader.SetPropertyAsWrittenDisable | Include/deng/IGraphicsShader.h:185-189 | as written, disabling toggles every property bit the word does not hold and leaves the word's own bits alone |
| GraphicsShader.SetPropertyAsWrittenKeepsBit | Include/deng/IGraphicsShader.h:179-190 | as written, enabling then disabling bit 0 leaves it set, and disabling bit 0 on a zero identifier sets bit 1 |
| GraphicsShader.SetPropertyThenQuery | Include/deng/IGraphicsShader.h:174-190 | with the corrected setter, disabled bits report unset and enabled ones set when any of their low ten bits is one |
| GraphicsShader.ShiftedFlag | Include/deng/IGraphicsShader.h:196 | a shifted 1 is exactly its one position and a shifted 0 is nothing |
| GraphicsShader.SetEnableColorMultiplierAsWritten | Include/deng/IGraphicsShader.h:192-201 | as written, only the colour multiplier position can change |
| GraphicsShader.SetEnableColorMultiplier | Include/deng/IGraphicsShader.h:192-201 | corrected, only the colour multiplier position can change |
| GraphicsShader.ColorMultiplierAsWrittenStaysOn | Include/deng/IGraphicsShader.h:192-201 | as written, disabling the colour multiplier always leaves it enabled |
| GraphicsShader.ColorMultiplierRoundTrip | Include/deng/IGraphicsShader.h:192-207 | the corrected setter reads back what it was given and changes no other position |
| GraphicsShader.SetIsPbrAsWritten | Include/deng/IGraphicsShader.h:235-246 | as written, only the shading position can change |
| GraphicsShader.SetIsPbr | Include/deng/IGraphicsShader.h:235-246 | corrected, only the shading position can change |
| GraphicsShader.SetIsPbrAsWrittenToggles | Include/deng/IGraphicsShader.h:235-246 | as written, disabling PBR flips the shading bit |
| GraphicsShader.PbrRoundTrip | Include/deng/IGraphicsShader.h:235-252 | the corrected setter reads back what it was given and changes no other position |
| GraphicsShader.SetEnabledJointsCount | Include/deng/IGraphicsShader.h:209-214 | the setter only ORs: no bit is cleared and every new bit lies in the 32 positions from the joints field up |
| GraphicsShader.SetMorphTargetCount | Include/deng/IGraphicsShader.h:222-227 | the setter only ORs: no bit is cleared and every new bit lies in the 32 positions from the morph field up |
| GraphicsShader.JointsCountRoundTrip | Include/deng/IGraphicsShader.h:209-220 | a joints count below 8 on a clear window reads back, and the morph count, colour multiplier and shading bit keep their values |
| GraphicsShader.MorphTargetCountRoundTrip | Include/deng/IGraphicsShader.h:222-233 | a morph target count below 256 on a clear window reads back, and the joints count, colour multiplier and shading bit keep their values |
| GraphicsShader.JointsCountOverflow | Include/deng/IGraphicsShader.h:209-220 | without the debug check a joints count of 8 spills into the colour multiplier bit and reads back as 0 |
| GraphicsShader.HashAttributeTypes | Include/deng/IGraphicsShader.h:126-130 | the digest is only ORed in: no bit is cleared and every new bit lies in its 32-bit window |
| GraphicsShader.HashAttributeStrides | Include/deng/IGraphicsShader.h:134-138 | the digest is only ORed in: no bit is cleared and every new bit lies in its 32-bit window |
| GraphicsShader.HashUniformDataLayouts | Include/deng/IGraphicsShader.h:141-145 | the digest is only ORed in: no bit is cleared and every new bit lies in its 32-bit window |
| GraphicsShader.HashTextures | Include/deng/IGraphicsShader.h:268-272 | the digest is only ORed in: no bit is cleared and every new bit lies in its 32-bit window |
| GraphicsShader.DigestsRoundTrip | Include/deng/IGraphicsShader.h:126-145 | the four CRC-32 digests read back from disjoint windows, and the modes, property bits and every position below 114 keep their values |
| GraphicsShader.SameOutsideChain | Include/deng/IGraphicsShader.h:52-68 | changes confined to adjacent windows compose into a change confined to their union |
| GraphicsShader.DigestStep | Include/deng/IGraphicsShader.h:126-145 | one digest ORed in reads back, touches nothing outside its window, and the lower windows stay clear |
| GraphicsShader.DigestsReadBack | Include/deng/IGraphicsShader.h:126-145 | the four digests read back and nothing between 114 and 241 outside them changes |
| GraphicsShader.TextureHashesOutOfRange | Include/deng/IGraphicsShader.h:254-279 | the graphics shader's texture hash accessors read and replace an id past the end as 0 and read a push back at the id it returns |
| UberShader.SumStep | src/UberShader.cpp:244-290 | extending a run of attribute groups by one adds that group's slots to the next free location |
| UberShader.SumPrefixMonotone | src/UberShader.cpp:244-290 | the next free location never decreases along the groups |
| UberShader.LocationsDisjoint | src/UberShader.cpp:244-290 | two present groups never share a location: an earlier group's locations all precede a later group's first |
| UberShader.MorphSetCount | src/UberShader.cpp:280 | the morph set count is the ceiling of the target count over four, and 0 for no targets |
| UberShader.PlaceVertexAttributes | src/UberShader.cpp:244-268 | normal, tangent, UV and colour groups take consecutive locations from 1 in that order, each output location equal to its input location; absent groups keep -1 (Include/deng/Shader.h defaults) |
| UberShader.PlaceVertexSkinning | src/UberShader.cpp:269-294 | joint indices, joint weights, morph normals and morph tangents continue the numbering, one location per joint set or morph target; nothing else changes |
| UberShader.LocationJoin | src/UberShader.cpp:244-290 | numbering two runs of groups one after the other gives the locations of the joined run |
| UberShader.LocationAfter | src/UberShader.cpp:244-290 | a group of the second run is placed after all slots of the first |
| UberShader.PrefixSum | src/UberShader.cpp:244-290 | the slots before a group of the second run are the first run's slots plus those before it in its own run |
| UberShader.LocationBefore | src/UberShader.cpp:244-290 | groups of the first run are placed as if the second were absent |
| UberShader.SumJoin | src/UberShader.cpp:244-290 | the slots of a joined run are the sum of the slots of its parts |
| UberShader.CreateVertexShaderProperties | src/UberShader.cpp:240-295 | every vertex input location equals the reference numbering from 1 of normal, tangent, UV, colour, joint indices, joint weights, morph normals, morph tangents; outputs number the first four alike; counts and flags follow the primitive; morph positions stay -1 |
| UberShader.CreateGeometryShaderProperties | src/UberShader.cpp:298-325 | the geometry stage is used iff the primitive has no vertex normals; then UV and colour inputs number from 1 and outputs from 2; otherwise every field keeps its default |
| UberShader.CreateFragmentShaderProperties | src/UberShader.cpp:328-347 | the normal location is always 1, the tangent 2 when present, and UV and colour continue the numbering |
| UberShader.Create | src/UberShader.cpp:13-16 | the constructor's three stages: the geometry stage as specified, fragment normal at 1, and the vertex inputs pairwise disjoint |
| FilePicker.Find | src/FilePicker.cpp:203 | a position `find` returns lies inside the string |
| FilePicker.FindSpec | src/FilePicker.cpp:203 | `find` yields npos iff the character is absent, and otherwise the first position holding it |
| FilePicker.PiecesAsWritten | src/FilePicker.cpp:203-210 | as written, the loop and the trailing test yield at most one more element than the characters left to scan, none longer than those characters |
| FilePicker.ParseFileTypeListAsWritten | src/FilePicker.cpp:197-213 | as written, at most one more type than characters, none longer than the list, and an empty list gives one empty type (the `size() - 1` wrap) |
| FilePicker.PiecesAsWrittenCount | src/FilePicker.cpp:203-210 | as written, each '\|' contributes exactly one element and the trailing segment at most one more |
| FilePicker.PiecesAsWrittenStep | src/FilePicker.cpp:203-206 | one loop round: the segment before the next separator is taken with the separator's absolute position as its length, and the scan resumes after it |
| FilePicker.PiecesAsWrittenUnfold | src/FilePicker.cpp:203-206 | the loop round at a found separator |
| FilePicker.ParseAsWrittenOverreaches | src/FilePicker.cpp:203-206 | as written, of three types the middle one swallows the next separator and more whenever the first is not empty |
| FilePicker.SecondPieceLong | src/FilePicker.cpp:204 | the second substring, with an absolute position as its length, reaches past its separator |
| FilePicker.SubstrPrefix | src/FilePicker.cpp:204-210 | `substr` keeps the first characters as far as both string and length reach |
| FilePicker.ThreePieces | src/FilePicker.cpp:203-210 | the three rounds on `a\|b\|c` as written |
| FilePicker.FirstPiece | src/FilePicker.cpp:203-206 | the first round takes the first type exactly, since its start is 0 |
| FilePicker.AroundSeparator | src/FilePicker.cpp:203-206 | the text before and after a separator |
| FilePicker.LastTwoPieces | src/FilePicker.cpp:203-210 | the last separator's round and the trailing segment of `b\|c` |
| FilePicker.ParseAsWrittenExample | src/FilePicker.cpp:197-213 | ".a\|.b\|.c" as written gives ".a", ".b\|.c", ".c" |
| FilePicker.Split | src/FilePicker.cpp:203-210 | corrected, no piece contains a separator |
| FilePicker.ParseFileTypeList | src/FilePicker.cpp:197-213 | corrected, no type contains a separator, and an empty list gives one empty type as in the code |
| FilePicker.ParseCorrectedSplitsTypes | src/FilePicker.cpp:197-213 | corrected, three types joined with '\|' split back into the three |
| FilePicker.SplitJoin | src/FilePicker.cpp:197-213 | corrected, splitting undoes joining for every list of separator-free types whose last has two characters or more (the loop's trailing test) |
| FilePicker.FindAfterPrefix | src/FilePicker.cpp:203 | the first separator after a separator-free prefix is at its end |
| FilePicker.SplitCount | src/FilePicker.cpp:203-210 | corrected, each '\|' yields one element and the trailing segment at most one more |
| FilePicker.NoSeparatorCount | src/FilePicker.cpp:203 | a string without '\|' counts no separators |
| FilePicker.CountSplit | src/FilePicker.cpp:203-205 | the first separator adds one to the count of what follows it |
| FilePicker.SingleType | src/FilePicker.cpp:197-213 | a list without '\|' of two or more characters is one type equal to the list, as written and corrected |
| FilePicker.LastIndex | src/FilePicker.cpp:17-23 | the last occurrence of a character, and none iff it is absent |
| FilePicker.Extension | src/FilePicker.cpp:23 | an extension is empty or starts with its only '.' |
| FilePicker.FilterDirContent | src/FilePicker.cpp:15-30 | hidden names are refused unless allowed; a directory passes iff not refused so; a file outside a non-empty list not starting with "*" is refused |
| FilePicker.FilterFiles | src/FilePicker.cpp:21-29 | a visible file passes iff the list is empty, starts with "*" or holds its extension |
| FilePicker.ListedExtensionPasses | src/FilePicker.cpp:15-30 | a visible file whose extension is one of the joined types passes the filter built from that list |
| FilePicker.JoinLength | src/FilePicker.cpp:197-213 | a joined list is at least as long as its last type |
| ModelShaderManager.MaskOf | src/ModelShaderManager.cpp:151-159 | the mask is below 16 and each attribute bit is set iff the matching buffer id is not UINT32_MAX |
| ModelShaderManager.ResolveMask | src/ModelShaderManager.cpp:15-34 | the variant is one of the eight ids |
| ModelShaderManager.ResolveMaskAttributes | src/ModelShaderManager.cpp:15-34 | the variant a mask resolves to carries exactly the mask's UV, normal and tangent attributes |
| ModelShaderManager.ResolveMaskDependsOnAttributes | src/ModelShaderManager.cpp:15-34 | two masks resolve alike iff they agree on the UV, normal and tangent bits |
| ModelShaderManager.ResolveMaskExtremes | src/ModelShaderManager.cpp:18-33 | all three attribute bits give POS_UV_NORMAL_TANG and none give POS, with or without the position bit |
| ModelShaderManager.Uniforms | src/ModelShaderManager.cpp:105-141 | three uniform buffers then, for the UV variants only, a sampler, each at the binding equal to its index |
| ModelShaderManager.BuildModule | src/ModelShaderManager.cpp:163-180 | the fragment source samples a texture iff the mask has UVs |
| ModelShaderManager.ModuleMatchesMesh | src/ModelShaderManager.cpp:36-180 | a module has the position plus one attribute per present UV, normal and tangent buffer, and the sampler exactly when the mesh has UVs |
| ModelShaderManager.RequestShaderModule | src/ModelShaderManager.cpp:144-185 | the first call clears the cache; the result is the variant's slot; a push happens iff the slot was empty, storing the renderer's id, and other slots keep their ids |
| ModelShaderManager.SecondRequestCached | src/ModelShaderManager.cpp:163-184 | a second request for the same variant returns the cached id, pushes nothing and leaves the cache as it was |
| ModelShaderManager.FirstRequestPushes | src/ModelShaderManager.cpp:146-184 | from the zeroed statics every first request pushes its module and returns the renderer's id |
| ByteCodeToolset.StrideIsElementSize | Sources/IByteCodeToolset.cpp:18-167 | every listed format's stride is its component count times its component's byte size, UNDEFINED's is 0, and only unlisted formats push nothing |
| ByteCodeToolset.CalculateInputStrides | Sources/IByteCodeToolset.cpp:10-170 | the strides held before are kept and followed by the reference strides of the formats, in order |
| ByteCodeToolset.StridesLength | Sources/IByteCodeToolset.cpp:14-169 | at most one stride per format, and exactly one per format iff no format is unlisted |
| ByteCodeToolset.StridesInOrder | Sources/IByteCodeToolset.cpp:12-16 | without unlisted formats the k-th stride belongs to the k-th format |
| ByteCodeToolset.FloatInputs | Sources/IByteCodeToolset.cpp:14-169 | two vec2 and one vec4 32-bit float inputs give strides 8, 8, 16 |
| Dam.VertModeOf | src/data/dam.c:303-311 | a three-letter code names a mode iff it is vuu, vun, vmu or vmn |
| Dam.Scan | src/data/dam.c:286-341 | the argument loop fails only on a missing "-o" parameter or a bad vertex mode |
| Dam.ScanJoin | src/data/dam.c:287-341 | an accepted run of arguments is consumed exactly: what follows it is scanned from the state it ended in |
| Dam.ScanOutputFile | src/data/dam.c:290-294 | "-o X" after any accepted arguments makes X the output file, keeps the vertex mode, and stays the output file when no later argument is a setting |
| Dam.ScanVertMode | src/data/dam.c:301-310 | "-v=code" with a known code after any accepted arguments sets that code's mode, keeps the output file, and stays the mode when no later argument is a setting |
| Dam.ScanMissingOutput | src/data/dam.c:296-298 | "-o" as the last argument after any accepted arguments is refused for its missing parameter |
| Dam.ScanUnknownMode | src/data/dam.c:301-311 | a six-character "-v=" argument with an unknown code after any accepted arguments is refused, naming the code, whatever follows |
| Dam.ScanBadLengthMode | src/data/dam.c:301-340 | a "-v=" argument of another length is refused with an empty code outside a metadata list, and is a metadata file inside one |
| Dam.ParseAssemble | src/data/dam.c:266-341 | a source file with an extension other than "das" and further arguments gives the scan's error, or ASSEMBLE of that file with the output file, mode and metadata files the scan set |
| Dam.ParseOutputThenMode | src/data/dam.c:270-341 | "-o X" then "-v=code" after any accepted arguments give ASSEMBLE with output file X and that code's mode |
| Dam.ParseModeThenOutput | src/data/dam.c:270-341 | "-v=code" then "-o X" after any accepted arguments give ASSEMBLE with output file X and that code's mode |
| Dam.ParseVertMode | src/data/dam.c:270-341 | "-v=code" with a known code after any accepted arguments gives ASSEMBLE with that code's mode |
| Dam.ParseInput | src/data/dam.c:247-345 | argc ≤ 1 gives NONE, "-h"/"--help" SHOW_HELP, "--version" SHOW_VERSION; LIST_DATA only for a ".das" file, with metadata on iff argc == 2; ASSEMBLE only from a file with another extension and argc > 2; too many parameters only after a ".das" file without "--no-meta"; the invalid-file error iff the first argument is no flag and has no extension |
| Dam.ScanKeepsDefaults | src/data/dam.c:274-341 | without "-o" or "-v=" among the arguments the output file and vertex mode keep their values and the scan succeeds |
| Dam.ScanCollectsMeta | src/data/dam.c:315-332 | inside a metadata list every following non-setting argument is collected, in order |
| Dam.ScanMetaFromArgs | src/data/dam.c:315-332 | every collected metadata file is one of the arguments |
| Dam.AssembleWithMeta | src/data/dam.c:270-341 | a source file and "-m"/"--meta" with files gives ASSEMBLE with dst "auto.das", mode 3D_TEXTURE_MAPPED and the files in order |
| Dam.OutputAndModeFlags | src/data/dam.c:290-312 | "-o X" sets the output file and "-v=vun" the mode, ending a metadata list |
| Dam.UnknownModeRefused | src/data/dam.c:301-311 | a six-character "-v=" argument with an unknown code is refused, naming the code |
| Dam.OutputWithoutFile | src/data/dam.c:296-298 | "-o" as the last argument is refused for its missing parameter |
| Dam.ObjExtension | src/data/dam.c:257-267 | the extension of "cube.obj" is "obj" |
| Dam.LongVertFormSkipped | src/data/dam.c:287-341 | as written, a "--vert=" argument outside a metadata list matches no branch and is skipped |
| Dam.AsShortForm | headers/data/dam.h:125 | a "--vert=" argument becomes "-v=" with the same code, and any other argument is kept |
| Dam.Normalized | headers/data/dam.h:125 | the documented rewrite touches only the arguments after the source file |
| Dam.ParseInputAsDocumented | headers/data/dam.h:125 | the documented parser agrees with the code on every command line without a "--vert=" argument |
| Dam.NormalizedOne | headers/data/dam.h:125 | rewriting a command line with one "--vert=" argument gives the same line with "-v=" in its place |
| Dam.LongVertFormSelectsMode | headers/data/dam.h:125 | as documented, "--vert=code" with a known code after any accepted arguments selects that code's mode, exactly as "-v=code" does |
| Dam.LongVertFormIgnored | headers/data/dam.h:125 | "dam cube.obj --vert=vun" keeps the default mode as written and selects the unmapped mode as documented |
| Dam.ListingFlags | src/data/dam.c:257-265 | a ".das" file alone lists with metadata, with "--no-meta" lists without, and with any other argument is refused |

## Left out

- The uniform-buffer variants of the GPU memory manager (`RequestUniformMemoryLocationF/P`, `DeleteUniformMemoryLocation`) are left out. They differ from the main-buffer ones only in taking their alignment from the renderer, which is not part of this model.
- `DENG_ASSERT` debug checks are not modelled as preconditions, because release builds skip them. Their absence shows in `GraphicsShader.JointsCountOverflow` and in `ModelShaderManager.ResolveMask` accepting masks without the position bit.
- The OpenGL vertex sizes (`GL_3D_VERTEX_SIZE` and the others) assume the `das_GL*Vertex` structs, which are not part of this model, hold exactly their position, texture and normal members with no padding.
- Offset finder and buffer manager counters are unbounded naturals: the 64-bit wrap of `asset_size`, `indices_size` and the capacities is not modelled.
- `ZERO_MOD_CEIL_REM`, whose body is not part of this model, is a padding parameter `pad`. Its expected meaning is assumed where a lemma names it (`CeilRem`).
- OffsetFinder.FindGLAssetOffsets: states that the asset section grows by at least the vertex bytes, not the exact amount, because the padding is the `pad` parameter. `VkIndicesAligned` and `GrowAligned` state the exact amount for the ceil-remainder padding.
- ImGui draw-command vertex and index counts are given as data. The ImGui library is not modelled.
- The order in which the allocator picks a free fragment is a parameter (`pick`), standing for the heap order, which depends on library internals.
- GPU calls in the buffer manager's `reallocCheck` are left out: buffer creation, copies and descriptor updates. Only the capacity bookkeeping and the layout are modelled.
- Registry: entries hold a generic element type.
  - The destructor's freeing of element memory is left out.
  - So are `all()` (which writes through an empty vector) and `getItemsByType`.
  - `push` stores `&m_entries.back()`, a pointer a later reallocation can leave dangling. Here the map holds entry positions instead, i.e. what the code evidently intends.
- GPU memory allocator: `std::list` iterators are modelled as positions in the region list, renumbered on every emplace and erase. A dereference of a dangling iterator reads a default region; nothing the engine does after such a read is modelled.
- FreeMemoryWellFormed: well-formedness is promised only when no fragment has both iterators on the freed region. Such a fragment, which the front-gap path at Sources/GPUMemoryAllocator.cpp:196-200 creates, is left dangling as the engine leaves it (`FreePinnedDangles`).
- The CRC-32 and MD5 functions are parameters (the digest values). `DigestBits`/`GetDigestedProperties`, viewport and push constant setters, and `PushAttributeType`/`PushAttributeStride` are plain stores and are left out.
- GraphicsShader: `GetPipelineCullMode` and `GetPrimitiveMode` return the raw two-bit code as a number, since a code of 3 names no cull mode. The vertex, geometry and fragment module CRC fields of non-standard shaders are left out.
- UberShader: location counters are unbounded, so the `int32_t` wrap is not modelled. The model and mesh lookup is given as the primitive, its first morph target and the joint count. MD5 hashing of the properties is left out. The normal location is keyed on `vertex_buffer_id`, as the code does.
- ModelShaderManager: shader sources, attribute byte offsets (which need the parser) and the UBO sizes are left out. The renderer's `PushShader` is the id it returns, given as a parameter.
- ByteCodeToolset: the formats are modelled by width, channel count and kind. Values of the format enumeration outside the switch's 37 cases are `Unlisted`.
- Dam:
  - The `meta_files` array growth by `realloc` and its `MEM_ERR` are left out; the list is a sequence.
  - `meta_c` is unbounded.
  - A usage error exits the program; here it is an error value.
  - An argument list of two with a source file that is not `.das` keeps the zero-initialised action `NONE`, as the code does.
- FilePicker: `std::filesystem::is_directory` is a parameter. `path::filename` and `path::extension` are modelled for '/'-separated paths. The ImGui window code is left out.
- CVars:
  - `_HashKeyWords`, `_FindNode` and the hash function are not part of this model. The key arrives as its list of words, each carrying its hash, and `Get` walks those hashes.
  - Value formatting through `operator<<` is a string parameter.
  - `Set` with an empty word list is undefined in the code: the loop bound `size() - 1` wraps and the loop reads past the list. So `Set` and `Get` require at least one word.
  - `Serialize`/`Unserialize` are file I/O.
- Common: `cm_Rand*`, time, logging and file helpers depend on the C library or the system and are left out. Strings are NUL-terminated buffers of `char`, without encoding.
- Common.FindChunkSize: requires a chunk above 0, because `req_mem % chunk` is undefined in C for a chunk of 0.
- GpuMemoryManager.RequestMainMemoryLocationF: requires a stride above 0 only when the list is non-empty, because the code reads `% stride` only then; the same holds for `RequestMainMemoryLocationP` and its corrected variant. The alignment lemmas (`RequestFAligned`, `CorrectedPlacementAligned`, `FallbackPlacement`) speak of multiples of the stride and so assume a stride above 0.
- Threading and mutexes are left out.

## Findings

| source | as written | input that shows it | evidently intended | confidence | as-written member | corrected member |
|---|---|---|---|---|---|---|
| src/GPUMemoryManager.cpp:47-49 | the gap test pads the block end only when it is unaligned, but the chosen offset always adds `stride - end % stride`, a whole stride when the end is aligned | blocks (0,4),(12,4), stride 4, size 8: the gap [4,12) passes, the block goes to 8 and overlaps (12,4) | the offset is the padded end the gap test used | not executed | GpuMemoryManager.RequestPAlignedGapOverlaps | GpuMemoryManager.RequestMainMemoryLocationPCorrected |
| src/GPUMemoryManager.cpp:44-48 | the `uint32_t` subtraction wraps when the padded end passes the next block's offset, so a tight gap passes the size test | blocks (0,3),(3,4), stride 4, size 100: a block at 4 of size 100 lands before (3,4) and overlaps it | a gap counts only when the padded end is at most the next offset | not executed | GpuMemoryManager.RequestPWrappedGapOverlaps | GpuMemoryManager.RequestMainMemoryLocationPCorrected |
| src/GPUMemoryManager.cpp:134-155 | the binary search has no exit for an offset strictly between two blocks' offsets; an offset below the first block or above the last one does leave the loop | blocks at 0, 10 and 20, deleting 15: the index moves back and forth forever | a missing offset leaves the blocks unchanged | not executed | GpuMemoryManager.DeleteMissingOffsetLoops | GpuMemoryManager.DeleteMainMemoryLocationCorrected |
| Sources/GPUMemoryAllocator.cpp:106-111 | with alignment 0 the mask `~(0 - 1)` is 0, so the appended region's offset becomes 0 | region (0,4), request of size 4 with alignment 0: the new region is (0,4) on top of the old one | alignment 0 leaves the offset at the previous region's end, 4 | not executed | GpuMemoryAllocator.ZeroAlignmentAppendOverlaps | GpuMemoryAllocator.RequestMemory |
| Sources/GPUMemoryAllocator.cpp:145-204 | `erase(it)` runs even when no region has the offset, and `it` is then `end()` | freeing offset 8 with regions [(0,4)] erases `end()`, which is undefined | a missing offset changes nothing and returns false | not executed | GpuMemoryAllocator.FreeMemoryWellFormed | Sources/GPUMemoryAllocator.cpp:146-204 | freeing keeps every fragment's iterators on existing regions, unless a fragment had both iterators on the freed region |
| GpuMemoryAllocator.FreePinnedDangles | Sources/GPUMemoryAllocator.cpp:148-153 | freeing the only region of [(4,4)] with the fragment (0,0,0,4) leaves that fragment naming no region |
| GpuMemoryAllocator.FreeMissingOffset | GpuMemoryAllocator.FreeMemory |
| Sources/GPUMemoryAllocator.cpp:192-201 | the first-region test compares the region's end with its own offset, which holds only for size 0 | regions (0,4),(4,4), freeing 0: no fragment is recorded and [0,4) is lost for reuse | the test compares the region's end with the next region's offset, recording [0,4) | not executed | GpuMemoryAllocator.FreeFirstRegionKeepsGap | GpuMemoryAllocator.FreeMemory |
| Include/deng/IGraphicsShader.h:185-189 | disabling XORs the complement of the bits, which toggles every other bit and leaves the named ones as they were | enabling then disabling bit 0 leaves it set; disabling bit 0 on an empty word sets bit 1 | disabling clears exactly the named bits | not executed | GraphicsShader.SetPropertyAsWrittenKeepsBit | GraphicsShader.SetPropertyThenQuery |
| Include/deng/IGraphicsShader.h:197-200 | disabling XORs the negation of the current bit, so a clear bit becomes set and a set bit stays set | `SetEnableColorMultiplier(false)` on either value leaves the bit set | disabling clears the bit | not executed | GraphicsShader.ColorMultiplierAsWrittenStaysOn | GraphicsShader.ColorMultiplierRoundTrip |
| Include/deng/IGraphicsShader.h:242-245 | disabling XORs a 1 into the bit, toggling it | `SetIsPbr(false)` on a clear bit sets it | disabling clears the bit | not executed | GraphicsShader.SetIsPbrAsWrittenToggles | GraphicsShader.PbrRoundTrip |
| src/FilePicker.cpp:203-205 | `substr(prev_pos, pos)` passes the separator position as a length, so later entries run past their separator | ".a\|.b\|.c" gives ".a", ".b\|.c", ".c" | each entry is the text between two separators: ".a", ".b", ".c" | not executed | FilePicker.ParseAsWrittenOverreaches | FilePicker.ParseCorrectedSplitsTypes |
| Include/deng/CVars.h:145-157 | a newline at position 0 takes the first-character branch, which does not request an indent, so the next line gets no "# " | the description "\nab" gives "# \nab" | every line starts with "# ": "# \n# ab" | not executed | CVars.LeadingNewlineUncommented | CVars.MakeCVarString |
| headers/data/dam.h:125 | the help text offers `--vert=` as a spelling of `-v=`, but the loop at src/data/dam.c:301 only matches the `-v=` prefix, so `--vert=vun` is skipped outside a metadata list and taken as a metadata file inside one | `dam cube.obj --vert=vun` assembles with the default mode 3D_TEXTURE_MAPPED | `--vert=<code>` selects the mode as `-v=<code>` does | not executed | Dam.LongVertFormIgnored | Dam.LongVertFormSelectsMode |

=== FILE: assets.dfy ===
/**
 * The asset description shared by the buffer-offset code: the vertex layout
 * an asset uses, how many elements of each kind it has, and the byte offsets
 * that the offset finders write back into it.
 */
module Assets {

  /** Vertex layouts; the two UNOR layouts are declared but no offset finder
      handles them. */
  datatype AssetMode =
    | Undefined
    | TextureMapped3D
    | TextureMapped3DUnor
    | Unmapped3D
    | Unmapped3DUnor
    | TextureMapped2D
    | Unmapped2D

  /** Sizes of the per-vertex records, in bytes (every member is a 4-byte
      float). */
  const POS_DATA_SIZE: nat := 12      // das_ObjPosData
  const POS_DATA_2D_SIZE: nat := 8    // das_ObjPosData2D
  const TEXTURE_DATA_SIZE: nat := 8   // das_ObjTextureData
  const NORMAL_DATA_SIZE: nat := 12   // das_ObjNormalData
  const INDEX_SIZE: nat := 4          // deng_idx_t and deng_ui32_t

  /** Interleaved OpenGL vertices: position, then texture coordinate and
      normal where the layout has them. The `das_GL*Vertex` structs are not
      part of this model: each size assumes its struct holds exactly these
      members, with no padding between or after them. */
  const GL_2D_VERTEX_UNMAPPED_SIZE: nat := POS_DATA_2D_SIZE
  const GL_2D_VERTEX_SIZE: nat := POS_DATA_2D_SIZE + TEXTURE_DATA_SIZE
  const GL_3D_VERTEX_UNMAPPED_SIZE: nat := POS_DATA_SIZE + NORMAL_DATA_SIZE
  const GL_3D_VERTEX_SIZE: nat := POS_DATA_SIZE + TEXTURE_DATA_SIZE + NORMAL_DATA_SIZE

  /** The "not present" marker for a vertex stream offset. */
  const UINT64_MAX: nat := 0xFFFF_FFFF_FFFF_FFFF

  datatype Offsets = Offsets(pos: nat, tex: nat, nor: nat, ind: nat)

  /**
   * `vertCount` is the merged vertex count an OpenGL asset uploads; `pn`,
   * `tn` and `nn` are the position, texture and normal counts of the
   * separate Vulkan streams; `indexCount` is the number of index triples.
   */
  datatype Asset = Asset(
    mode: AssetMode,
    isOpenGL: bool,
    vertCount: nat,
    pn: nat,
    tn: nat,
    nn: nat,
    indexCount: nat,
    offsets: Offsets)

  /** The four layouts the offset finders accept. */
  predicate Handled(m: AssetMode) {
    m.TextureMapped3D? || m.Unmapped3D? || m.TextureMapped2D? || m.Unmapped2D?
  }

  /** How many index streams a Vulkan asset stores: positions, plus texture
      coordinates and normals where the layout has them. */
  function IndexStreams(m: AssetMode): nat {
    match m
    case Unmapped2D => 1
    case TextureMapped2D => 2
    case Unmapped3D => 2
    case TextureMapped3D => 3
    case _ => 0
  }

  /** Bytes of vertex data in the separate Vulkan streams. */
  function VkVertexBytes(a: Asset): nat {
    match a.mode
    case Unmapped2D => a.pn * POS_DATA_2D_SIZE
    case TextureMapped2D => a.pn * POS_DATA_2D_SIZE + a.tn * TEXTURE_DATA_SIZE
    case Unmapped3D => a.pn * POS_DATA_SIZE + a.nn * NORMAL_DATA_SIZE
    case TextureMapped3D => a.pn * POS_DATA_SIZE + a.tn * TEXTURE_DATA_SIZE + a.nn * NORMAL_DATA_SIZE
    case _ => 0
  }

  /** Bytes of one interleaved OpenGL vertex. */
  function GlVertexSize(m: AssetMode): nat {
    match m
    case Unmapped2D => GL_2D_VERTEX_UNMAPPED_SIZE
    case TextureMapped2D => GL_2D_VERTEX_SIZE
    case Unmapped3D => GL_3D_VERTEX_UNMAPPED_SIZE
    case TextureMapped3D => GL_3D_VERTEX_SIZE
    case _ => 0
  }
}

=== FILE: bits.dfy ===
/**
 * Powers of two, and machine words written as the set of positions of
 * their one bits. A word of that form makes OR a union, AND an
 * intersection, XOR a symmetric difference and a left shift an offset on
 * every position; `Encode` places the low bits of a number at an offset and
 * `Decode` reads a window of positions back as a number.
 */
module Bits {

  function Pow2(k: nat): (r: nat)
    ensures r >= 1
  {
    if k == 0 then 1 else 2 * Pow2(k - 1)
  }

  lemma {:induction false} Pow2Add(a: nat, b: nat)
    ensures Pow2(a + b) == Pow2(a) * Pow2(b)
    decreases a
  {
    if a > 0 {
      Pow2Add(a - 1, b);
    }
  }

  lemma Pow2Of32()
    ensures Pow2(32) == 0x1_0000_0000
  {
    assert Pow2(4) == 16;
    Pow2Add(4, 4);
    Pow2Add(8, 8);
    Pow2Add(16, 16);
  }

  /** Bit `i` of `n`, counting from the least significant. */
  predicate Bit(n: nat, i: nat)
    decreases i
  {
    if i == 0 then n % 2 == 1 else Bit(n / 2, i - 1)
  }

  /** Positions `off + i` for every one bit `i < w` of `n`. */
  function Encode(n: nat, off: nat, w: nat): set<nat>
    decreases w
  {
    if w == 0 then {}
    else (if n % 2 == 1 then {off} else {}) + Encode(n / 2, off + 1, w - 1)
  }

  /** The number whose bit `i` is set when position `off + i` is, over the
      window `off .. off + w - 1`. */
  function Decode(f: set<nat>, off: nat, w: nat): nat
    decreases w
  {
    if w == 0 then 0
    else (if off in f then 1 else 0) + 2 * Decode(f, off + 1, w - 1)
  }

  /** True when the set has no position in the window. */
  predicate ClearWindow(f: set<nat>, off: nat, w: nat) {
    forall i :: i in f ==> i < off || off + w <= i
  }

  /** Encoding only ever produces positions inside its window. */
  lemma {:induction false} EncodeWithin(n: nat, off: nat, w: nat)
    ensures forall i :: i in Encode(n, off, w) ==> off <= i < off + w
    decreases w
  {
    if w > 0 {
      EncodeWithin(n / 2, off + 1, w - 1);
    }
  }

  lemma {:induction false} EncodeZero(off: nat, w: nat)
    ensures Encode(0, off, w) == {}
    decreases w
  {
    if w > 0 {
      EncodeZero(off + 1, w - 1);
    }
  }

  lemma EncodeOne(off: nat, w: nat)
    requires w > 0
    ensures Encode(1, off, w) == {off}
  {
    EncodeZero(off + 1, w - 1);
  }

  /** A number below `2^k` sets no position at or above `off + k`. */
  lemma {:induction false} EncodeFits(n: nat, off: nat, w: nat, k: nat)
    requires n < Pow2(k)
    ensures forall i :: i in Encode(n, off, w) ==> i < off + k
    decreases w
  {
    if w > 0 {
      if k == 0 {
        EncodeZero(off, w);
      } else {
        EncodeFits(n / 2, off + 1, w - 1, k - 1);
      }
    }
  }

  /** Decoding reads only its window. */
  lemma {:induction false} DecodeLocal(f: set<nat>, g: set<nat>, off: nat, w: nat)
    requires forall i :: off <= i < off + w ==> (i in f <==> i in g)
    ensures Decode(f, off, w) == Decode(g, off, w)
    decreases w
  {
    if w > 0 {
      DecodeLocal(f, g, off + 1, w - 1);
    }
  }

  lemma {:induction false} DecodeBound(f: set<nat>, off: nat, w: nat)
    ensures Decode(f, off, w) < Pow2(w)
    decreases w
  {
    if w > 0 {
      DecodeBound(f, off + 1, w - 1);
    }
  }

  /** A number that fits its window, ORed into a set whose window is clear,
      decodes back to itself. */
  lemma {:induction false} DecodeEncode(f: set<nat>, n: nat, off: nat, w: nat)
    requires n < Pow2(w) && ClearWindow(f, off, w)
    ensures Decode(f + Encode(n, off, w), off, w) == n
    decreases w
  {
    if w > 0 {
      var low: set<nat> := if n % 2 == 1 then {off} else {};
      var rest := Encode(n / 2, off + 1, w - 1);
      assert f + Encode(n, off, w) == (f + low) + rest;
      assert off !in rest by {
        EncodeWithin(n / 2, off + 1, w - 1);
      }
      assert ClearWindow(f + low, off + 1, w - 1);
      DecodeEncode(f + low, n / 2, off + 1, w - 1);
    }
  }

  /** Decoding an empty set gives 0. */
  lemma {:induction false} DecodeEmpty(off: nat, w: nat)
    ensures Decode({}, off, w) == 0
    decreases w
  {
    if w > 0 {
      DecodeEmpty(off + 1, w - 1);
    }
  }

  /** Position `off + i` is encoded exactly when `i` lies in the window and
      bit `i` of the number is set. */
  lemma {:induction false} EncodeBit(n: nat, off: nat, w: nat, i: nat)
    ensures off + i in Encode(n, off, w) <==> i < w && Bit(n, i)
    decreases w
  {
    if w > 0 {
      EncodeWithin(n / 2, off + 1, w - 1);
      if i > 0 {
        EncodeBit(n / 2, off + 1, w - 1, i - 1);
      }
    }
  }

  /** A number that fits in `k` bits encodes the same in any wider window. */
  lemma {:induction false} EncodeNarrow(n: nat, off: nat, w: nat, k: nat)
    requires n < Pow2(k) && k <= w
    ensures Encode(n, off, w) == Encode(n, off, k)
    decreases k
  {
    if k == 0 {
      EncodeZero(off, w);
    } else {
      EncodeNarrow(n / 2, off + 1, w - 1, k - 1);
    }
  }

  /** Bit `i` of the `w`-bit complement `2^w - 1 - b` is the negation of bit
      `i` of `b`. */
  lemma {:induction false} ComplementBit(b: nat, w: nat, i: nat)
    requires b < Pow2(w) && i < w
    ensures Bit(Pow2(w) - 1 - b, i) <==> !Bit(b, i)
    decreases i
  {
    var p := Pow2(w - 1);
    assert Pow2(w) == 2 * p;
    if i > 0 {
      assert (2 * p - 1 - b) / 2 == p - 1 - b / 2;
      ComplementBit(b / 2, w - 1, i - 1);
    }
  }
}

=== FILE: buffer_manager.dfy ===
/**
 * The Vulkan buffer manager's bookkeeping: per-asset offsets in the main
 * buffer, the largest per-asset footprint, and the capacity checks that
 * decide when the buffer is reallocated. Unlike the cross-API finder it
 * neither pads vertex data nor keeps a separate index section.
 */
module BufferManager {
  import opened Wrappers
  import opened Assets
  import OffsetFinder

  /** Sizes and capacities of the asset and ui parts of the main buffer. */
  datatype BufferData = BufferData(assetSize: nat, assetCap: nat, uiSize: nat, uiCap: nat)

  datatype CapCheck = CapCheck(grown: bool, data: BufferData)

  datatype Placed = Placed(asset: Asset, data: BufferData)

  /** ImGui totals for the ui part, and the byte sizes of its types. */
  datatype UiData = UiData(vertCount: nat, indCount: nat, vertSize: nat, idxSize: nat)

  /** The result of a reallocation check. */
  datatype Realloc = Realloc(assets: seq<Asset>, data: BufferData, realloc: bool)

  /**
   * The growth rule: nothing while the size is below the capacity;
   * otherwise 1.5 times the size when 1.5 times the capacity would not
   * exceed it, else 1.5 times the capacity.
   */
  function GrownCap(size: nat, cap: nat): nat {
    if cap * 3 / 2 <= size then size * 3 / 2 else cap * 3 / 2
  }

  function AssetCapCheck(d: BufferData): (r: CapCheck)
    ensures d.assetSize < d.assetCap ==> r == CapCheck(false, d)
    ensures d.assetSize >= d.assetCap ==>
              r.grown && r.data == d.(assetCap := r.data.assetCap) &&
              r.data.assetCap >= d.assetCap * 3 / 2 &&
              (d.assetSize >= 2 ==> r.data.assetCap > d.assetSize)
  {
    if d.assetSize < d.assetCap then CapCheck(false, d)
    else CapCheck(true, d.(assetCap := GrownCap(d.assetSize, d.assetCap)))
  }

  function UiCapCheck(d: BufferData): (r: CapCheck)
    ensures d.uiSize < d.uiCap ==> r == CapCheck(false, d)
    ensures d.uiSize >= d.uiCap ==>
              r.grown && r.data == d.(uiCap := r.data.uiCap) &&
              r.data.uiCap >= d.uiCap * 3 / 2 &&
              (d.uiSize >= 2 ==> r.data.uiCap > d.uiSize)
  {
    if d.uiSize < d.uiCap then CapCheck(false, d)
    else CapCheck(true, d.(uiCap := GrownCap(d.uiSize, d.uiCap)))
  }

  /** The grown capacity is the cross-API rule's scaled value whenever
      1.5 times the capacity does not exceed the size, and never above it. */
  lemma GrownCapAgainstMax(size: nat, cap: nat)
    requires size >= cap
    ensures GrownCap(size, cap) <= OffsetFinder.Max(cap * 3 / 2, size * 3 / 2)
    ensures cap * 3 / 2 <= size ==> GrownCap(size, cap) == OffsetFinder.Max(cap * 3 / 2, size * 3 / 2)
  {}

  /** A grown asset capacity passes the next check from size 2 upwards. */
  lemma AssetCapSettles(d: BufferData)
    requires d.assetSize >= d.assetCap && d.assetSize >= 2
    ensures !AssetCapCheck(AssetCapCheck(d).data).grown
  {}

  /**
   * Per-asset offsets: vertex streams one after another, then the index
   * streams, with no padding; a stream the layout lacks gets UINT64_MAX and
   * an unhandled layout is a runtime error.
   */
  function FindAssetOffsets(d: BufferData, a: Asset): (r: Result<Placed, string>)
    ensures r.Err? <==> !Handled(a.mode)
    ensures r.Ok? ==>
              && r.value.asset.offsets.pos == d.assetSize
              && r.value.data == d.(assetSize := r.value.asset.offsets.ind + IndexStreams(a.mode) * a.indexCount * INDEX_SIZE)
  {
    var pos := d.assetSize;
    match a.mode
    case Unmapped2D =>
      var ind := pos + a.pn * POS_DATA_2D_SIZE;
      Ok(Placed(a.(offsets := Offsets(pos, UINT64_MAX, UINT64_MAX, ind)),
                d.(assetSize := ind + a.indexCount * INDEX_SIZE)))
    case TextureMapped2D =>
      var tex := pos + a.pn * POS_DATA_2D_SIZE;
      var ind := pos + (a.pn * POS_DATA_2D_SIZE + a.tn * TEXTURE_DATA_SIZE);
      Ok(Placed(a.(offsets := Offsets(pos, tex, UINT64_MAX, ind)),
                d.(assetSize := ind + 2 * a.indexCount * INDEX_SIZE)))
    case Unmapped3D =>
      var nor := pos + a.pn * POS_DATA_SIZE;
      var ind := pos + (a.pn * POS_DATA_SIZE + a.nn * NORMAL_DATA_SIZE);
      Ok(Placed(a.(offsets := Offsets(pos, UINT64_MAX, nor, ind)),
                d.(assetSize := ind + 2 * a.indexCount * INDEX_SIZE)))
    case TextureMapped3D =>
      var tex := pos + a.pn * POS_DATA_SIZE;
      var nor := pos + a.pn * POS_DATA_SIZE + a.tn * TEXTURE_DATA_SIZE;
      var ind := pos + (a.pn * POS_DATA_SIZE + a.tn * TEXTURE_DATA_SIZE + a.nn * NORMAL_DATA_SIZE);
      Ok(Placed(a.(offsets := Offsets(pos, tex, nor, ind)),
                d.(assetSize := ind + 3 * a.indexCount * INDEX_SIZE)))
    case _ =>
      Err("Invalid asset vertices format for asset")
  }

  /** The index streams start right after the vertex data. */
  lemma IndexAfterVertices(d: BufferData, a: Asset)
    requires Handled(a.mode)
    ensures FindAssetOffsets(d, a).value.asset.offsets.ind == d.assetSize + VkVertexBytes(a)
  {}

  /** The padding the Vulkan buffer manager does not apply. */
  function NoPad(x: nat, n: nat): nat { 0 }

  /** The buffer manager lays an asset out exactly as the cross-API finder's
      Vulkan layout does with the padding left out. */
  lemma SameAsCrossApiWithoutPadding(d: BufferData, a: Asset, s: OffsetFinder.Section)
    requires s.assetSize == d.assetSize
    ensures var mine := FindAssetOffsets(d, a);
            var theirs := OffsetFinder.FindVkAssetOffsets(s, a, NoPad);
            mine.Ok? == theirs.Ok? &&
            (mine.Ok? ==> mine.value.asset == theirs.value.asset &&
                          mine.value.data.assetSize == theirs.value.section.assetSize)
  {}

  /** Bytes of index data each layout adds: n, 2n, 2n and 3n indices of four
      bytes for 2D unmapped, 2D textured, 3D unmapped and 3D textured. */
  lemma IndexBytesPerMode(d: BufferData, a: Asset)
    requires Handled(a.mode)
    ensures var p := FindAssetOffsets(d, a).value;
            p.data.assetSize - p.asset.offsets.ind ==
              (match a.mode
               case Unmapped2D => a.indexCount * 4
               case TextureMapped2D => 2 * a.indexCount * 4
               case Unmapped3D => 2 * a.indexCount * 4
               case _ => 3 * a.indexCount * 4)
  {}

  /** Places the assets in order from a reset asset size. */
  function PlaceAll(assets: seq<Asset>, d: BufferData): (r: Result<(seq<Asset>, BufferData), string>)
    ensures r.Ok? ==> |r.value.0| == |assets|
    ensures r.Ok? ==> r.value.1 == d.(assetSize := r.value.1.assetSize) && r.value.1.assetSize >= d.assetSize
    decreases |assets|
  {
    if assets == [] then Ok(([], d))
    else
      match FindAssetOffsets(d, assets[0])
      case Err(e) => Err(e)
      case Ok(p) =>
        match PlaceAll(assets[1..], p.data)
        case Err(e) => Err(e)
        case Ok(rest) => Ok(([p.asset] + rest.0, rest.1))
  }

  /**
   * The bookkeeping part of a reallocation check: recompute every asset's
   * offsets from 0, take the ui size from the ImGui totals when present,
   * then run both capacity checks; reallocation is needed when either grew.
   */
  function ReallocCheck(assets: seq<Asset>, d: BufferData, ui: Option<UiData>): (r: Result<Realloc, string>)
    ensures r.Ok? ==> |r.value.assets| == |assets|
    ensures r.Ok? ==> (r.value.realloc <==> (r.value.data.assetSize >= d.assetCap || r.value.data.uiSize >= d.uiCap))
    ensures r.Ok? && r.value.realloc && r.value.data.assetSize >= 2 && r.value.data.uiSize >= 2 ==>
              r.value.data.assetSize < r.value.data.assetCap && r.value.data.uiSize < r.value.data.uiCap
  {
    match PlaceAll(assets, d.(assetSize := 0))
    case Err(e) => Err(e)
    case Ok(placed) =>
      var d1 := placed.1;
      var d2 :=
        match ui
        case Some(u) => d1.(uiSize := u.indCount * u.idxSize + u.vertCount * u.vertSize)
        case None => d1;
      var assetCheck := AssetCapCheck(d2);
      var uiCheck := UiCapCheck(assetCheck.data);
      Ok(Realloc(placed.0, uiCheck.data, assetCheck.grown || uiCheck.grown))
  }

  /**
   * The bytes an asset needs on its own; both 2D layouts count positions at
   * the 3D record size.
   */
  function Footprint(a: Asset): Option<nat> {
    match a.mode
    case Unmapped2D => Some(a.pn * POS_DATA_SIZE + a.indexCount * INDEX_SIZE)
    case TextureMapped2D => Some(a.pn * POS_DATA_SIZE + a.tn * TEXTURE_DATA_SIZE + 2 * a.indexCount * INDEX_SIZE)
    case Unmapped3D => Some(a.pn * POS_DATA_SIZE + a.nn * NORMAL_DATA_SIZE + 2 * a.indexCount * INDEX_SIZE)
    case TextureMapped3D =>
      Some(a.pn * POS_DATA_SIZE + a.tn * TEXTURE_DATA_SIZE + a.nn * NORMAL_DATA_SIZE + 3 * a.indexCount * INDEX_SIZE)
    case _ => None
  }

  /** The footprint is the cross-API one without padding, and never below
      the bytes the asset's own layout takes. */
  lemma FootprintCoversLayout(a: Asset, d: BufferData)
    ensures Footprint(a) == OffsetFinder.Footprint(a, NoPad)
    ensures Handled(a.mode) ==>
              var p := FindAssetOffsets(d, a).value;
              p.data.assetSize - d.assetSize <= Footprint(a).value
  {}

  /**
   * The largest footprint over assets [first, second), 0 for an empty
   * range; an unhandled asset re-uses the previous size, which never
   * changes the maximum.
   */
  method FindMaxAssetSize(assets: seq<Asset>, first: nat, second: nat) returns (maxSize: nat)
    requires second <= |assets|
    ensures first >= second ==> maxSize == 0
    ensures forall i :: first <= i < second && Footprint(assets[i]).Some? ==>
              Footprint(assets[i]).value <= maxSize
    ensures maxSize == 0 || exists i :: first <= i < second && Footprint(assets[i]) == Some(maxSize)
  {
    maxSize := 0;
    var curSize := 0;
    var i := first;
    while i < second
      invariant first <= i
      invariant curSize <= maxSize
      invariant forall j :: first <= j < i && j < second && Footprint(assets[j]).Some? ==>
                  Footprint(assets[j]).value <= maxSize
      invariant maxSize == 0 || exists j :: first <= j < i && j < second && Footprint(assets[j]) == Some(maxSize)
      decreases second - i
    {
      var f := Footprint(assets[i]);
      if f.Some? {
        curSize := f.value;
      }
      if curSize > maxSize {
        maxSize := curSize;
      }
      i := i + 1;
    }
  }
}

=== FILE: byte_code_toolset.dfy ===
/**
 * Input strides of a shader's vertex inputs: each input format the stride
 * switch lists yields the byte size of one element, UNDEFINED yields 0,
 * and any other format yields nothing.
 */
module ByteCodeToolset {

  /** Width of one component in bits. */
  datatype Width = W16 | W32 | W64

  /** The components a format names: R, RG, RGB or RGBA. */
  datatype Channels = R | RG | RGB | RGBA

  datatype Kind = UInt | SInt | SFloat

  /** The formats the switch lists are `Format`s; any other value of the
      format enumeration is `Unlisted`. */
  datatype ShaderInputFormat =
    | Undefined
    | Format(width: Width, channels: Channels, kind: Kind)
    | Unlisted(code: nat)

  function ComponentCount(c: Channels): nat {
    match c
    case R => 1
    case RG => 2
    case RGB => 3
    case RGBA => 4
  }

  /** `sizeof` of the component type: 16-bit integers and halves are 2
      bytes, 32-bit integers and `float` 4, 64-bit integers and `double`
      8. */
  function ComponentBytes(w: Width): nat {
    match w
    case W16 => 2
    case W32 => 4
    case W64 => 8
  }

  /** What the switch does for one format. */
  datatype Push = Pushes(stride: nat) | Skips

  /** The switch's case for one format: the value it pushes, if any. The
      signedness and float kinds of a width share one size. */
  function StrideOf(f: ShaderInputFormat): (r: Push)
  {
    match f
    case Undefined => Pushes(0)
    case Unlisted(_) => Skips
    case Format(w, c, _) =>
      match (w, c)
      case (W16, R) => Pushes(2)
      case (W16, RG) => Pushes(4)
      case (W16, RGB) => Pushes(6)
      case (W16, RGBA) => Pushes(8)
      case (W32, R) => Pushes(4)
      case (W32, RG) => Pushes(8)
      case (W32, RGB) => Pushes(12)
      case (W32, RGBA) => Pushes(16)
      case (W64, R) => Pushes(8)
      case (W64, RG) => Pushes(16)
      case (W64, RGB) => Pushes(24)
      case (W64, RGBA) => Pushes(32)
  }

  /** Every listed format's stride is its component count times its
      component's byte width, and only unlisted formats push nothing. */
  lemma StrideIsElementSize(f: ShaderInputFormat)
    ensures f.Format? ==> StrideOf(f) == Pushes(ComponentCount(f.channels) * ComponentBytes(f.width))
    ensures f.Undefined? ==> StrideOf(f) == Pushes(0)
    ensures StrideOf(f).Skips? <==> f.Unlisted?
  {}

  /** The strides of a list of formats, in order, skipping unlisted ones. */
  function Strides(fs: seq<ShaderInputFormat>): seq<nat>
    decreases |fs|
  {
    if fs == [] then []
    else
      match StrideOf(fs[0])
      case Pushes(s) => [s] + Strides(fs[1..])
      case Skips => Strides(fs[1..])
  }

  /** The loop over the formats, appending to the strides already held. */
  method CalculateInputStrides(inputFormats: seq<ShaderInputFormat>, inputStrides: seq<nat>) returns (strides: seq<nat>)
    ensures strides == inputStrides + Strides(inputFormats)
  {
    strides := inputStrides;
    var i := 0;
    while i < |inputFormats|
      invariant 0 <= i <= |inputFormats|
      invariant strides + Strides(inputFormats[i..]) == inputStrides + Strides(inputFormats)
    {
      assert inputFormats[i..][1..] == inputFormats[i + 1..];
      match StrideOf(inputFormats[i]) {
        case Pushes(s) =>
          strides := strides + [s];
        case Skips =>
      }
      i := i + 1;
    }
    assert inputFormats[i..] == [];
  }

  /** One stride per format exactly when no format is unlisted. */
  lemma {:induction false} StridesLength(fs: seq<ShaderInputFormat>)
    ensures |Strides(fs)| <= |fs|
    ensures |Strides(fs)| == |fs| <==> forall k :: 0 <= k < |fs| ==> !fs[k].Unlisted?
    decreases |fs|
  {
    if fs != [] {
      StridesLength(fs[1..]);
      assert forall k :: 1 <= k < |fs| ==> fs[1..][k - 1] == fs[k];
    }
  }

  /** Without unlisted formats the k-th stride belongs to the k-th format. */
  lemma {:induction false} StridesInOrder(fs: seq<ShaderInputFormat>, k: nat)
    requires forall j :: 0 <= j < |fs| ==> !fs[j].Unlisted?
    requires k < |fs|
    ensures k < |Strides(fs)| && Pushes(Strides(fs)[k]) == StrideOf(fs[k])
    decreases k
  {
    StridesLength(fs);
    if k > 0 {
      StridesInOrder(fs[1..], k - 1);
    }
  }

  /** Two vec2 inputs and a vec4 input of 32-bit floats. */
  lemma FloatInputs()
    ensures Strides([Format(W32, RG, SFloat), Format(W32, RG, SFloat), Format(W32, RGBA, SFloat)]) == [8, 8, 16]
  {
    var fs := [Format(W32, RG, SFloat), Format(W32, RG, SFloat), Format(W32, RGBA, SFloat)];
    assert fs[1..][1..] == [Format(W32, RGBA, SFloat)];
    assert fs[1..][1..][1..] == [];
  }
}

=== FILE: common.dfy ===
/**
 * The self-contained integer and string helpers of the engine's common C
 * library: power-of-two rounding at four widths, chunk rounding, file
 * extension lookup, in-place character replacement, ASCII case mapping and
 * line counting.
 *
 * C strings are modelled as `seq<char>` holding the characters before the
 * terminating NUL; an in-place edit is modelled as a function from the old
 * buffer to the new one.
 */
module Common {
  import opened Wrappers

  const NUL: char := 0 as char
  const U64_LIMIT: nat := 0x1_0000_0000_0000_0000
  const U32_LIMIT: nat := 0x1_0000_0000

  /** A C string: no NUL before its end. */
  predicate IsCString(s: seq<char>) {
    forall i :: 0 <= i < |s| ==> s[i] != NUL
  }

  /** strlen on a buffer: the index of the first NUL, or the buffer length. */
  function StrLen(b: seq<char>): (n: nat)
    ensures n <= |b|
    ensures forall j :: 0 <= j < n ==> b[j] != NUL
    ensures n < |b| ==> b[n] == NUL
  {
    if |b| == 0 then 0
    else if b[0] == NUL then 0
    else 1 + StrLen(b[1..])
  }

  /** Index of the first occurrence of `c` in `s`, or `|s|` when absent. */
  function FirstIndex(s: seq<char>, c: char): nat
  {
    if |s| == 0 then 0
    else if s[0] == c then 0
    else 1 + FirstIndex(s[1..], c)
  }

  lemma {:induction false} FirstIndexSpec(s: seq<char>, c: char)
    ensures FirstIndex(s, c) <= |s|
    ensures forall j :: 0 <= j < FirstIndex(s, c) ==> s[j] != c
    ensures FirstIndex(s, c) < |s| ==> s[FirstIndex(s, c)] == c
  {
    if |s| > 0 && s[0] != c {
      FirstIndexSpec(s[1..], c);
    }
  }

  /*************************************************************************/
  /* Power-of-two rounding (cm_ToPow2I8/16/32/64)                          */
  /*************************************************************************/

  predicate IsPow2_8(p: bv8) { p != 0 && p & (p - 1) == 0 }
  predicate IsPow2_16(p: bv16) { p != 0 && p & (p - 1) == 0 }
  predicate IsPow2_32(p: bv32) { p != 0 && p & (p - 1) == 0 }
  predicate IsPow2_64(p: bv64) { p != 0 && p & (p - 1) == 0 }

  /**
   * Smears the highest set bit of `n` into every lower bit and adds one.
   * The result is the smallest power of two strictly above `n`; when the top
   * bit of `n` is already set the addition wraps to zero.
   */
  function ToPow2I8(n: bv8): (r: bv8)
    ensures n < 0x80 ==> IsPow2_8(r) && n < r && r >> 1 <= n
    ensures n >= 0x80 ==> r == 0
  {
    var a := n | (n >> 1);
    var b := a | (a >> 2);
    var c := b | (b >> 4);
    c + 1
  }

  function ToPow2I16(n: bv16): (r: bv16)
    ensures n < 0x8000 ==> IsPow2_16(r) && n < r && r >> 1 <= n
    ensures n >= 0x8000 ==> r == 0
  {
    var a := n | (n >> 1);
    var b := a | (a >> 2);
    var c := b | (b >> 4);
    var d := c | (c >> 8);
    d + 1
  }

  function ToPow2I32(n: bv32): (r: bv32)
    ensures n < 0x8000_0000 ==> IsPow2_32(r) && n < r && r >> 1 <= n
    ensures n >= 0x8000_0000 ==> r == 0
  {
    var a := n | (n >> 1);
    var b := a | (a >> 2);
    var c := b | (b >> 4);
    var d := c | (c >> 8);
    var e := d | (d >> 16);
    e + 1
  }

  function ToPow2I64(n: bv64): (r: bv64)
    ensures n < 0x8000_0000_0000_0000 ==> IsPow2_64(r) && n < r && r >> 1 <= n
    ensures n >= 0x8000_0000_0000_0000 ==> r == 0
  {
    var a := n | (n >> 1);
    var b := a | (a >> 2);
    var c := b | (b >> 4);
    var d := c | (c >> 8);
    var e := d | (d >> 16);
    var f := e | (e >> 32);
    f + 1
  }

  /** No power of two strictly above `n` is smaller than the rounded value. */
  lemma ToPow2I32Least(n: bv32, p: bv32)
    requires n < 0x8000_0000
    requires IsPow2_32(p) && n < p
    ensures ToPow2I32(n) <= p
  {
    var r := ToPow2I32(n);
    assert r >> 1 <= n;
    PowerOfTwoOrder32(r, p);
  }

  /** Two powers of two: if one is above half the other, it is at least the other. */
  lemma PowerOfTwoOrder32(r: bv32, p: bv32)
    requires IsPow2_32(r) && IsPow2_32(p) && r >> 1 < p
    ensures r <= p
  {}

  /*************************************************************************/
  /* Chunk rounding (cm_FindChunkSize)                                     */
  /*************************************************************************/

  /** The least multiple of `chunk` not below `reqMem`, computed in 64 bits. */
  function FindChunkSize(chunk: nat, reqMem: nat): (r: nat)
    requires 0 < chunk < U64_LIMIT && reqMem < U64_LIMIT
    ensures r < U64_LIMIT
    ensures reqMem + (chunk - 1) < U64_LIMIT ==>
              r % chunk == 0 && reqMem <= r < reqMem + chunk
  {
    var pad := if reqMem % chunk > 0 then chunk - reqMem % chunk else 0;
    assert reqMem + (chunk - 1) < U64_LIMIT ==> (reqMem + pad) % chunk == 0 && pad < chunk by {
      RoundUpSpec(chunk, reqMem);
    }
    (reqMem + pad) % U64_LIMIT
  }

  /** Adding the complement of the remainder reaches the next multiple. */
  lemma RoundUpSpec(chunk: nat, x: nat)
    requires chunk > 0
    ensures var pad := if x % chunk > 0 then chunk - x % chunk else 0;
            (x + pad) % chunk == 0 && pad < chunk
  {
    var q := x / chunk;
    var m := x % chunk;
    assert x == q * chunk + m;
    if m > 0 {
      assert x + (chunk - m) == (q + 1) * chunk by {
        assert (q + 1) * chunk == q * chunk + chunk;
      }
      MultipleMod(q + 1, chunk);
    }
  }

  lemma MultipleMod(k: nat, c: nat)
    requires c > 0
    ensures (k * c) % c == 0
  {
    var r := (k * c) % c;
    var q := (k * c) / c;
    assert k * c == q * c + r;
    var d := k - q;
    assert d * c == r by {
      assert d * c == k * c - q * c;
    }
    if d >= 1 {
      MulMonotone(1, d, c);
    }
  }

  /** Any multiple of `chunk` that covers `reqMem` covers the rounded size too. */
  lemma FindChunkSizeLeast(chunk: nat, reqMem: nat, m: nat)
    requires 0 < chunk < U64_LIMIT && reqMem < U64_LIMIT
    requires reqMem + (chunk - 1) < U64_LIMIT
    requires m % chunk == 0 && reqMem <= m
    ensures FindChunkSize(chunk, reqMem) <= m
  {
    var r := FindChunkSize(chunk, reqMem);
    if m < r {
      MultiplesApart(chunk, m, r);
    }
  }

  /** Two distinct multiples of `chunk` lie at least `chunk` apart. */
  lemma MultiplesApart(chunk: nat, a: nat, b: nat)
    requires chunk > 0 && a % chunk == 0 && b % chunk == 0 && a < b
    ensures a + chunk <= b
  {
    var qa := a / chunk;
    var qb := b / chunk;
    assert a == qa * chunk;
    assert b == qb * chunk;
    if qb <= qa {
      MulMonotone(qb, qa, chunk);
    }
    assert qa + 1 <= qb;
    assert (qa + 1) * chunk <= qb * chunk;
  }

  lemma MulMonotone(a: nat, b: nat, c: nat)
    requires a <= b
    ensures a * c <= b * c
  {}

  /** Rounding an already rounded size changes nothing. */
  lemma FindChunkSizeIdempotent(chunk: nat, reqMem: nat)
    requires 0 < chunk < U64_LIMIT && reqMem < U64_LIMIT
    requires reqMem + (chunk - 1) < U64_LIMIT
    ensures FindChunkSize(chunk, FindChunkSize(chunk, reqMem)) == FindChunkSize(chunk, reqMem)
  {
    var r := FindChunkSize(chunk, reqMem);
    assert r % chunk == 0;
  }

  /*************************************************************************/
  /* File extension (cm_ExtractFileExtName)                                */
  /*************************************************************************/

  /** `k` holds a '.' that is not the final character of `s`. */
  predicate IsExtDot(s: seq<char>, k: int) {
    0 <= k < |s| - 1 && s[k] == '.'
  }

  /** The extension after the last dot at or below `l` that is not the final
      character, as a pure function. */
  function FileExtBelow(s: seq<char>, l: int): Option<seq<char>>
    requires l < |s|
    decreases l + 1
  {
    if l < 0 then None
    else if IsExtDot(s, l) then Some(s[l + 1..])
    else FileExtBelow(s, l - 1)
  }

  /** The extension cm_ExtractFileExtName finds, as a pure function. */
  function FileExt(s: seq<char>): Option<seq<char>> {
    FileExtBelow(s, |s| - 1)
  }

  /** The extension is what follows the last dot that is not the final
      character. */
  lemma {:induction false} FileExtAtLastDot(s: seq<char>, l: int, k: nat)
    requires k <= l < |s| && IsExtDot(s, k)
    requires forall j :: k < j <= l ==> !IsExtDot(s, j)
    ensures FileExtBelow(s, l) == Some(s[k + 1..])
    decreases l
  {
    if l > k {
      FileExtAtLastDot(s, l - 1, k);
    }
  }

  /**
   * Scans from the last character towards the first for a '.' that is not
   * the final character; the extension is everything after it, and there is
   * none (NULL) when no such dot exists.
   */
  method ExtractFileExtName(fileName: seq<char>) returns (ext: Option<seq<char>>)
    ensures ext.None? <==> forall k :: 0 <= k < |fileName| ==> !IsExtDot(fileName, k)
    ensures ext.Some? ==>
              exists k :: IsExtDot(fileName, k) && ext.value == fileName[k + 1..] &&
                (forall j :: k < j < |fileName| ==> !IsExtDot(fileName, j))
    ensures ext == FileExt(fileName)
  {
    var l := |fileName| - 1;
    while l >= 0
      invariant -1 <= l < |fileName|
      invariant forall j :: l < j < |fileName| ==> !IsExtDot(fileName, j)
      invariant FileExt(fileName) == FileExtBelow(fileName, l)
      decreases l + 1
    {
      if fileName[l] == '.' && l < |fileName| - 1 {
        assert IsExtDot(fileName, l);
        return Some(fileName[l + 1..]);
      }
      l := l - 1;
    }
    return None;
  }

  /*************************************************************************/
  /* In-place character replacement (cm_StrReplaceCh)                      */
  /*************************************************************************/

  /** The character `c` after replacing `find` by `rep`. */
  function ReplacedChar(c: char, find: char, rep: char): char {
    if c == find then rep else c
  }

  /**
   * Walks the buffer while the index is below the CURRENT strlen, replacing
   * each `find` by `rep`. Replacing by NUL therefore ends the walk at the
   * first replacement: the C string is cut there and the rest of the buffer
   * is left as it was.
   */
  method StrReplaceCh(s: seq<char>, find: char, rep: char) returns (r: seq<char>)
    requires IsCString(s)
    ensures |r| == |s|
    ensures rep != NUL ==> forall j :: 0 <= j < |s| ==> r[j] == ReplacedChar(s[j], find, rep)
    ensures rep == NUL ==>
              r == (if FirstIndex(s, find) < |s| then s[FirstIndex(s, find) := NUL] else s)
  {
    FirstIndexSpec(s, find);
    r := s;
    var i := 0;
    while i < StrLen(r)
      invariant 0 <= i <= |s| == |r|
      invariant forall j :: 0 <= j < i ==> r[j] == ReplacedChar(s[j], find, rep)
      invariant forall j :: i <= j < |s| ==> r[j] == s[j]
      invariant rep == NUL ==> forall j :: 0 <= j < i - 1 ==> s[j] != find
      invariant rep == NUL && 0 < i && s[i - 1] == find ==> StrLen(r) == i - 1
      invariant rep != NUL ==> StrLen(r) == |s|
      decreases |s| - i
    {
      if r[i] == find {
        r := r[i := rep];
      }
      i := i + 1;
    }
    if rep == NUL {
      if i > 0 && s[i - 1] == find {
        assert FirstIndex(s, find) == i - 1;
      } else {
        assert i == |s|;
        assert r == s;
      }
    }
  }

  /*************************************************************************/
  /* ASCII case mapping (cm_MakeUpperCase / cm_MakeLowerCase)              */
  /*************************************************************************/

  predicate IsLowerAscii(c: char) { 'a' <= c <= 'z' }
  predicate IsUpperAscii(c: char) { 'A' <= c <= 'Z' }

  function UpperChar(c: char): char {
    if IsLowerAscii(c) then (c as int - 0x20) as char else c
  }

  function LowerChar(c: char): char {
    if IsUpperAscii(c) then (c as int + 0x20) as char else c
  }

  /** Two buffers with NULs at the same positions have the same strlen. */
  lemma StrLenSameNuls(a: seq<char>, b: seq<char>)
    requires |a| == |b|
    requires forall i :: 0 <= i < |a| ==> (a[i] == NUL <==> b[i] == NUL)
    ensures StrLen(a) == StrLen(b)
  {}

  /** Subtracts 0x20 from every byte strictly between 0x60 and 0x7B before
      the first NUL; the loop re-reads strlen, which never changes, so the
      bytes from the NUL on are left alone. */
  function MakeUpperCase(s: seq<char>): (r: seq<char>)
    ensures |r| == |s| && StrLen(r) == StrLen(s)
    ensures forall i :: 0 <= i < |s| ==> (r[i] != s[i] <==> i < StrLen(s) && IsLowerAscii(s[i]))
    ensures forall i :: 0 <= i < StrLen(s) ==> !IsLowerAscii(r[i])
    ensures forall i :: 0 <= i < StrLen(s) ==> LowerChar(r[i]) == LowerChar(s[i])
  {
    var n := StrLen(s);
    var r := seq(|s|, i requires 0 <= i < |s| => if i < n then UpperChar(s[i]) else s[i]);
    StrLenSameNuls(s, r);
    r
  }

  /** Adds 0x20 to every byte strictly between 0x40 and 0x5B before the
      first NUL, and leaves the bytes from the NUL on alone. */
  function MakeLowerCase(s: seq<char>): (r: seq<char>)
    ensures |r| == |s| && StrLen(r) == StrLen(s)
    ensures forall i :: 0 <= i < |s| ==> (r[i] != s[i] <==> i < StrLen(s) && IsUpperAscii(s[i]))
    ensures forall i :: 0 <= i < StrLen(s) ==> !IsUpperAscii(r[i])
    ensures forall i :: 0 <= i < StrLen(s) ==> UpperChar(r[i]) == UpperChar(s[i])
  {
    var n := StrLen(s);
    var r := seq(|s|, i requires 0 <= i < |s| => if i < n then LowerChar(s[i]) else s[i]);
    StrLenSameNuls(s, r);
    r
  }

  /** A NUL inside the buffer ends the mapping: "a\0b" upper-cases to
      "A\0b". */
  lemma CaseMappingStopsAtNul()
    ensures MakeUpperCase(['a', NUL, 'b']) == ['A', NUL, 'b']
    ensures MakeLowerCase(['A', NUL, 'B']) == ['a', NUL, 'B']
  {
    assert StrLen(['a', NUL, 'b']) == 1;
    assert StrLen(['A', NUL, 'B']) == 1;
  }

  /** Neither mapping can shorten a C string: no NUL is introduced. */
  lemma CaseMappingKeepsCString(s: seq<char>)
    requires IsCString(s)
    ensures IsCString(MakeUpperCase(s)) && IsCString(MakeLowerCase(s))
  {}

  /** Upper-casing twice is upper-casing once, and lower-casing after
      upper-casing is plain lower-casing. */
  lemma CaseMappingRoundTrip(s: seq<char>)
    ensures MakeUpperCase(MakeUpperCase(s)) == MakeUpperCase(s)
    ensures MakeLowerCase(MakeUpperCase(s)) == MakeLowerCase(s)
    ensures MakeUpperCase(MakeLowerCase(s)) == MakeUpperCase(s)
  {}

  /*************************************************************************/
  /* Line counting (cm_FindLineCount)                                       */
  /*************************************************************************/

  /** Number of '\n' characters in `s`. */
  function CountNewlines(s: seq<char>): nat
  {
    if |s| == 0 then 0
    else CountNewlines(s[..|s| - 1]) + (if s[|s| - 1] == '\n' then 1 else 0)
  }

  lemma {:induction false} CountNewlinesAppend(a: seq<char>, b: seq<char>)
    ensures CountNewlines(a + b) == CountNewlines(a) + CountNewlines(b)
    decreases |b|
  {
    if |b| == 0 {
      assert a + b == a;
    } else {
      var b' := b[..|b| - 1];
      assert (a + b)[..|a + b| - 1] == a + b';
      CountNewlinesAppend(a, b');
    }
  }

  /** One plus the number of newlines among the first `rlen` characters, as a
      32-bit counter. */
  method FindLineCount(str: seq<char>, rlen: nat) returns (lc: nat)
    requires rlen <= |str|
    ensures lc == (1 + CountNewlines(str[..rlen])) % U32_LIMIT
  {
    lc := 1;
    var i := 0;
    while i < rlen
      invariant 0 <= i <= rlen
      invariant lc == (1 + CountNewlines(str[..i])) % U32_LIMIT
    {
      assert str[..i + 1][..i] == str[..i];
      if str[i] == '\n' {
        lc := (lc + 1) % U32_LIMIT;
      }
      i := i + 1;
    }
  }
}

=== FILE: cvars.dfy ===
/**
 * Console variables: the text a variable serialises to, and the trie the
 * variable system keeps its variables in. A key such as "video.width" names
 * a path of dot-separated words; each trie level is keyed by a word's hash.
 * Splitting a key into hashed words is a parameter (the word list), as is
 * the text of the value.
 */
module CVars {
  import opened Wrappers

  /*************************************************************************/
  /* Serialised form                                                        */
  /*************************************************************************/

  /** Number of occurrences of `c` in `s`. */
  function Occurrences(s: string, c: char): nat {
    if s == [] then 0 else (if s[0] == c then 1 else 0) + Occurrences(s[1..], c)
  }

  /** `n` tabs, as `setfill('\t') << setw(n) << ""` writes them. */
  function Tabs(n: nat): (t: string)
    ensures |t| == n && forall k :: 0 <= k < n ==> t[k] == '\t'
  {
    if n == 0 then "" else Tabs(n - 1) + "\t"
  }

  /** The key's last word: the text after its last '.', or the whole key. */
  function NodeName(key: string): (name: string)
    ensures '.' !in name
    ensures key == name || (|key| > |name| && key[|key| - |name| - 1] == '.' && key[|key| - |name|..] == name)
    decreases |key|
  {
    if key == [] then []
    else if key[|key| - 1] == '.' then []
    else
      var init := NodeName(key[..|key| - 1]);
      assert key[..|key| - 1] + [key[|key| - 1]] == key;
      if init == key[..|key| - 1] then key
      else
        assert key[|key| - |init| - 1..] == key[..|key| - 1][|key| - |init| - 1..] + [key[|key| - 1]];
        init + [key[|key| - 1]]
  }

  /** Where the comment prefix ("# " after the indentation) goes as written:
      before the first character, and before a non-newline that follows a
      newline other than the first character. */
  predicate PrefixAsWritten(desc: string, i: nat)
    requires i < |desc|
  {
    i == 0 || (i >= 2 && desc[i] != '\n' && desc[i - 1] == '\n')
  }

  /** Where it evidently belongs: before the first character and at the
      start of every later non-empty line. */
  predicate LineStart(desc: string, i: nat)
    requires i < |desc|
  {
    i == 0 || (desc[i] != '\n' && desc[i - 1] == '\n')
  }

  /** The description's first `n` characters with the prefix placed as
      written. */
  function CommentAsWritten(desc: string, n: nat, indent: nat): string
    requires n <= |desc|
  {
    if n == 0 then ""
    else
      CommentAsWritten(desc, n - 1, indent)
      + (if PrefixAsWritten(desc, n - 1) then Tabs(indent) + "# " else "")
      + [desc[n - 1]]
  }

  /** The description's first `n` characters, every line prefixed. */
  function Comment(desc: string, n: nat, indent: nat): string
    requires n <= |desc|
  {
    if n == 0 then ""
    else
      Comment(desc, n - 1, indent)
      + (if LineStart(desc, n - 1) then Tabs(indent) + "# " else "")
      + [desc[n - 1]]
  }

  /** The newline that ends a description not already ending in one. */
  function Closing(desc: string): string {
    if |desc| > 0 && desc[|desc| - 1] != '\n' then "\n" else ""
  }

  /** The closing line: the node name at the key's depth, then the value. */
  function Entry(key: string, value: string): string {
    Tabs(Occurrences(key, '.')) + NodeName(key) + ": " + value
  }

  /** The loop as written. */
  method MakeCVarStringAsWritten(key: string, desc: string, value: string) returns (s: string)
    ensures s == CommentAsWritten(desc, |desc|, Occurrences(key, '.')) + Closing(desc) + Entry(key, value)
  {
    var indent := Occurrences(key, '.');
    s := "";
    var nextIndent := false;
    var i := 0;
    while i < |desc|
      invariant 0 <= i <= |desc|
      invariant s == CommentAsWritten(desc, i, indent)
      invariant nextIndent <==> i >= 2 && desc[i - 1] == '\n'
    {
      if desc[i] != '\n' && i != 0 {
        if nextIndent {
          s := s + Tabs(indent) + "# ";
          nextIndent := false;
        }
        s := s + [desc[i]];
      } else if i == 0 {
        s := s + Tabs(indent) + "# " + [desc[i]];
      } else {
        nextIndent := true;
        s := s + [desc[i]];
      }
      i := i + 1;
    }
    s := s + Closing(desc) + Entry(key, value);
  }

  /** The loop with a newline as the first character also arming the next
      line's prefix. */
  method MakeCVarString(key: string, desc: string, value: string) returns (s: string)
    ensures s == Comment(desc, |desc|, Occurrences(key, '.')) + Closing(desc) + Entry(key, value)
  {
    var indent := Occurrences(key, '.');
    s := "";
    var nextIndent := false;
    var i := 0;
    while i < |desc|
      invariant 0 <= i <= |desc|
      invariant s == Comment(desc, i, indent)
      invariant nextIndent <==> i >= 1 && desc[i - 1] == '\n'
    {
      if desc[i] != '\n' && i != 0 {
        if nextIndent {
          s := s + Tabs(indent) + "# ";
          nextIndent := false;
        }
        s := s + [desc[i]];
      } else if i == 0 {
        s := s + Tabs(indent) + "# " + [desc[i]];
        nextIndent := desc[i] == '\n';
      } else {
        nextIndent := true;
        s := s + [desc[i]];
      }
      i := i + 1;
    }
    s := s + Closing(desc) + Entry(key, value);
  }

  /** Both versions agree unless the description starts with a newline
      followed by text. */
  lemma {:induction false} CommentsAgree(desc: string, n: nat, indent: nat)
    requires n <= |desc|
    requires |desc| < 2 || desc[0] != '\n' || desc[1] == '\n'
    ensures CommentAsWritten(desc, n, indent) == Comment(desc, n, indent)
  {
    if n > 0 {
      CommentsAgree(desc, n - 1, indent);
      assert PrefixAsWritten(desc, n - 1) == LineStart(desc, n - 1);
    }
  }

  /** A description without newlines becomes one comment line at the key's
      depth, followed by the entry. */
  lemma {:induction false} SingleLineComment(desc: string, n: nat, indent: nat)
    requires 0 < n <= |desc| && forall k :: 0 <= k < |desc| ==> desc[k] != '\n'
    ensures Comment(desc, n, indent) == Tabs(indent) + "# " + desc[..n]
  {
    if n > 1 {
      SingleLineComment(desc, n - 1, indent);
      assert desc[..n] == desc[..n - 1] + [desc[n - 1]];
    }
  }

  /** The comment holds every character of the description once, plus one
      prefix per line start. */
  lemma {:induction false} CommentKeepsText(desc: string, n: nat, indent: nat)
    requires n <= |desc|
    ensures |Comment(desc, n, indent)| == n + (|Tabs(indent)| + 2) * LineCount(desc, n)
    decreases n
  {
    if n > 0 {
      CommentKeepsText(desc, n - 1, indent);
    }
  }

  /** Number of line starts among the first `n` characters. */
  function LineCount(desc: string, n: nat): nat
    requires n <= |desc|
  {
    if n == 0 then 0 else LineCount(desc, n - 1) + (if LineStart(desc, n - 1) then 1 else 0)
  }

  /** As written, a description "\nab" leaves "ab" without its comment
      marker, so the serialised text holds a line that is not a comment. */
  lemma LeadingNewlineUncommented()
    ensures CommentAsWritten("\nab", 3, 0) == "# \nab"
    ensures Comment("\nab", 3, 0) == "# \n# ab"
  {
    var d := "\nab";
    assert !PrefixAsWritten(d, 1) && !PrefixAsWritten(d, 2);
    assert LineStart(d, 1) && !LineStart(d, 2);
  }

  /** The entry ends with the node name, ": " and the value, indented by one
      tab per '.' in the key. */
  lemma EntryShape(key: string, value: string)
    ensures var e := Entry(key, value);
            && |e| >= Occurrences(key, '.')
            && (forall k :: 0 <= k < Occurrences(key, '.') ==> e[k] == '\t')
            && e[Occurrences(key, '.')..] == NodeName(key) + ": " + value
  {}

  /*************************************************************************/
  /* Variable trie                                                          */
  /*************************************************************************/

  /** One word of a key with its hash; trie levels are keyed by the hash. */
  datatype KeyWord = KeyWord(text: string, hash: nat)

  /** A variable's value; the colour channels are floats. */
  datatype CVarValue =
    | IntValue(i: int)
    | FloatValue(f: real)
    | BoolValue(flag: bool)
    | StringValue(s: string)
    | ColorValue(r: real, g: real, b: real, a: real)

  datatype VarType = IntType | FloatType | BoolType | StringType | ColorType

  function TypeOf(v: CVarValue): VarType {
    match v
    case IntValue(_) => IntType
    case FloatValue(_) => FloatType
    case BoolValue(_) => BoolType
    case StringValue(_) => StringType
    case ColorValue(_, _, _, _) => ColorType
  }

  datatype CVar = CVar(key: string, description: string, value: CVarValue)

  /** A trie node: its word, its parent's hash (0 at the root level), its
      children, and a variable or nothing. */
  datatype TrieNode = TrieNode(id: KeyWord, parentHash: nat, children: map<nat, TrieNode>, value: Option<CVar>)

  type Table = map<nat, TrieNode>

  /** The node a word path leads to. */
  function Find(table: Table, words: seq<KeyWord>): Option<TrieNode>
    requires |words| > 0
    decreases |words|
  {
    var h := words[0].hash;
    if h !in table then None
    else if |words| == 1 then Some(table[h])
    else Find(table[h].children, words[1..])
  }

  /** `get_if` on a node's value: the variable when it has type `t`. */
  function VarOfType(node: Option<TrieNode>, t: VarType): Option<CVar> {
    if node.Some? && node.value.value.Some? && TypeOf(node.value.value.value.value) == t then node.value.value
    else None
  }

  /** `Get<T>`: the variable at a path, when it has the asked type. */
  function Get(root: Table, words: seq<KeyWord>, t: VarType): Option<CVar>
    requires |words| > 0
  {
    VarOfType(Find(root, words), t)
  }

  /**
   * `Set<T>` below a table, `parent` being the hash of the word above.
   * Missing nodes on the way are created empty; the last word's node is
   * inserted with the variable unless a node with its hash is already there,
   * which is then kept as it is. The answer is that node's variable when it
   * has the new variable's type.
   */
  function Insert(table: Table, words: seq<KeyWord>, parent: nat, cvar: CVar): (r: (Table, Option<CVar>))
    requires |words| > 0
    ensures words[0].hash in r.0
    ensures forall h :: h != words[0].hash ==> (h in r.0 <==> h in table) && (h in table ==> r.0[h] == table[h])
    decreases |words|
  {
    var w := words[0];
    if |words| == 1 then
      var t := if w.hash in table then table else table[w.hash := TrieNode(w, parent, map[], Some(cvar))];
      (t, VarOfType(Some(t[w.hash]), TypeOf(cvar.value)))
    else
      var node := if w.hash in table then table[w.hash] else TrieNode(w, parent, map[], None);
      var (children, found) := Insert(node.children, words[1..], w.hash, cvar);
      (table[w.hash := node.(children := children)], found)
  }

  /** `Set<T>`: a key has at least one word. */
  function Set(root: Table, words: seq<KeyWord>, cvar: CVar): (r: (Table, Option<CVar>))
    requires |words| > 0
    ensures forall h :: h != words[0].hash ==> (h in r.0 <==> h in root) && (h in root ==> r.0[h] == root[h])
  {
    Insert(root, words, 0, cvar)
  }

  /** After a set the path exists; its node is the old one when there was
      one, otherwise a new node holding the variable; and the answer is what
      `Get` of the variable's type then reads. */
  lemma {:induction false} InsertThenFind(table: Table, words: seq<KeyWord>, parent: nat, cvar: CVar)
    requires |words| > 0
    ensures var r := Insert(table, words, parent, cvar);
            && Find(r.0, words).Some?
            && (Find(table, words).Some? ==> Find(r.0, words) == Find(table, words))
            && (Find(table, words).None? ==> Find(r.0, words).value.value == Some(cvar))
            && r.1 == VarOfType(Find(r.0, words), TypeOf(cvar.value))
    decreases |words|
  {
    if |words| > 1 {
      var w := words[0];
      var node := if w.hash in table then table[w.hash] else TrieNode(w, parent, map[], None);
      InsertThenFind(node.children, words[1..], w.hash, cvar);
      if w.hash !in table {
        assert Find(node.children, words[1..]).None?;
      }
    }
  }

  /** Setting a fresh key makes `Get` of its type return the variable;
      setting an existing key changes nothing and answers with the variable
      already there. */
  lemma SetThenGet(root: Table, words: seq<KeyWord>, cvar: CVar)
    requires |words| > 0
    ensures var r := Set(root, words, cvar);
            && (Find(root, words).None? ==> r.1 == Some(cvar) && Get(r.0, words, TypeOf(cvar.value)) == Some(cvar))
            && (Find(root, words).Some? ==> r.1 == Get(root, words, TypeOf(cvar.value)) && Find(r.0, words) == Find(root, words))
  {
    InsertThenFind(root, words, 0, cvar);
  }

  /** Every proper prefix of the path exists after a set; nodes that were
      there keep their value, and the ones created hold none. */
  lemma {:induction false} InsertCreatesPath(table: Table, words: seq<KeyWord>, parent: nat, cvar: CVar, k: nat)
    requires 0 < k < |words|
    ensures var r := Insert(table, words, parent, cvar);
            && Find(r.0, words[..k]).Some?
            && (Find(table, words[..k]).Some? ==> Find(r.0, words[..k]).value.value == Find(table, words[..k]).value.value)
            && (Find(table, words[..k]).None? ==> Find(r.0, words[..k]).value.value.None?)
    decreases k
  {
    var w := words[0];
    var node := if w.hash in table then table[w.hash] else TrieNode(w, parent, map[], None);
    assert words[..k][0] == w;
    if k > 1 {
      InsertCreatesPath(node.children, words[1..], w.hash, cvar, k - 1);
      assert words[..k][1..] == words[1..][..k - 1];
      if w.hash !in table {
        assert Find(node.children, words[1..][..k - 1]).None?;
      }
    }
  }

  /** The intermediate nodes a set creates record their parent's word hash
      and start with no variable. */
  lemma SetCreatesEmptyIntermediates(root: Table, words: seq<KeyWord>, cvar: CVar)
    requires |words| > 1 && words[0].hash !in root
    ensures var r := Set(root, words, cvar);
            && r.0[words[0].hash].id == words[0]
            && r.0[words[0].hash].parentHash == 0
            && r.0[words[0].hash].value == None
  {}
}

=== FILE: dam.dfy ===
/**
 * The asset manager's command-line parser. `args` is argv, with the program
 * name at position 0. The first argument picks the action: help, version,
 * listing a `.das` file, or assembling a new asset from a source file,
 * where the remaining arguments set the output file, the vertex mode and
 * the metadata files. A usage error ends the program, written here as an
 * error value.
 */
module Dam {
  import opened Wrappers
  import Common

  /** The vertex modes `-v=` can select. */
  datatype VertMode = TextureMapped3D | TextureMapped3DUnor | Unmapped3D | Unmapped3DUnor

  datatype Action =
    | NoAction
    | ShowVersion
    | ShowHelp
    | ListData(fileName: string, metaEnable: bool)
    | Assemble(srcFile: string, dstFile: string, vertMode: VertMode, metaFiles: seq<string>)

  datatype UsageError =
    | TooManyParams
    | InvalidFile(file: string)
    | ExpectedParameter(flag: string, param: string)
    | InvalidVerticesMode(mode: string)

  /** What the assembly arguments have set so far, and whether the parser
      is inside a metadata list. */
  datatype AsmState = AsmState(dstFile: string, vertMode: VertMode, metaFiles: seq<string>, readMeta: bool)

  const DEFAULT_DST: string := "auto.das"

  const InitialAsm: AsmState := AsmState(DEFAULT_DST, TextureMapped3D, [], false)

  /** The first three characters are "-v=". */
  predicate IsVertSpec(a: string) {
    |a| >= 3 && a[..3] == "-v="
  }

  /** The mode a three-letter `-v=` code names. */
  function VertModeOf(code: string): (m: Option<VertMode>)
    ensures m.Some? <==> code in {"vuu", "vun", "vmu", "vmn"}
  {
    if code == "vuu" then Some(Unmapped3DUnor)
    else if code == "vun" then Some(Unmapped3D)
    else if code == "vmu" then Some(TextureMapped3DUnor)
    else if code == "vmn" then Some(TextureMapped3D)
    else None
  }

  /** An argument that sets something rather than being data: "-o", or a
      six-character "-v=" mode. */
  predicate IsSetting(a: string) {
    a == "-o" || (IsVertSpec(a) && |a| == 6)
  }

  /**
   * The assembly argument loop over the arguments after the source file.
   * "-o" takes the next argument as the output file, a six-character "-v="
   * argument sets the mode, and both end a metadata list; inside a list any
   * other argument is a metadata file; "-m" or "--meta" starts a list; a
   * "-v=" argument of another length is an error, and anything else is
   * ignored.
   */
  function Scan(rest: seq<string>, st: AsmState): (r: Result<AsmState, UsageError>)
    ensures r.Err? ==> r.error.ExpectedParameter? || r.error.InvalidVerticesMode?
    decreases |rest|
  {
    if rest == [] then Ok(st)
    else
      var a := rest[0];
      if a == "-o" then
        if |rest| > 1 then Scan(rest[2..], st.(readMeta := false, dstFile := rest[1]))
        else Err(ExpectedParameter("-o", "output file"))
      else if IsVertSpec(a) && |a| == 6 then
        match VertModeOf(a[3..])
        case Some(m) => Scan(rest[1..], st.(readMeta := false, vertMode := m))
        case None => Err(InvalidVerticesMode(a[3..]))
      else if st.readMeta then Scan(rest[1..], st.(metaFiles := st.metaFiles + [a]))
      else if a == "-m" || a == "--meta" then Scan(rest[1..], st.(readMeta := true))
      else if IsVertSpec(a) then Err(InvalidVerticesMode(""))
      else Scan(rest[1..], st)
  }

  function ParseInput(args: seq<string>): (r: Result<Action, UsageError>)
    ensures |args| <= 1 ==> r == Ok(NoAction)
    ensures |args| > 1 && (args[1] == "-h" || args[1] == "--help") ==> r == Ok(ShowHelp)
    ensures |args| > 1 && args[1] == "--version" ==> r == Ok(ShowVersion)
    ensures r.Ok? && r.value.ListData? ==>
              && Common.FileExt(args[1]) == Some("das")
              && r.value.fileName == args[1]
              && (r.value.metaEnable <==> |args| == 2)
    ensures r.Ok? && r.value.Assemble? ==>
              && |args| > 2 && r.value.srcFile == args[1]
              && Common.FileExt(args[1]).Some? && Common.FileExt(args[1]) != Some("das")
    ensures r == Err(TooManyParams) ==> |args| > 2 && args[2] != "--no-meta"
    ensures |args| > 1 ==>
              (r == Err(InvalidFile(args[1])) <==>
                 args[1] !in {"-h", "--help", "--version"} && Common.FileExt(args[1]).None?)
  {
    if |args| <= 1 then Ok(NoAction)
    else if args[1] == "-h" || args[1] == "--help" then Ok(ShowHelp)
    else if args[1] == "--version" then Ok(ShowVersion)
    else
      var ext := Common.FileExt(args[1]);
      if ext == Some("das") then
        if |args| > 2 && args[2] == "--no-meta" then Ok(ListData(args[1], false))
        else if |args| == 2 then Ok(ListData(args[1], true))
        else Err(TooManyParams)
      else if ext.None? then Err(InvalidFile(args[1]))
      else if |args| > 2 then
        match Scan(args[2..], InitialAsm)
        case Err(e) => Err(e)
        case Ok(st) => Ok(Assemble(args[1], st.dstFile, st.vertMode, st.metaFiles))
      else Ok(NoAction)
  }

  /** Without a setting among the arguments, the output file and vertex mode
      keep their values and the scan never fails on them. */
  lemma {:induction false} ScanKeepsDefaults(rest: seq<string>, st: AsmState)
    requires forall k :: 0 <= k < |rest| ==> !IsSetting(rest[k]) && !IsVertSpec(rest[k])
    ensures Scan(rest, st).Ok?
    ensures Scan(rest, st).value.dstFile == st.dstFile && Scan(rest, st).value.vertMode == st.vertMode
    decreases |rest|
  {
    if rest != [] {
      var a := rest[0];
      assert !IsSetting(a) && !IsVertSpec(a);
      var next :=
        if st.readMeta then st.(metaFiles := st.metaFiles + [a])
        else if a == "-m" || a == "--meta" then st.(readMeta := true)
        else st;
      assert Scan(rest, st) == Scan(rest[1..], next);
      ScanKeepsDefaults(rest[1..], next);
    }
  }

  /** Inside a metadata list, every following argument that is not a setting
      is appended in order. */
  lemma {:induction false} ScanCollectsMeta(files: seq<string>, st: AsmState)
    requires st.readMeta
    requires forall k :: 0 <= k < |files| ==> !IsSetting(files[k])
    ensures Scan(files, st) == Ok(st.(metaFiles := st.metaFiles + files))
    decreases |files|
  {
    if files != [] {
      var a := files[0];
      assert !IsSetting(a);
      var next := st.(metaFiles := st.metaFiles + [a]);
      assert Scan(files, st) == Scan(files[1..], next);
      ScanCollectsMeta(files[1..], next);
      assert files == [a] + files[1..];
      assert st.metaFiles + [a] + files[1..] == st.metaFiles + files;
    } else {
      assert st.metaFiles + files == st.metaFiles;
    }
  }

  /** Every metadata file the scan collects is one of its arguments. */
  lemma {:induction false} ScanMetaFromArgs(rest: seq<string>, st: AsmState)
    requires Scan(rest, st).Ok?
    ensures forall f :: f in Scan(rest, st).value.metaFiles ==> f in st.metaFiles || f in rest
    decreases |rest|
  {
    if rest != [] {
      var a := rest[0];
      if a == "-o" {
        ScanMetaFromArgs(rest[2..], st.(readMeta := false, dstFile := rest[1]));
      } else if IsVertSpec(a) && |a| == 6 {
        ScanMetaFromArgs(rest[1..], st.(readMeta := false, vertMode := VertModeOf(a[3..]).value));
      } else if st.readMeta {
        ScanMetaFromArgs(rest[1..], st.(metaFiles := st.metaFiles + [a]));
      } else if a == "-m" || a == "--meta" {
        ScanMetaFromArgs(rest[1..], st.(readMeta := true));
      } else {
        ScanMetaFromArgs(rest[1..], st);
      }
    }
  }

  /** A scan that succeeds on `pre` has consumed it exactly, so the
      arguments after it are scanned from the state it ended in. */
  lemma {:induction false} ScanJoin(pre: seq<string>, post: seq<string>, st: AsmState)
    requires Scan(pre, st).Ok?
    ensures Scan(pre + post, st) == Scan(post, Scan(pre, st).value)
    decreases |pre|
  {
    var all := pre + post;
    if pre == [] {
      assert all == post;
    } else {
      var a := pre[0];
      assert all[0] == a;
      if a == "-o" {
        assert |pre| > 1;
        assert all[1] == pre[1] && all[2..] == pre[2..] + post;
        ScanJoin(pre[2..], post, st.(readMeta := false, dstFile := pre[1]));
      } else {
        assert all[1..] == pre[1..] + post;
        if IsVertSpec(a) && |a| == 6 {
          ScanJoin(pre[1..], post, st.(readMeta := false, vertMode := VertModeOf(a[3..]).value));
        } else if st.readMeta {
          ScanJoin(pre[1..], post, st.(metaFiles := st.metaFiles + [a]));
        } else if a == "-m" || a == "--meta" {
          ScanJoin(pre[1..], post, st.(readMeta := true));
        } else {
          ScanJoin(pre[1..], post, st);
        }
      }
    }
  }

  /** The argument "-v=" followed by a code. */
  lemma VertArg(code: string)
    ensures IsVertSpec("-v=" + code) && ("-v=" + code)[3..] == code
    ensures |"-v=" + code| == 6 <==> |code| == 3
  {
    assert ("-v=" + code)[..3] == "-v=";
  }

  /** "-o X" after any accepted arguments names the output file; when no
      later argument is a setting, X is the output file the scan ends with
      and the vertex mode is the one set before it. */
  lemma ScanOutputFile(pre: seq<string>, x: string, post: seq<string>, st: AsmState)
    requires Scan(pre, st).Ok?
    requires forall k :: 0 <= k < |post| ==> !IsSetting(post[k]) && !IsVertSpec(post[k])
    ensures Scan(pre + ["-o", x] + post, st).Ok?
    ensures Scan(pre + ["-o", x] + post, st).value.dstFile == x
    ensures Scan(pre + ["-o", x] + post, st).value.vertMode == Scan(pre, st).value.vertMode
  {
    var s1 := Scan(pre, st).value;
    var tail := ["-o", x] + post;
    assert pre + ["-o", x] + post == pre + tail;
    ScanJoin(pre, tail, st);
    assert tail[1] == x && tail[2..] == post;
    ScanKeepsDefaults(post, s1.(readMeta := false, dstFile := x));
  }

  /** A six-character "-v=" argument with a known code after any accepted
      arguments selects that code's mode; when no later argument is a
      setting, that is the mode the scan ends with, and the output file is
      the one set before it. */
  lemma ScanVertMode(pre: seq<string>, code: string, post: seq<string>, st: AsmState)
    requires Scan(pre, st).Ok?
    requires |code| == 3 && VertModeOf(code).Some?
    requires forall k :: 0 <= k < |post| ==> !IsSetting(post[k]) && !IsVertSpec(post[k])
    ensures Scan(pre + ["-v=" + code] + post, st).Ok?
    ensures Scan(pre + ["-v=" + code] + post, st).value.vertMode == VertModeOf(code).value
    ensures Scan(pre + ["-v=" + code] + post, st).value.dstFile == Scan(pre, st).value.dstFile
  {
    var s1 := Scan(pre, st).value;
    var tail := ["-v=" + code] + post;
    assert pre + ["-v=" + code] + post == pre + tail;
    ScanJoin(pre, tail, st);
    VertArg(code);
    assert tail[0] == "-v=" + code && tail[1..] == post;
    ScanKeepsDefaults(post, s1.(readMeta := false, vertMode := VertModeOf(code).value));
  }

  /** "-o" as the last argument after any accepted arguments lacks its
      parameter. */
  lemma ScanMissingOutput(pre: seq<string>, st: AsmState)
    requires Scan(pre, st).Ok?
    ensures Scan(pre + ["-o"], st) == Err(ExpectedParameter("-o", "output file"))
  {
    ScanJoin(pre, ["-o"], st);
  }

  /** A six-character "-v=" argument with an unknown code after any
      accepted arguments is refused, naming the code, whatever follows. */
  lemma ScanUnknownMode(pre: seq<string>, code: string, post: seq<string>, st: AsmState)
    requires Scan(pre, st).Ok?
    requires |code| == 3 && VertModeOf(code).None?
    ensures Scan(pre + ["-v=" + code] + post, st) == Err(InvalidVerticesMode(code))
  {
    var tail := ["-v=" + code] + post;
    assert pre + ["-v=" + code] + post == pre + tail;
    ScanJoin(pre, tail, st);
    VertArg(code);
    assert tail[0] == "-v=" + code;
  }

  /** A "-v=" argument of another length outside a metadata list is
      refused with an empty code; inside a list it is a metadata file. */
  lemma ScanBadLengthMode(pre: seq<string>, code: string, post: seq<string>, st: AsmState)
    requires Scan(pre, st).Ok?
    requires |code| != 3
    ensures !Scan(pre, st).value.readMeta ==>
              Scan(pre + ["-v=" + code] + post, st) == Err(InvalidVerticesMode(""))
    ensures Scan(pre, st).value.readMeta ==>
              Scan(pre + ["-v=" + code] + post, st) ==
              Scan(post, Scan(pre, st).value.(metaFiles := Scan(pre, st).value.metaFiles + ["-v=" + code]))
  {
    var tail := ["-v=" + code] + post;
    assert pre + ["-v=" + code] + post == pre + tail;
    ScanJoin(pre, tail, st);
    VertArg(code);
    assert tail[0] == "-v=" + code && tail[1..] == post;
    assert ("-v=" + code) != "-o" && ("-v=" + code) != "-m" && ("-v=" + code) != "--meta" by {
      assert ("-v=" + code)[1] == 'v';
    }
  }

  /** An assembly command line: the source file, then the scanned
      arguments. A scan error is the result; otherwise the action carries
      what the scan set. */
  lemma ParseAssemble(prog: string, src: string, rest: seq<string>)
    requires Common.FileExt(src).Some? && Common.FileExt(src) != Some("das")
    requires src !in {"-h", "--help", "--version"}
    requires rest != []
    ensures var r := ParseInput([prog, src] + rest);
            match Scan(rest, InitialAsm)
            case Err(e) => r == Err(e)
            case Ok(st) => r == Ok(Assemble(src, st.dstFile, st.vertMode, st.metaFiles))
  {
    assert ([prog, src] + rest)[1] == src && ([prog, src] + rest)[2..] == rest;
  }

  /** End to end: "-o X" then "-v=code", after any accepted arguments, set
      the output file and vertex mode of the assembly when no later
      argument is a setting. */
  lemma ParseOutputThenMode(prog: string, src: string, pre: seq<string>, x: string, code: string, post: seq<string>)
    requires Common.FileExt(src).Some? && Common.FileExt(src) != Some("das")
    requires src !in {"-h", "--help", "--version"}
    requires Scan(pre, InitialAsm).Ok?
    requires |code| == 3 && VertModeOf(code).Some?
    requires forall k :: 0 <= k < |post| ==> !IsSetting(post[k]) && !IsVertSpec(post[k])
    ensures var r := ParseInput([prog, src] + pre + ["-o", x, "-v=" + code] + post);
            r.Ok? && r.value.Assemble? && r.value.dstFile == x && r.value.vertMode == VertModeOf(code).value
  {
    var pre1 := pre + ["-o", x];
    ScanOutputFile(pre, x, [], InitialAsm);
    assert pre + ["-o", x] + [] == pre1;
    ScanVertMode(pre1, code, post, InitialAsm);
    var rest := pre1 + ["-v=" + code] + post;
    assert [prog, src] + pre + ["-o", x, "-v=" + code] + post == [prog, src] + rest;
    ParseAssemble(prog, src, rest);
  }

  /** End to end: "-v=code" then "-o X", after any accepted arguments, set
      the vertex mode and output file of the assembly when no later
      argument is a setting. */
  lemma ParseModeThenOutput(prog: string, src: string, pre: seq<string>, x: string, code: string, post: seq<string>)
    requires Common.FileExt(src).Some? && Common.FileExt(src) != Some("das")
    requires src !in {"-h", "--help", "--version"}
    requires Scan(pre, InitialAsm).Ok?
    requires |code| == 3 && VertModeOf(code).Some?
    requires forall k :: 0 <= k < |post| ==> !IsSetting(post[k]) && !IsVertSpec(post[k])
    ensures var r := ParseInput([prog, src] + pre + ["-v=" + code, "-o", x] + post);
            r.Ok? && r.value.Assemble? && r.value.dstFile == x && r.value.vertMode == VertModeOf(code).value
  {
    var pre1 := pre + ["-v=" + code];
    ScanVertMode(pre, code, [], InitialAsm);
    assert pre + ["-v=" + code] + [] == pre1;
    ScanOutputFile(pre1, x, post, InitialAsm);
    var rest := pre1 + ["-o", x] + post;
    assert [prog, src] + pre + ["-v=" + code, "-o", x] + post == [prog, src] + rest;
    ParseAssemble(prog, src, rest);
  }

  /*************************************************************************/
  /* The documented long form "--vert="                                     */
  /*************************************************************************/

  /** The first seven characters are "--vert=", the long form the help text
      offers for "-v=". */
  predicate IsLongVertSpec(a: string) {
    |a| >= 7 && a[..7] == "--vert="
  }

  /** As written, a long-form argument outside a metadata list matches no
      branch of the loop and is skipped, whatever its code. */
  lemma LongVertFormSkipped(pre: seq<string>, a: string, post: seq<string>, st: AsmState)
    requires Scan(pre, st).Ok? && !Scan(pre, st).value.readMeta
    requires IsLongVertSpec(a)
    ensures Scan(pre + [a] + post, st) == Scan(post, Scan(pre, st).value)
  {
    var tail := [a] + post;
    assert pre + [a] + post == pre + tail;
    ScanJoin(pre, tail, st);
    assert a[1] == '-' && |a| >= 7;
    assert !IsVertSpec(a) by {
      assert a[..3][1] == '-';
    }
    assert tail[0] == a && tail[1..] == post;
  }

  /** The long form rewritten to the short one; other arguments unchanged. */
  function AsShortForm(a: string): (b: string)
    ensures IsLongVertSpec(a) ==> IsVertSpec(b) && b[3..] == a[7..] && |b| == |a| - 4
    ensures !IsLongVertSpec(a) ==> b == a
  {
    if IsLongVertSpec(a) then
      assert ("-v=" + a[7..])[..3] == "-v=";
      "-v=" + a[7..]
    else a
  }

  /** The arguments after the source file with the long form rewritten. */
  function Normalized(args: seq<string>): (r: seq<string>)
    ensures |r| == |args|
    ensures forall i :: 0 <= i < |args| ==> r[i] == (if i < 2 then args[i] else AsShortForm(args[i]))
  {
    seq(|args|, i requires 0 <= i < |args| => if i < 2 then args[i] else AsShortForm(args[i]))
  }

  /** The parser as its help text documents it: after the source file,
      "--vert=code" means what "-v=code" means. A command line without the
      long form is parsed exactly as the code parses it. */
  function ParseInputAsDocumented(args: seq<string>): (r: Result<Action, UsageError>)
    ensures (forall k :: 2 <= k < |args| ==> !IsLongVertSpec(args[k])) ==> r == ParseInput(args)
  {
    assert (forall k :: 2 <= k < |args| ==> !IsLongVertSpec(args[k])) ==> Normalized(args) == args;
    ParseInput(Normalized(args))
  }

  /** Rewriting a command line whose only long-form argument is `a`. */
  lemma NormalizedOne(head: seq<string>, pre: seq<string>, a: string, post: seq<string>)
    requires |head| == 2 && IsLongVertSpec(a)
    requires forall k :: 0 <= k < |pre| ==> !IsLongVertSpec(pre[k])
    requires forall k :: 0 <= k < |post| ==> !IsLongVertSpec(post[k])
    ensures Normalized(head + pre + [a] + post) == head + pre + [AsShortForm(a)] + post
  {
    var args := head + pre + [a] + post;
    var short := head + pre + [AsShortForm(a)] + post;
    forall i | 0 <= i < |args|
      ensures Normalized(args)[i] == short[i]
    {
      if 2 <= i < 2 + |pre| {
        assert args[i] == pre[i - 2] && short[i] == pre[i - 2];
      } else if i > 2 + |pre| {
        assert args[i] == post[i - 3 - |pre|] && short[i] == post[i - 3 - |pre|];
      }
    }
  }

  /** End to end: "-v=code" with a known code after any accepted arguments
      sets the mode of the assembly when no later argument is a setting. */
  lemma ParseVertMode(prog: string, src: string, pre: seq<string>, code: string, post: seq<string>)
    requires Common.FileExt(src).Some? && Common.FileExt(src) != Some("das")
    requires src !in {"-h", "--help", "--version"}
    requires Scan(pre, InitialAsm).Ok?
    requires |code| == 3 && VertModeOf(code).Some?
    requires forall k :: 0 <= k < |post| ==> !IsSetting(post[k]) && !IsVertSpec(post[k])
    ensures var r := ParseInput([prog, src] + pre + ["-v=" + code] + post);
            r.Ok? && r.value.Assemble? && r.value.vertMode == VertModeOf(code).value
  {
    ScanVertMode(pre, code, post, InitialAsm);
    var rest := pre + ["-v=" + code] + post;
    assert [prog, src] + pre + ["-v=" + code] + post == [prog, src] + rest;
    ParseAssemble(prog, src, rest);
  }

  /** As documented, a long-form argument "--vert=code" with a known code
      after any accepted arguments selects that code's mode, exactly as
      "-v=code" does. */
  lemma LongVertFormSelectsMode(prog: string, src: string, pre: seq<string>, a: string, post: seq<string>)
    requires Common.FileExt(src).Some? && Common.FileExt(src) != Some("das")
    requires src !in {"-h", "--help", "--version"}
    requires Scan(pre, InitialAsm).Ok?
    requires forall k :: 0 <= k < |pre| ==> !IsLongVertSpec(pre[k])
    requires IsLongVertSpec(a) && |a| == 10 && VertModeOf(a[7..]).Some?
    requires forall k :: 0 <= k < |post| ==> !IsSetting(post[k]) && !IsVertSpec(post[k]) && !IsLongVertSpec(post[k])
    ensures var r := ParseInputAsDocumented([prog, src] + pre + [a] + post);
            r == ParseInput([prog, src] + pre + ["-v=" + a[7..]] + post) &&
            r.Ok? && r.value.Assemble? && r.value.vertMode == VertModeOf(a[7..]).value
  {
    NormalizedOne([prog, src], pre, a, post);
    ParseVertMode(prog, src, pre, a[7..], post);
  }

  /** "dam cube.obj --vert=vun": the code keeps the default mode, the
      documented parser selects the unmapped mode. */
  lemma LongVertFormIgnored()
    ensures ParseInput(["dam", "cube.obj", "--vert=vun"]) == Ok(Assemble("cube.obj", DEFAULT_DST, TextureMapped3D, []))
    ensures ParseInputAsDocumented(["dam", "cube.obj", "--vert=vun"]) == Ok(Assemble("cube.obj", DEFAULT_DST, Unmapped3D, []))
  {
    ObjExtension();
    var a := "--vert=vun";
    assert a[..7] == "--vert=" && a[7..] == "vun";
    LongVertFormSkipped([], a, [], InitialAsm);
    assert ["dam", "cube.obj", a][2..] == [] + [a] + [];
    LongVertFormSelectsMode("dam", "cube.obj", [], a, []);
    assert ["dam", "cube.obj"] + [] + [a] + [] == ["dam", "cube.obj", a];
  }

  /** Assembling from a source file with only a metadata list keeps the
      default output file and vertex mode and lists the files in order. */
  lemma AssembleWithMeta(prog: string, src: string, flag: string, files: seq<string>)
    requires Common.FileExt(src).Some? && Common.FileExt(src) != Some("das")
    requires src !in {"-h", "--help", "--version"}
    requires flag == "-m" || flag == "--meta"
    requires forall k :: 0 <= k < |files| ==> !IsSetting(files[k])
    ensures ParseInput([prog, src, flag] + files) == Ok(Assemble(src, DEFAULT_DST, TextureMapped3D, files))
  {
    var args := [prog, src, flag] + files;
    assert args[1] == src && args[2..] == [flag] + files;
    var st := InitialAsm.(readMeta := true);
    assert flag[1] != 'v';
    assert !IsVertSpec(flag);
    assert ([flag] + files)[0] == flag && ([flag] + files)[1..] == files;
    assert Scan([flag] + files, InitialAsm) == Scan(files, st);
    ScanCollectsMeta(files, st);
    assert st.metaFiles + files == files;
  }

  /** "-o X" names the output file and a six-character "-v=" code picks the
      mode, here after a metadata list. */
  lemma OutputAndModeFlags()
    ensures ParseInput(["dam", "cube.obj", "-m", "a.txt", "-o", "cube.das", "-v=vun"]) ==
              Ok(Assemble("cube.obj", "cube.das", Unmapped3D, ["a.txt"]))
  {
    ObjExtension();
    var ok := ["-m", "a.txt", "-o", "cube.das", "-v=vun"];
    var st := InitialAsm;
    assert ok[0][1] != 'v' && ok[1][1] != 'v';
    assert Scan(ok, st) == Scan(ok[1..], st.(readMeta := true));
    assert ok[1..][1..] == ok[2..] && [] + ["a.txt"] == ["a.txt"];
    assert Scan(ok[1..], st.(readMeta := true)) == Scan(ok[2..], st.(readMeta := true, metaFiles := ["a.txt"]));
    assert ok[4][..3] == "-v=" && ok[4][3..] == "vun";
    assert ["dam", "cube.obj", "-m", "a.txt", "-o", "cube.das", "-v=vun"][2..] == ok;
  }

  /** A six-character "-v=" argument with an unknown code is refused, naming
      the code. */
  lemma UnknownModeRefused()
    ensures ParseInput(["dam", "cube.obj", "-v=xyz"]) == Err(InvalidVerticesMode("xyz"))
  {
    ObjExtension();
    var bad := ["-v=xyz"];
    assert bad[0][..3] == "-v=" && bad[0][3..] == "xyz";
    assert ["dam", "cube.obj", "-v=xyz"][2..] == bad;
  }

  /** "-o" as the last argument lacks its parameter. */
  lemma OutputWithoutFile()
    ensures ParseInput(["dam", "cube.obj", "-o"]) == Err(ExpectedParameter("-o", "output file"))
  {
    ObjExtension();
    assert ["dam", "cube.obj", "-o"][2..] == ["-o"];
  }

  lemma ObjExtension()
    ensures Common.FileExt("cube.obj") == Some("obj")
  {
    var s := "cube.obj";
    assert Common.IsExtDot(s, 4);
    Common.FileExtAtLastDot(s, |s| - 1, 4);
    assert s[5..] == "obj";
  }

  /** Listing: the metadata flag follows "--no-meta", and extra arguments
      are refused. */
  lemma ListingFlags(file: string)
    requires Common.FileExt(file) == Some("das")
    requires file !in {"-h", "--help", "--version"}
    ensures ParseInput(["dam", file]) == Ok(ListData(file, true))
    ensures ParseInput(["dam", file, "--no-meta"]) == Ok(ListData(file, false))
    ensures ParseInput(["dam", file, "x"]) == Err(TooManyParams)
  {}
}

=== FILE: file_picker.dfy ===
/**
 * The file picker's non-graphical helpers: splitting a '|'-separated list
 * of file types such as ".png|.jpg", and the filter that decides whether a
 * directory entry is listed. Whether a path names a directory is a
 * parameter.
 */
module FilePicker {
  import opened Wrappers

  const SEP: char := '|'

  /** The first position of `c` in `t`. */
  function Find(t: string, c: char): (r: Option<nat>)
    ensures r.Some? ==> r.value < |t|
  {
    if t == [] then None
    else if t[0] == c then Some(0)
    else
      match Find(t[1..], c)
      case None => None
      case Some(p) => Some(p + 1)
  }

  /** `Find` answers with the first occurrence, and with nothing exactly
      when there is none. */
  lemma {:induction false} FindSpec(t: string, c: char)
    ensures Find(t, c).None? <==> c !in t
    ensures Find(t, c).Some? ==> t[Find(t, c).value] == c && c !in t[..Find(t, c).value]
    decreases |t|
  {
    if t != [] && t[0] != c {
      FindSpec(t[1..], c);
      assert forall x :: x in t <==> x == t[0] || x in t[1..];
      match Find(t[1..], c)
      case None =>
      case Some(p) =>
        assert t[..p + 1] == [t[0]] + t[1..][..p];
    }
  }

  /** Number of separators in a string. */
  function Count(t: string): nat {
    if t == [] then 0 else (if t[0] == SEP then 1 else 0) + Count(t[1..])
  }

  /*************************************************************************/
  /* Splitting as written                                                   */
  /*************************************************************************/

  /** `std::string::substr(start, len)`: at most `len` characters. */
  function Substr(s: string, start: nat, len: nat): string
    requires start <= |s|
  {
    if start + len <= |s| then s[start..start + len] else s[start..]
  }

  /** The last segment is kept when its start is below `size() - 1`. That
      difference is unsigned: a string is shorter than 2^64, so only the
      empty string wraps, to 2^64 - 1, which keeps its empty segment. */
  function Trailing(s: string, prev: nat): seq<string>
    requires prev <= |s|
  {
    var last: nat := if |s| == 0 then 0xFFFF_FFFF_FFFF_FFFF else |s| - 1;
    if prev < last then [s[prev..]] else []
  }

  /** The loop as written: the segment starting at `prev` is taken with the
      separator's absolute position as its length. */
  function PiecesAsWritten(s: string, prev: nat): (r: seq<string>)
    requires prev <= |s|
    ensures |r| <= |s| - prev + 1
    ensures forall k :: 0 <= k < |r| ==> |r[k]| <= |s| - prev
    decreases |s| - prev
  {
    match Find(s[prev..], SEP)
    case None => Trailing(s, prev)
    case Some(p) => [Substr(s, prev, prev + p)] + PiecesAsWritten(s, prev + p + 1)
  }

  /** At most one type per character plus one, none longer than the list;
      an empty list gives one empty type. */
  function ParseFileTypeListAsWritten(typeList: string): (r: seq<string>)
    ensures |r| <= |typeList| + 1
    ensures forall k :: 0 <= k < |r| ==> |r[k]| <= |typeList|
    ensures typeList == [] ==> r == [""]
  {
    PiecesAsWritten(typeList, 0)
  }

  /** Each separator yields exactly one element, and the trailing segment at
      most one more. */
  lemma {:induction false} PiecesAsWrittenCount(s: string, prev: nat)
    requires prev <= |s|
    ensures Count(s[prev..]) <= |PiecesAsWritten(s, prev)| <= Count(s[prev..]) + 1
    decreases |s| - prev
  {
    FindSpec(s[prev..], SEP);
    match Find(s[prev..], SEP)
    case None =>
      NoSeparatorCount(s[prev..]);
    case Some(p) =>
      PiecesAsWrittenCount(s, prev + p + 1);
      CountSplit(s[prev..], p);
      assert s[prev..][p + 1..] == s[prev + p + 1..];
  }

  /** One step of the loop, at a separator that ends a separator-free
      segment `a`. */
  lemma PiecesAsWrittenStep(s: string, prev: nat, a: string, rest: string)
    requires prev <= |s| && s[prev..] == a + [SEP] + rest && SEP !in a
    ensures PiecesAsWritten(s, prev) == [Substr(s, prev, prev + |a|)] + PiecesAsWritten(s, prev + |a| + 1)
  {
    var t := s[prev..];
    FindAfterPrefix(a, rest);
    assert Find(t, SEP) == Some(|a|);
    PiecesAsWrittenUnfold(s, prev, |a|);
  }

  lemma PiecesAsWrittenUnfold(s: string, prev: nat, p: nat)
    requires prev <= |s| && Find(s[prev..], SEP) == Some(p)
    ensures PiecesAsWritten(s, prev) == [Substr(s, prev, prev + p)] + PiecesAsWritten(s, prev + p + 1)
  {}

  /** As written, of three types the second swallows the separator after it
      and text beyond, whenever the first is not empty; the first and last
      come out right. */
  lemma ParseAsWrittenOverreaches(a: string, b: string, c: string)
    requires SEP !in a && SEP !in b && SEP !in c && |a| >= 1 && |c| >= 2
    ensures var r := ParseFileTypeListAsWritten(a + [SEP] + b + [SEP] + c);
            && |r| == 3 && r[0] == a && r[2] == c
            && |r[1]| > |b| + 1 && r[1][..|b| + 1] == b + [SEP]
  {
    var tail := b + [SEP] + c;
    var s := a + [SEP] + tail;
    assert s == a + [SEP] + b + [SEP] + c;
    ThreePieces(s, a, b, c, tail);
    SecondPieceLong(s, a, b, c, tail);
  }

  lemma SecondPieceLong(s: string, a: string, b: string, c: string, tail: string)
    requires |a| >= 1 && |c| >= 2
    requires tail == b + [SEP] + c && s == a + [SEP] + tail
    ensures var second := Substr(s, |a| + 1, |a| + |b| + 1);
            |second| > |b| + 1 && second[..|b| + 1] == b + [SEP]
  {
    var i := |a| + 1;
    AroundSeparator(s, a, tail);
    assert tail[..|b| + 1] == b + [SEP];
    SubstrPrefix(s, i, i + |b|, |b| + 2);
  }

  /** A substring's first `m` characters, when the string and the length
      both reach that far. */
  lemma SubstrPrefix(s: string, start: nat, len: nat, m: nat)
    requires start + m <= |s| && m <= len
    ensures |Substr(s, start, len)| >= m && Substr(s, start, len)[..m] == s[start..start + m]
  {}

  /** The loop's three rounds on `a|b|c`. */
  lemma ThreePieces(s: string, a: string, b: string, c: string, tail: string)
    requires SEP !in a && SEP !in b && SEP !in c && |c| >= 2
    requires tail == b + [SEP] + c && s == a + [SEP] + tail
    ensures PiecesAsWritten(s, 0) == [a, Substr(s, |a| + 1, |a| + |b| + 1), c]
  {
    FirstPiece(s, a, tail);
    LastTwoPieces(s, |a| + 1, b, c);
  }

  /** The loop's first round on `a|tail`. */
  lemma FirstPiece(s: string, a: string, tail: string)
    requires SEP !in a && s == a + [SEP] + tail
    ensures s[|a| + 1..] == tail
    ensures PiecesAsWritten(s, 0) == [a] + PiecesAsWritten(s, |a| + 1)
  {
    AroundSeparator(s, a, tail);
    PiecesAsWrittenStep(s, 0, a, tail);
  }

  lemma AroundSeparator(s: string, a: string, tail: string)
    requires s == a + [SEP] + tail
    ensures s[0..] == s && s[..|a|] == a && s[|a| + 1..] == tail
  {}

  /** The loop's last two rounds, on a remainder `b|c`. */
  lemma LastTwoPieces(s: string, i: nat, b: string, c: string)
    requires SEP !in b && SEP !in c && |c| >= 2
    requires i <= |s| && s[i..] == b + [SEP] + c
    ensures PiecesAsWritten(s, i) == [Substr(s, i, i + |b|), c]
  {
    var j := i + |b| + 1;
    PiecesAsWrittenStep(s, i, b, c);
    assert s[j..] == c;
    FindSpec(c, SEP);
    assert PiecesAsWritten(s, j) == [c];
  }

  /** The list ".a|.b|.c" as written yields ".a", ".b|.c" and ".c". */
  lemma ParseAsWrittenExample()
    ensures ParseFileTypeListAsWritten(".a|.b|.c") == [".a", ".b|.c", ".c"]
  {
    var a, b, c := ".a", ".b", ".c";
    var tail := b + [SEP] + c;
    var s := a + [SEP] + tail;
    ThreePieces(s, a, b, c, tail);
    assert s == ".a|.b|.c";
    assert Substr(s, 3, 5) == ".b|.c";
  }

  /*************************************************************************/
  /* Splitting as evidently intended                                        */
  /*************************************************************************/

  /** The segments between separators; the last is kept when it has at
      least two characters, as the loop's final test keeps it. */
  function Split(t: string): (r: seq<string>)
    ensures forall k :: 0 <= k < |r| ==> SEP !in r[k]
    decreases |t|
  {
    FindSpec(t, SEP);
    match Find(t, SEP)
    case None => if |t| >= 2 then [t] else []
    case Some(p) => [t[..p]] + Split(t[p + 1..])
  }

  /** The corrected list: an empty string still gives one empty type, from
      the unsigned wrap of `size() - 1`. */
  function ParseFileTypeList(typeList: string): (r: seq<string>)
    ensures forall k :: 0 <= k < |r| ==> SEP !in r[k]
    ensures typeList == [] ==> r == [""]
  {
    if typeList == [] then [""] else Split(typeList)
  }

  /** Corrected, three types joined by separators split back into the
      three. */
  lemma ParseCorrectedSplitsTypes(a: string, b: string, c: string)
    requires SEP !in a && SEP !in b && SEP !in c && |c| >= 2
    ensures ParseFileTypeList(a + [SEP] + b + [SEP] + c) == [a, b, c]
  {
    var ps := [a, b, c];
    assert ps[1..] == [b, c] && ps[1..][1..] == [c];
    assert Join(ps[1..][1..]) == c;
    assert Join(ps[1..]) == b + [SEP] + c;
    assert Join(ps) == a + [SEP] + (b + [SEP] + c);
    assert Splittable(ps);
    assert a + [SEP] + b + [SEP] + c == a + [SEP] + (b + [SEP] + c);
    SplitJoin(ps);
  }

  /** Types joined with separators. */
  function Join(ps: seq<string>): string
    requires |ps| > 0
  {
    if |ps| == 1 then ps[0] else ps[0] + [SEP] + Join(ps[1..])
  }

  /** Types that a list can carry: none holds a separator, and the last has
      at least two characters. */
  predicate Splittable(ps: seq<string>) {
    && |ps| > 0
    && (forall k :: 0 <= k < |ps| ==> SEP !in ps[k])
    && |ps[|ps| - 1]| >= 2
  }

  /** Splitting undoes joining. */
  lemma {:induction false} SplitJoin(ps: seq<string>)
    requires Splittable(ps)
    ensures Split(Join(ps)) == ps
    decreases |ps|
  {
    if |ps| > 1 {
      var t := Join(ps);
      var rest := Join(ps[1..]);
      assert t == ps[0] + [SEP] + rest;
      FindAfterPrefix(ps[0], rest);
      assert t[..|ps[0]|] == ps[0];
      assert t[|ps[0]| + 1..] == rest;
      assert SEP !in ps[0];
      SplitJoin(ps[1..]);
    } else {
      assert SEP !in ps[0];
      FindSpec(ps[0], SEP);
    }
  }

  /** The first separator after a separator-free prefix is at the
      prefix's end. */
  lemma {:induction false} FindAfterPrefix(a: string, rest: string)
    requires SEP !in a
    ensures Find(a + [SEP] + rest, SEP) == Some(|a|)
    decreases |a|
  {
    var t := a + [SEP] + rest;
    if a != [] {
      assert t[0] == a[0] && a[0] in a;
      assert t[1..] == a[1..] + [SEP] + rest;
      assert forall c :: c in a[1..] ==> c in a;
      FindAfterPrefix(a[1..], rest);
    }
  }

  /** The corrected split also yields one element per separator and at most
      one more. */
  lemma {:induction false} SplitCount(t: string)
    ensures Count(t) <= |Split(t)| <= Count(t) + 1
    decreases |t|
  {
    FindSpec(t, SEP);
    match Find(t, SEP)
    case None =>
      NoSeparatorCount(t);
    case Some(p) =>
      SplitCount(t[p + 1..]);
      CountSplit(t, p);
  }

  lemma {:induction false} NoSeparatorCount(t: string)
    requires SEP !in t
    ensures Count(t) == 0
    decreases |t|
  {
    if t != [] {
      assert t[0] in t;
      assert forall c :: c in t[1..] ==> c in t;
      NoSeparatorCount(t[1..]);
    }
  }

  /** A separator at the first separator's place adds one to the count of
      what follows it. */
  lemma {:induction false} CountSplit(t: string, p: nat)
    requires p < |t| && t[p] == SEP && SEP !in t[..p]
    ensures Count(t) == 1 + Count(t[p + 1..])
    decreases p
  {
    if p > 0 {
      assert t[0] == t[..p][0];
      assert t[1..][..p - 1] == t[..p][1..];
      assert forall c :: c in t[..p][1..] ==> c in t[..p];
      CountSplit(t[1..], p - 1);
      assert t[1..][p..] == t[p + 1..];
    }
  }

  /** A list without separators of two or more characters is one type, in
      both versions. */
  lemma SingleType(typeList: string)
    requires SEP !in typeList && |typeList| >= 2
    ensures ParseFileTypeListAsWritten(typeList) == [typeList]
    ensures ParseFileTypeList(typeList) == [typeList]
  {
    assert typeList[0..] == typeList;
    FindSpec(typeList, SEP);
  }

  /*************************************************************************/
  /* Directory content filter                                               */
  /*************************************************************************/

  /** The last index of `c` in `t`. */
  function LastIndex(t: string, c: char): (r: Option<nat>)
    ensures r.None? <==> c !in t
    ensures r.Some? ==> r.value < |t| && t[r.value] == c && c !in t[r.value + 1..]
    decreases |t|
  {
    if t == [] then None
    else if t[|t| - 1] == c then Some(|t| - 1)
    else
      var r := LastIndex(t[..|t| - 1], c);
      assert t == t[..|t| - 1] + [t[|t| - 1]];
      if r.Some? then
        assert t[r.value + 1..] == t[..|t| - 1][r.value + 1..] + [t[|t| - 1]];
        r
      else r
  }

  /** The last path component (`path::filename`), for '/'-separated paths. */
  function FileName(path: string): string {
    match LastIndex(path, '/')
    case None => path
    case Some(k) => path[k + 1..]
  }

  /** `path::extension`: from the last '.', dot included, unless the name is
      "." or "..", has no dot, or its only dot leads it. */
  function Extension(name: string): (ext: string)
    ensures ext == [] || (ext[0] == '.' && '.' !in ext[1..])
  {
    if name == "." || name == ".." then ""
    else
      match LastIndex(name, '.')
      case None => ""
      case Some(k) => if k == 0 then "" else name[k..]
  }

  /** A name whose first character is '.' (an empty name's first character
      reads as NUL). */
  predicate IsHidden(name: string) {
    |name| > 0 && name[0] == '.'
  }

  /**
   * Hidden entries are refused unless allowed; other than that a directory,
   * an empty type list or one starting with "*" accepts everything, and a
   * file otherwise needs its extension in the list.
   */
  function FilterDirContent(path: string, types: seq<string>, allowHidden: bool, isDirectory: bool): (ok: bool)
    ensures !allowHidden && IsHidden(FileName(path)) ==> !ok
    ensures isDirectory ==> (ok <==> allowHidden || !IsHidden(FileName(path)))
    ensures !isDirectory && |types| > 0 && types[0] != "*" && Extension(FileName(path)) !in types ==> !ok
  {
    var name := FileName(path);
    if !allowHidden && IsHidden(name) then false
    else if !isDirectory && |types| > 0 && types[0] != "*" then Extension(name) in types
    else true
  }

  /** A visible file passes a list exactly when the list is empty, starts
      with "*" or names its extension. */
  lemma FilterFiles(path: string, types: seq<string>, allowHidden: bool)
    requires allowHidden || !IsHidden(FileName(path))
    ensures FilterDirContent(path, types, allowHidden, false) <==>
              (|types| == 0 || types[0] == "*" || Extension(FileName(path)) in types)
  {}

  /** A visible file whose extension is one of the types joined into a list
      passes the filter built from that list. */
  lemma ListedExtensionPasses(path: string, ps: seq<string>, allowHidden: bool)
    requires Splittable(ps) && (allowHidden || !IsHidden(FileName(path)))
    requires Extension(FileName(path)) in ps
    ensures FilterDirContent(path, ParseFileTypeList(Join(ps)), allowHidden, false)
  {
    SplitJoin(ps);
    assert |Join(ps)| > 0 by {
      JoinLength(ps);
    }
  }

  lemma {:induction false} JoinLength(ps: seq<string>)
    requires |ps| > 0
    ensures |Join(ps)| >= |ps[|ps| - 1]|
    decreases |ps|
  {
    if |ps| > 1 {
      JoinLength(ps[1..]);
    }
  }
}

=== FILE: gpu_memory_allocator.dfy ===
/**
 * GPUMemoryAllocator: a list of reserved regions in offset order plus a heap
 * of unused fragments between them. A fragment remembers the two regions it
 * lies between; the engine keeps std::list iterators, which are written here
 * as positions in the region sequence and renumbered whenever a region is
 * inserted or erased before them.
 *
 * All quantities are size_t; every sum and difference is reduced modulo 2^64.
 * The heap order (`UnusedMemoryFragment::Compare`) is not part of this model:
 * the fragment `pop_heap` brings to the back is the parameter `pick`.
 */
module GpuMemoryAllocator {
  import opened Wrappers
  import Common
  import opened Bits

  const U64: nat := 0x1_0000_0000_0000_0000

  function Wrap64(x: int): nat { x % U64 }

  datatype Region = Region(offset: nat, size: nat)

  /** An unused gap between regions `region1` and `region2` (positions). */
  datatype Fragment = Fragment(region1: nat, region2: nat, offset: nat, size: nat)

  datatype Allocator = Allocator(regions: seq<Region>, fragments: seq<Fragment>)

  /** The allocator after a request, and the region handed out. */
  datatype Granted = Granted(alloc: Allocator, region: Region)

  /** The allocator after a free, and whether a region was removed. */
  datatype Freed = Freed(alloc: Allocator, removed: bool)

  const Empty: Allocator := Allocator([], [])

  /** Every fragment refers to regions that exist (no dangling iterator). */
  predicate WellFormed(al: Allocator) {
    forall j :: 0 <= j < |al.fragments| ==>
      al.fragments[j].region1 < |al.regions| && al.fragments[j].region2 < |al.regions|
  }

  /** Region at a position; the default stands for a dangling iterator, which
      a well-formed allocator never dereferences. */
  function At(rs: seq<Region>, i: nat): Region {
    if i < |rs| then rs[i] else Region(0, 0)
  }

  /*************************************************************************/
  /* Alignment mask                                                         */
  /*************************************************************************/

  /** An alignment a size_t can hold that is a power of two. */
  predicate IsPow2(a: nat) {
    exists k :: 0 <= k < 64 && a == Pow2(k)
  }

  /** Bitwise AND of two naturals, bit by bit from the least significant. */
  function BitAnd(x: nat, y: nat): nat
    decreases x
  {
    if x == 0 || y == 0 then 0
    else 2 * BitAnd(x / 2, y / 2) + (if x % 2 == 1 && y % 2 == 1 then 1 else 0)
  }

  /** `(x + a - 1) & ~(a - 1)` in size_t arithmetic. */
  function AlignMask(x: nat, a: nat): nat {
    BitAnd(Wrap64(x + a - 1), U64 - 1 - Wrap64(a - 1))
  }

  /** The size a request reserves: rounded by the mask when an alignment is
      given, as requested otherwise. */
  function RoundedSize(size: nat, a: nat): (r: nat)
    ensures IsPow2(a) && size + a - 1 < U64 ==> r % a == 0 && size <= r < size + a
    ensures a == 0 ==> r == size
  {
    AlignMaskRoundsUp(size, a);
    if a != 0 then AlignMask(size, a) else size
  }

  /** For a power-of-two alignment and no overflow, the mask rounds `x` up to
      the least multiple of `a`. */
  lemma AlignMaskRoundsUp(x: nat, a: nat)
    ensures IsPow2(a) && x + a - 1 < U64 ==>
              AlignMask(x, a) % a == 0 && x <= AlignMask(x, a) < x + a
  {
    if IsPow2(a) && x + a - 1 < U64 {
      var k :| 0 <= k < 64 && a == Pow2(k);
      AlignMaskPow2(x, k);
    }
  }

  lemma AlignMaskPow2(x: nat, k: nat)
    requires k < 64 && x + Pow2(k) - 1 < U64
    ensures var a := Pow2(k); AlignMask(x, a) % a == 0 && x <= AlignMask(x, a) < x + a
  {
    var a := Pow2(k);
    var m := x + a - 1;
    Pow2U64();
    Pow2Monotone(k, 64);
    ModSmall(m, U64);
    ModSmall(a - 1, U64);
    var mask := U64 - 1 - Wrap64(a - 1);
    assert mask == Pow2(64) - Pow2(k);
    assert AlignMask(x, a) == BitAnd(m, mask);
    ClearLowBits(m, k, 64);
    RoundDownIsRoundUp(x, a, m, BitAnd(m, mask));
  }

  /** Rounding `x + a - 1` down to a multiple of `a` rounds `x` up. */
  lemma RoundDownIsRoundUp(x: nat, a: nat, m: nat, r: nat)
    requires a > 0 && m == x + a - 1 && r == m - m % a
    ensures r % a == 0 && x <= r < x + a
  {
    var q := m / a;
    assert m == q * a + m % a;
    Common.MultipleMod(q, a);
  }

  lemma {:induction false} Pow2Monotone(a: nat, b: nat)
    requires a <= b
    ensures Pow2(a) <= Pow2(b)
    decreases b
  {
    if a < b {
      Pow2Monotone(a, b - 1);
    }
  }

  lemma Pow2U64()
    ensures Pow2(64) == U64
  {
    Pow2Of32();
    Pow2Add(32, 32);
  }

  /** Masking with 2^n - 2^k clears the k low bits of a number below 2^n. */
  lemma {:induction false} ClearLowBits(m: nat, k: nat, n: nat)
    requires k <= n && m < Pow2(n) && Pow2(k) <= Pow2(n)
    ensures BitAnd(m, Pow2(n) - Pow2(k)) == m - m % Pow2(k)
    decreases k
  {
    if k == 0 {
      ClearNoBits(m, n);
    } else if k == n {
      ClearEveryBit(m, n);
    } else if m != 0 {
      var pn, pk, hn, hk := Pow2(n), Pow2(k), Pow2(n - 1), Pow2(k - 1);
      assert pn == 2 * hn && pk == 2 * hk;
      Pow2Monotone(k, n - 1);
      var h := m / 2;
      HalfBelow(m, pn, hn);
      ClearLowBits(h, k - 1, n - 1);
      ClearStep(m, h, pn, pk, hn, hk);
    }
  }

  lemma ClearNoBits(m: nat, n: nat)
    requires m < Pow2(n)
    ensures BitAnd(m, Pow2(n) - Pow2(0)) == m - m % Pow2(0)
  {
    AllOnes(m, n);
  }

  lemma ClearEveryBit(m: nat, n: nat)
    requires m < Pow2(n)
    ensures BitAnd(m, Pow2(n) - Pow2(n)) == m - m % Pow2(n)
  {
    ModSmall(m, Pow2(n));
  }

  lemma HalfBelow(m: nat, p: nat, h: nat)
    requires m < p && p == 2 * h
    ensures m / 2 < h
  {}

  /** One bit of the induction: the mask on `m` from the mask on `m / 2`. */
  lemma ClearStep(m: nat, h: nat, pn: nat, pk: nat, hn: nat, hk: nat)
    requires m != 0 && h == m / 2 && 0 < hk < hn && pn == 2 * hn && pk == 2 * hk
    requires BitAnd(h, hn - hk) == h - h % hk
    ensures BitAnd(m, pn - pk) == m - m % pk
  {
    HalveMask(m, pn, pk, hn, hk);
    ModDouble(m, pk, hk);
    Recombine(m, h, hk);
    Combine(BitAnd(m, pn - pk), BitAnd(h, hn - hk), h, h % hk, m % 2, m, m % pk);
  }

  lemma Recombine(m: nat, h: nat, hk: nat)
    requires hk > 0 && h == m / 2
    ensures 2 * (h - h % hk) == m - (2 * (h % hk) + m % 2)
  {}

  /** The halves' masks and remainders put back together. */
  lemma Combine(a: int, b: int, h: int, rh: int, m2: int, m: int, rm: int)
    requires a == 2 * b && b == h - rh && rm == 2 * rh + m2 && 2 * (h - rh) == m - (2 * rh + m2)
    ensures a == m - rm
  {}

  /** A mask that is even loses its last bit. */
  lemma HalveMask(m: nat, pn: nat, pk: nat, hn: nat, hk: nat)
    requires m != 0 && hk < hn && pn == 2 * hn && pk == 2 * hk
    ensures BitAnd(m, pn - pk) == 2 * BitAnd(m / 2, hn - hk)
  {
    var y := pn - pk;
    assert y / 2 == hn - hk && y % 2 == 0;
  }

  lemma ModSmall(m: nat, d: nat)
    requires m < d
    ensures m % d == m
  {}

  /** Masking with all ones below 2^n is the identity. */
  lemma {:induction false} AllOnes(m: nat, n: nat)
    requires m < Pow2(n)
    ensures BitAnd(m, Pow2(n) - 1) == m
    decreases n
  {
    if m != 0 && n != 0 {
      assert (Pow2(n) - 1) / 2 == Pow2(n - 1) - 1;
      assert (Pow2(n) - 1) % 2 == 1;
      AllOnes(m / 2, n - 1);
    }
  }

  /** The remainder modulo 2b from the remainder of the halved number. */
  lemma ModDouble(m: nat, p: nat, b: nat)
    requires b > 0 && p == 2 * b
    ensures m % p == 2 * ((m / 2) % b) + m % 2
  {
    var h := m / 2;
    var q := h / b;
    var r := h % b;
    assert h == q * b + r;
    assert m == q * (2 * b) + (2 * r + m % 2);
    ModUnique(m, 2 * b, q, 2 * r + m % 2);
  }

  lemma ModUnique(m: nat, d: nat, q: nat, r: nat)
    requires d > 0 && r < d && m == q * d + r
    ensures m % d == r
  {
    var q' := m / d;
    var r' := m % d;
    assert q' * d + r' == q * d + r;
    if q' < q {
      Common.MulMonotone(q' + 1, q, d);
    } else if q' > q {
      Common.MulMonotone(q + 1, q', d);
    }
  }

  /*************************************************************************/
  /* RequestMemory                                                          */
  /*************************************************************************/

  /** Position of an iterator after a region is inserted at `pos`. */
  function ShiftUp(i: nat, pos: nat): nat { if i >= pos then i + 1 else i }

  /**
   * The fragments' iterators after a region is emplaced at `pos`: each moves
   * by at most one, none names the new region, and erasing that region
   * again gives the old positions back.
   */
  function RenumberUp(fs: seq<Fragment>, pos: nat): (r: seq<Fragment>)
    ensures |r| == |fs|
    ensures forall j :: 0 <= j < |fs| ==> r[j].offset == fs[j].offset && r[j].size == fs[j].size
    ensures forall j :: 0 <= j < |fs| ==> r[j].region1 != pos && r[j].region2 != pos
    ensures forall j :: 0 <= j < |fs| ==>
              fs[j].region1 <= r[j].region1 <= fs[j].region1 + 1 &&
              fs[j].region2 <= r[j].region2 <= fs[j].region2 + 1
    ensures RenumberDown(r, pos) == fs
  {
    seq(|fs|, j requires 0 <= j < |fs| =>
      fs[j].(region1 := ShiftUp(fs[j].region1, pos), region2 := ShiftUp(fs[j].region2, pos)))
  }

  /** After the emplace, every renumbered iterator names the region it named
      before. */
  lemma RenumberUpKeepsRegions(rs: seq<Region>, fs: seq<Fragment>, pos: nat, x: Region)
    requires pos <= |rs|
    ensures var out := InsertAt(rs, pos, x);
            var r := RenumberUp(fs, pos);
            forall j :: 0 <= j < |fs| && fs[j].region1 < |rs| && fs[j].region2 < |rs| ==>
              out[r[j].region1] == rs[fs[j].region1] && out[r[j].region2] == rs[fs[j].region2]
  {
    assert InsertAt(rs, pos, x) == rs[..pos] + [x] + rs[pos..];
  }

  /**
   * Places the region inside fragment `k` at offset `off` and reshapes the
   * fragment: what is left before the new region stays in fragment `k`,
   * what is left after becomes a fragment of its own, and a fragment filled
   * completely is dropped.
   */
  function PlaceInFragment(al: Allocator, k: nat, off: nat, sz: nat): (g: Granted)
    requires WellFormed(al) && k < |al.fragments|
    ensures g.region == Region(off, sz)
    ensures |g.alloc.regions| == |al.regions| + 1
    ensures exists p :: 0 <= p < |g.alloc.regions| && g.alloc.regions[p] == g.region &&
                        g.alloc.regions[..p] + g.alloc.regions[p + 1..] == al.regions
    ensures WellFormed(g.alloc)
  {
    var f := al.fragments[k];
    var pos := if f.region1 != f.region2 then f.region2 else 0;
    var rs := InsertAt(al.regions, pos, Region(off, sz));
    var fs := RenumberUp(al.fragments, pos);
    Granted(Allocator(rs, Reshape(rs, fs, k, pos, ShiftUp(f.region1, pos), ShiftUp(f.region2, pos), f.offset)),
            Region(off, sz))
  }

  /** `std::list::emplace` before position `pos`. */
  function InsertAt(rs: seq<Region>, pos: nat, r: Region): (out: seq<Region>)
    requires pos <= |rs|
    ensures |out| == |rs| + 1 && out[pos] == r && out[..pos] + out[pos + 1..] == rs
  {
    var out := rs[..pos] + [r] + rs[pos..];
    assert out[..pos] == rs[..pos] && out[pos + 1..] == rs[pos..];
    out
  }

  /**
   * The fragment bookkeeping after the region at `pos` (the emplaced one)
   * went into fragment `k`, which lay between `r1` and `r2` and started at
   * `start`.
   */
  function Reshape(rs: seq<Region>, fs: seq<Fragment>, k: nat, pos: nat, r1: nat, r2: nat, start: nat)
    : (out: seq<Fragment>)
    requires k < |fs| && pos < |rs| && r1 < |rs| && r2 < |rs|
    requires forall j :: 0 <= j < |fs| ==> fs[j].region1 < |rs| && fs[j].region2 < |rs|
    ensures forall j :: 0 <= j < |out| ==> out[j].region1 < |rs| && out[j].region2 < |rs|
  {
    var e := rs[pos];
    var end := Wrap64(e.offset + e.size);
    var after := Fragment(pos, r2, end, Wrap64(rs[r2].offset - e.offset - e.size));
    if e.offset > start then
      var before := fs[k := Fragment(r1, pos, start, Wrap64(e.offset - rs[r1].offset - rs[r1].size))];
      if end < rs[r2].offset then before + [after] else before
    else if end < rs[r2].offset then
      fs[k := after]
    else
      fs[..k] + fs[k + 1..]
  }

  /**
   * Appends the region after the last one. The end of the last region is
   * aligned only when it is non-zero; a gap this opens is recorded as a
   * fragment. `fixedAlign` selects the corrected rule that skips the mask
   * when no alignment is requested; without it the mask `~(0 - 1)` is zero.
   */
  function Append(al: Allocator, off0: nat, sz: nat, a: nat, fixedAlign: bool): (g: Granted)
    requires WellFormed(al)
    ensures g.region.size == sz
    ensures g.alloc.regions == al.regions + [g.region]
    ensures al.regions == [] ==> g.region.offset == off0 && g.alloc.fragments == al.fragments
    ensures |g.alloc.fragments| >= |al.fragments| && g.alloc.fragments[..|al.fragments|] == al.fragments
    ensures forall j :: |al.fragments| <= j < |g.alloc.fragments| ==>
              g.alloc.fragments[j].region1 + 1 == |al.regions| && g.alloc.fragments[j].region2 == |al.regions|
    ensures WellFormed(g.alloc)
  {
    if |al.regions| > 0 then
      var last := al.regions[|al.regions| - 1];
      var prevEnd := Wrap64(last.offset + last.size);
      var off := if prevEnd > 0 && (a > 0 || !fixedAlign) then AlignMask(prevEnd, a) else prevEnd;
      var fs :=
        if off > prevEnd then
          al.fragments + [Fragment(|al.regions| - 1, |al.regions|, prevEnd, Wrap64(off - prevEnd))]
        else al.fragments;
      Granted(Allocator(al.regions + [Region(off, sz)], fs), Region(off, sz))
    else
      Granted(Allocator([Region(off0, sz)], al.fragments), Region(off0, sz))
  }

  /** The offset a fragment offers once aligned, and the room left in it. */
  function FragmentOffset(f: Fragment, a: nat): nat {
    if a > 0 then AlignMask(f.offset, a) else f.offset
  }

  function FragmentRoom(f: Fragment, a: nat): nat {
    if a > 0 then Wrap64(f.size - Wrap64(FragmentOffset(f, a) - f.offset)) else f.size
  }

  /** End of the last region, when there is one. */
  function LastEnd(rs: seq<Region>): nat
    requires |rs| > 0
  {
    Wrap64(rs[|rs| - 1].offset + rs[|rs| - 1].size)
  }

  /**
   * The request as a whole: round the size, try the fragment the heap
   * offers, otherwise append after the last region.
   */
  function Request(al: Allocator, size: nat, a: nat, pick: nat, fixedAlign: bool): (g: Granted)
    requires WellFormed(al) && size < U64
    requires |al.fragments| > 0 ==> pick < |al.fragments|
    ensures g.region.size == RoundedSize(size, a)
    ensures |g.alloc.regions| == |al.regions| + 1
    ensures exists p :: 0 <= p < |g.alloc.regions| && g.alloc.regions[p] == g.region &&
                        g.alloc.regions[..p] + g.alloc.regions[p + 1..] == al.regions
    ensures WellFormed(g.alloc)
  {
    var sz := RoundedSize(size, a);
    if |al.fragments| > 0 && FragmentRoom(al.fragments[pick], a) >= sz then
      PlaceInFragment(al, pick, FragmentOffset(al.fragments[pick], a), sz)
    else
      var off0 := if |al.fragments| > 0 then FragmentOffset(al.fragments[pick], a) else 0;
      var g := Append(al, off0, sz, a, fixedAlign);
      assert g.alloc.regions[..|al.regions|] + g.alloc.regions[|al.regions| + 1..] == al.regions;
      g
  }

  /**
   * `RequestMemory` as written: on the append path a zero alignment still
   * goes through the mask.
   */
  function RequestMemoryAsWritten(al: Allocator, size: nat, a: nat, pick: nat): (g: Granted)
    requires WellFormed(al) && size < U64
    requires |al.fragments| > 0 ==> pick < |al.fragments|
    ensures g.region.size == RoundedSize(size, a)
    ensures al == Empty ==> g.region == Region(0, RoundedSize(size, a))
  {
    Request(al, size, a, pick, false)
  }

  /**
   * `RequestMemory` with the zero-alignment case of the append path fixed.
   * The region handed out has the rounded size and is one new entry of the
   * region list; the first request on an empty allocator lands at 0.
   */
  function RequestMemory(al: Allocator, size: nat, a: nat, pick: nat): (g: Granted)
    requires WellFormed(al) && size < U64
    requires |al.fragments| > 0 ==> pick < |al.fragments|
    ensures g.region.size == RoundedSize(size, a)
    ensures |g.alloc.regions| == |al.regions| + 1
    ensures exists p :: 0 <= p < |g.alloc.regions| && g.alloc.regions[p] == g.region &&
                        g.alloc.regions[..p] + g.alloc.regions[p + 1..] == al.regions
    ensures WellFormed(g.alloc)
    ensures al == Empty ==> g.region == Region(0, RoundedSize(size, a)) && g.alloc == Allocator([g.region], [])
  {
    Request(al, size, a, pick, true)
  }

  /** A request appends when there is no fragment, or the one the heap
      offers is too small for the rounded size. */
  predicate TakesAppendPath(al: Allocator, size: nat, a: nat, pick: nat)
    requires |al.fragments| > 0 ==> pick < |al.fragments|
  {
    al.fragments == [] || FragmentRoom(al.fragments[pick], a) < RoundedSize(size, a)
  }

  /** On the append path after an existing region, the new region starts at
      or after the end of the last one, aligned; with no alignment, exactly
      at that end. */
  lemma AppendAligned(al: Allocator, size: nat, a: nat, pick: nat)
    requires WellFormed(al) && size < U64
    requires |al.fragments| > 0 ==> pick < |al.fragments|
    ensures var g := RequestMemory(al, size, a, pick);
            TakesAppendPath(al, size, a, pick) && al.regions != [] ==>
              g.alloc.regions == al.regions + [g.region] &&
              (LastEnd(al.regions) + a - 1 < U64 && IsPow2(a) ==>
                 g.region.offset % a == 0 && LastEnd(al.regions) <= g.region.offset < LastEnd(al.regions) + a) &&
              (a == 0 ==> g.region.offset == LastEnd(al.regions))
  {
    if TakesAppendPath(al, size, a, pick) && al.regions != [] {
      var off0 := if |al.fragments| > 0 then FragmentOffset(al.fragments[pick], a) else 0;
      assert RequestMemory(al, size, a, pick) == Append(al, off0, RoundedSize(size, a), a, true);
      AppendOffsetAligned(al, off0, RoundedSize(size, a), a);
    }
  }

  /** After an existing region, the corrected append puts the new one at the
      previous end rounded up to the alignment, or exactly at that end when
      no alignment is given. */
  lemma AppendOffsetAligned(al: Allocator, off0: nat, sz: nat, a: nat)
    requires WellFormed(al) && al.regions != []
    ensures var g := Append(al, off0, sz, a, true);
            (LastEnd(al.regions) + a - 1 < U64 && IsPow2(a) ==>
               g.region.offset % a == 0 && LastEnd(al.regions) <= g.region.offset < LastEnd(al.regions) + a) &&
            (a == 0 ==> g.region.offset == LastEnd(al.regions))
  {
    var e := LastEnd(al.regions);
    var g := Append(al, off0, sz, a, true);
    if e > 0 && a > 0 {
      assert g.region.offset == AlignMask(e, a);
      AlignMaskRoundsUp(e, a);
    } else {
      assert g.region.offset == e;
      if e == 0 && a > 0 {
        assert 0 % a == 0;
      }
    }
  }

  /** With no alignment, the mask sends an appended region to offset 0, on
      top of the region already there. */
  lemma ZeroAlignmentAppendOverlaps()
    ensures var al := Allocator([Region(0, 4)], []);
            RequestMemoryAsWritten(al, 4, 0, 0).region == Region(0, 4) &&
            RequestMemory(al, 4, 0, 0).region == Region(4, 4)
  {
    var al := Allocator([Region(0, 4)], []);
    assert Wrap64(4 + 0 - 1) == 3;
    assert Wrap64(0 - 1) == U64 - 1;
    assert AlignMask(4, 0) == BitAnd(3, 0) == 0;
  }

  /*************************************************************************/
  /* FreeMemory                                                             */
  /*************************************************************************/

  /** Position of the first region starting at `off`. */
  function FindRegion(rs: seq<Region>, off: nat): (r: Option<nat>)
    ensures r.None? <==> forall j :: 0 <= j < |rs| ==> rs[j].offset != off
    ensures r.Some? ==> r.value < |rs| && rs[r.value].offset == off &&
                        forall j :: 0 <= j < r.value ==> rs[j].offset != off
  {
    if |rs| == 0 then None
    else if rs[0].offset == off then Some(0)
    else match FindRegion(rs[1..], off)
      case None => None
      case Some(i) => Some(i + 1)
  }

  /** End of a region in size_t arithmetic. */
  function RegionEnd(r: Region): nat { Wrap64(r.size + r.offset) }

  /** Neither of the fragment's iterators is on region `i`. */
  predicate Avoids(g: Fragment, i: nat) { g.region1 != i && g.region2 != i }

  /** Some fragment has both iterators on region `i`. */
  predicate Pinned(fs: seq<Fragment>, i: nat) {
    exists j :: 0 <= j < |fs| && fs[j].region1 == i && fs[j].region2 == i
  }

  /** Number of fragments that end at region `i` without starting there. */
  function CountEndingAt(fs: seq<Fragment>, i: nat): (n: nat)
    ensures n <= |fs|
  {
    if fs == [] then 0
    else (if fs[0].region1 != i && fs[0].region2 == i then 1 else 0) + CountEndingAt(fs[1..], i)
  }

  /** A gap computed as `q - e` in size_t ends at `q` again. */
  lemma WrapGap(e: int, q: nat)
    requires q < U64
    ensures Wrap64(Wrap64(e) + Wrap64(q - e)) == q
  {
    var a := Wrap64(e);
    var b := Wrap64(q - e);
    assert e == (e / U64) * U64 + a;
    assert q - e == ((q - e) / U64) * U64 + b;
    var k := -(e / U64 + (q - e) / U64);
    assert a + b == k * U64 + q;
    assert k >= 0;
    ModUnique(a + b, U64, k, q);
  }

  /**
   * A fragment that started at the freed region `i`, restarted at the end
   * of the region before it; after a freed first region it runs from offset
   * 0 and both its iterators name its end region. It still ends where its
   * end region begins.
   */
  function StartMoved(rs: seq<Region>, g: Fragment, i: nat): (h: Fragment)
    requires i < |rs|
    ensures h.region2 == g.region2
    ensures h.region1 == (if i == 0 then g.region2 else i - 1)
    ensures h.offset == (if i == 0 then 0 else RegionEnd(rs[i - 1]))
    ensures At(rs, g.region2).offset < U64 ==> Wrap64(h.offset + h.size) == At(rs, g.region2).offset
  {
    var q := At(rs, g.region2).offset;
    if i == 0 then
      assert q < U64 ==> Wrap64(0 + q) == q by {
        if q < U64 { ModSmall(q, U64); }
      }
      Fragment(g.region2, g.region2, 0, q)
    else
      var p := rs[i - 1];
      assert q < U64 ==> Wrap64(RegionEnd(p) + Wrap64(q - p.offset - p.size)) == q by {
        if q < U64 { WrapGap(p.size + p.offset, q); }
      }
      Fragment(i - 1, g.region2, RegionEnd(p), Wrap64(q - p.offset - p.size))
  }

  /**
   * A fragment that ended at the freed region `i`, which was not the last
   * one, now ends at the next region and starts where it started.
   */
  function EndMoved(rs: seq<Region>, g: Fragment, i: nat): (h: Fragment)
    requires i + 1 < |rs|
    ensures h.region1 == g.region1 && h.region2 == i + 1
    ensures h.offset == RegionEnd(At(rs, g.region1))
    ensures rs[i + 1].offset < U64 ==> Wrap64(h.offset + h.size) == rs[i + 1].offset
  {
    var q := At(rs, g.region1);
    assert rs[i + 1].offset < U64 ==> Wrap64(RegionEnd(q) + Wrap64(rs[i + 1].offset - q.offset - q.size)) == rs[i + 1].offset by {
      if rs[i + 1].offset < U64 { WrapGap(q.size + q.offset, rs[i + 1].offset); }
    }
    Fragment(g.region1, i + 1, RegionEnd(q), Wrap64(rs[i + 1].offset - q.offset - q.size))
  }

  /**
   * The fragment pass before region `i` goes. A fragment with neither
   * iterator on it is kept; one starting at it is moved by `StartMoved`;
   * one only ending at it is moved by `EndMoved`, or dropped when the freed
   * region was the last. Afterwards no iterator is on `i` unless some
   * fragment had both of its iterators there.
   */
  function Repoint(rs: seq<Region>, fs: seq<Fragment>, i: nat): (r: seq<Fragment>)
    requires i < |rs|
    ensures |r| == |fs| - (if i + 1 == |rs| then CountEndingAt(fs, i) else 0)
    ensures forall j :: 0 <= j < |fs| && Avoids(fs[j], i) ==> fs[j] in r
    ensures forall j :: 0 <= j < |fs| && fs[j].region1 == i ==> StartMoved(rs, fs[j], i) in r
    ensures forall j :: 0 <= j < |fs| && fs[j].region1 != i && fs[j].region2 == i && i + 1 < |rs| ==>
              EndMoved(rs, fs[j], i) in r
    ensures !Pinned(fs, i) ==> forall k :: 0 <= k < |r| ==> Avoids(r[k], i)
    ensures (forall j :: 0 <= j < |fs| ==> fs[j].region1 < |rs| && fs[j].region2 < |rs|) ==>
              forall k :: 0 <= k < |r| ==> r[k].region1 < |rs| && r[k].region2 < |rs|
  {
    if fs == [] then []
    else
      var g := fs[0];
      var rest := Repoint(rs, fs[1..], i);
      assert forall j :: 1 <= j < |fs| ==> fs[j] == fs[1..][j - 1];
      assert Pinned(fs[1..], i) ==> Pinned(fs, i);
      if g.region1 == i then
        [StartMoved(rs, g, i)] + rest
      else if g.region2 == i then
        if i == |rs| - 1 then rest else [EndMoved(rs, g, i)] + rest
      else [g] + rest
  }

  /** Position of an iterator after the region at `pos` is erased. */
  function ShiftDown(j: nat, pos: nat): nat { if j > pos then j - 1 else j }

  /** The fragments' iterators after the region at `pos` is erased: each
      moves back by at most one. */
  function RenumberDown(fs: seq<Fragment>, pos: nat): (r: seq<Fragment>)
    ensures |r| == |fs|
    ensures forall j :: 0 <= j < |fs| ==> r[j].offset == fs[j].offset && r[j].size == fs[j].size
    ensures forall j :: 0 <= j < |fs| ==>
              fs[j].region1 <= r[j].region1 + 1 && r[j].region1 <= fs[j].region1 &&
              fs[j].region2 <= r[j].region2 + 1 && r[j].region2 <= fs[j].region2
  {
    seq(|fs|, j requires 0 <= j < |fs| =>
      fs[j].(region1 := ShiftDown(fs[j].region1, pos), region2 := ShiftDown(fs[j].region2, pos)))
  }

  /** After the erase, every renumbered iterator that was not on the erased
      region names the region it named before. */
  lemma RenumberDownKeepsRegions(rs: seq<Region>, fs: seq<Fragment>, pos: nat)
    requires pos < |rs|
    ensures var out := rs[..pos] + rs[pos + 1..];
            var r := RenumberDown(fs, pos);
            forall j :: 0 <= j < |fs| && Avoids(fs[j], pos) && fs[j].region1 < |rs| && fs[j].region2 < |rs| ==>
              r[j].region1 < |out| && r[j].region2 < |out| &&
              out[r[j].region1] == rs[fs[j].region1] && out[r[j].region2] == rs[fs[j].region2]
  {}

  /**
   * The freed region becomes a fragment of its own when it sat flush
   * between both neighbours; a freed first region becomes a fragment from
   * offset 0 when `frontTest` holds.
   */
  function FreedGap(rs: seq<Region>, fs: seq<Fragment>, i: nat, frontTest: bool): seq<Fragment>
    requires i < |rs|
  {
    var it := rs[i];
    if i + 1 < |rs| && i > 0 && Wrap64(it.offset + it.size) == rs[i + 1].offset &&
       Wrap64(rs[i - 1].offset + rs[i - 1].size) == it.offset then
      fs + [Fragment(i - 1, i + 1, it.offset, it.size)]
    else if i + 1 < |rs| && i == 0 && frontTest then
      fs + [Fragment(i + 1, i + 1, 0, Wrap64(it.size + it.offset))]
    else fs
  }

  /** Removes region `i` and updates the fragments that referred to it. */
  function RemoveRegion(al: Allocator, i: nat, frontTest: bool): (r: Allocator)
    requires i < |al.regions|
    ensures r.regions == al.regions[..i] + al.regions[i + 1..]
  {
    var fs := FreedGap(al.regions, Repoint(al.regions, al.fragments, i), i, frontTest);
    Allocator(al.regions[..i] + al.regions[i + 1..], RenumberDown(fs, i))
  }

  /**
   * `FreeMemory` as written. A missing offset erases `end()`, which is
   * undefined: `None`. The front test compares the freed region's end with
   * its own offset, which holds only for an empty region.
   */
  function FreeMemoryAsWritten(al: Allocator, off: nat): (r: Option<Freed>)
    ensures r.None? <==> forall j :: 0 <= j < |al.regions| ==> al.regions[j].offset != off
    ensures r.Some? ==> r.value.removed
  {
    match FindRegion(al.regions, off)
    case None => None
    case Some(i) =>
      var it := al.regions[i];
      Some(Freed(RemoveRegion(al, i, Wrap64(it.offset + it.size) == it.offset), true))
  }

  /**
   * `FreeMemory` with both defects fixed: a missing offset changes nothing,
   * and the front test compares with the next region. Reports true exactly
   * when a region starts at `off`, and then removes the first such region.
   */
  function FreeMemory(al: Allocator, off: nat): (r: Freed)
    ensures r.removed <==> exists j :: 0 <= j < |al.regions| && al.regions[j].offset == off
    ensures !r.removed ==> r.alloc == al
    ensures r.removed ==>
              exists i ::
                && 0 <= i < |al.regions| && al.regions[i].offset == off
                && (forall j :: 0 <= j < i ==> al.regions[j].offset != off)
                && r.alloc.regions == al.regions[..i] + al.regions[i + 1..]
  {
    match FindRegion(al.regions, off)
    case None => Freed(al, false)
    case Some(i) =>
      var it := al.regions[i];
      var next := if i + 1 < |al.regions| then al.regions[i + 1].offset else 0;
      Freed(RemoveRegion(al, i, Wrap64(it.offset + it.size) == next), true)
  }

  /**
   * Freeing keeps every iterator on an existing region, unless some fragment
   * had both of its iterators on the freed region: that one is left
   * dangling, as the engine leaves it.
   */
  lemma FreeMemoryWellFormed(al: Allocator, off: nat)
    requires WellFormed(al)
    ensures FindRegion(al.regions, off).None? || !Pinned(al.fragments, FindRegion(al.regions, off).value) ==>
              WellFormed(FreeMemory(al, off).alloc)
  {
    match FindRegion(al.regions, off)
    case None =>
    case Some(i) =>
      if !Pinned(al.fragments, i) {
        var rs := al.regions;
        var it := rs[i];
        var next := if i + 1 < |rs| then rs[i + 1].offset else 0;
        var front := Wrap64(it.offset + it.size) == next;
        var fs := FreedGap(rs, Repoint(rs, al.fragments, i), i, front);
        FreedGapAvoids(rs, Repoint(rs, al.fragments, i), i, front);
        assert FreeMemory(al, off).alloc == Allocator(rs[..i] + rs[i + 1..], RenumberDown(fs, i));
        RenumberDownKeepsRegions(rs, fs, i);
      }
  }

  /** The fragment a free may add avoids the freed region and names regions
      that exist. */
  lemma FreedGapAvoids(rs: seq<Region>, fs: seq<Fragment>, i: nat, frontTest: bool)
    requires i < |rs|
    requires forall k :: 0 <= k < |fs| ==> Avoids(fs[k], i) && fs[k].region1 < |rs| && fs[k].region2 < |rs|
    ensures var out := FreedGap(rs, fs, i, frontTest);
            forall k :: 0 <= k < |out| ==> Avoids(out[k], i) && out[k].region1 < |rs| && out[k].region2 < |rs|
  {}

  /** A fragment with both iterators on the freed region dangles: freeing the
      only region leaves a fragment that names no region. */
  lemma FreePinnedDangles()
    ensures var al := Allocator([Region(4, 4)], [Fragment(0, 0, 0, 4)]);
            WellFormed(al) &&
            FreeMemory(al, 4) == Freed(Allocator([], [Fragment(0, 0, 0, 4)]), true) &&
            !WellFormed(FreeMemory(al, 4).alloc)
  {
    var al := Allocator([Region(4, 4)], [Fragment(0, 0, 0, 4)]);
    assert FindRegion(al.regions, 4) == Some(0);
    assert Repoint(al.regions, al.fragments, 0) == [Fragment(0, 0, 0, 4)];
    assert FreedGap(al.regions, [Fragment(0, 0, 0, 4)], 0, Wrap64(4 + 4) == 0) == [Fragment(0, 0, 0, 4)];
    assert RenumberDown([Fragment(0, 0, 0, 4)], 0) == [Fragment(0, 0, 0, 4)];
  }

  /** Freeing a missing offset is undefined as written and a no-op once
      fixed. */
  lemma FreeMissingOffset()
    ensures FreeMemoryAsWritten(Allocator([Region(0, 4)], []), 8).None?
    ensures FreeMemory(Allocator([Region(0, 4)], []), 8) == Freed(Allocator([Region(0, 4)], []), false)
  {}

  /** Freeing a first region flush with the next one: as written no
      fragment records the freed space; fixed, a fragment [0, 4) does. */
  lemma FreeFirstRegionKeepsGap()
    ensures var al := Allocator([Region(0, 4), Region(4, 4)], []);
            FreeMemoryAsWritten(al, 0) == Some(Freed(Allocator([Region(4, 4)], []), true)) &&
            FreeMemory(al, 0) == Freed(Allocator([Region(4, 4)], [Fragment(0, 0, 0, 4)]), true)
  {
    var al := Allocator([Region(0, 4), Region(4, 4)], []);
    assert FindRegion(al.regions, 0) == Some(0);
    assert al.regions[1..] == [Region(4, 4)];
    assert Repoint(al.regions, [], 0) == [];
    assert Wrap64(0 + 4) != 0;
    assert FreedGap(al.regions, [], 0, false) == [];
    assert RenumberDown([], 0) == [];
    assert RemoveRegion(al, 0, false) == Allocator([Region(4, 4)], []);
    assert Wrap64(0 + 4) == 4;
    assert FreedGap(al.regions, [], 0, true) == [Fragment(1, 1, 0, 4)];
    assert RenumberDown([Fragment(1, 1, 0, 4)], 0) == [Fragment(0, 0, 0, 4)];
  }

  /** Offsets strictly increase along the region list. */
  predicate OffsetsIncrease(rs: seq<Region>) {
    forall i, j :: 0 <= i < j < |rs| ==> rs[i].offset < rs[j].offset
  }

  /**
   * Request then free is the identity on an allocator with no fragments:
   * the appended region is the only one at its offset, the gap fragment the
   * append may open ends at the last region and is dropped with it.
   */
  lemma {:induction false} RequestThenFree(al: Allocator, size: nat, a: nat)
    requires al.fragments == [] && OffsetsIncrease(al.regions) && size < U64
    requires al.regions != [] ==>
               al.regions[|al.regions| - 1].size > 0 &&
               al.regions[|al.regions| - 1].offset + al.regions[|al.regions| - 1].size + a < U64 &&
               (a == 0 || IsPow2(a))
    ensures var g := RequestMemory(al, size, a, 0);
            FreeMemory(g.alloc, g.region.offset) == Freed(al, true)
  {
    var g := RequestMemory(al, size, a, 0);
    AppendShape(al, size, a);
    NewOffsetIsFresh(al, size, a);
    FreeAfterAppend(al, g);
  }

  /** Freeing a region appended at a fresh offset, when every fragment ends
      at it, gives back the allocator before the append. */
  lemma FreeAfterAppend(al: Allocator, g: Granted)
    requires al.fragments == []
    requires g.alloc.regions == al.regions + [g.region]
    requires forall j :: 0 <= j < |g.alloc.fragments| ==>
               g.alloc.fragments[j].region1 + 1 == |al.regions| && g.alloc.fragments[j].region2 == |al.regions|
    requires forall j :: 0 <= j < |al.regions| ==> al.regions[j].offset != g.region.offset
    ensures FreeMemory(g.alloc, g.region.offset) == Freed(al, true)
  {
    var rs := g.alloc.regions;
    assert rs[|rs| - 1] == g.region;
    forall j | 0 <= j < |rs| - 1 ensures rs[j].offset != g.region.offset {
      assert rs[j] == al.regions[j];
    }
    FindLast(rs, g.region.offset);
    FreeLast(g.alloc, g.region.offset);
    assert rs[..|rs| - 1] == al.regions;
  }

  /** A request with no fragments appends, and any fragment it opens lies
      between the old last region and the new one. */
  lemma AppendShape(al: Allocator, size: nat, a: nat)
    requires al.fragments == [] && size < U64
    ensures var g := RequestMemory(al, size, a, 0);
            && g.alloc.regions == al.regions + [g.region]
            && forall j :: 0 <= j < |g.alloc.fragments| ==>
                 g.alloc.fragments[j].region1 + 1 == |al.regions| && g.alloc.fragments[j].region2 == |al.regions|
  {
    assert RequestMemory(al, size, a, 0) == Append(al, 0, RoundedSize(size, a), a, true);
  }

  /** An offset no earlier region has is found at the last position. */
  lemma FindLast(rs: seq<Region>, off: nat)
    requires rs != [] && rs[|rs| - 1].offset == off
    requires forall j :: 0 <= j < |rs| - 1 ==> rs[j].offset != off
    ensures FindRegion(rs, off) == Some(|rs| - 1)
  {}

  /** Freeing the last region, when every fragment ends at it, restores the
      shorter region list and no fragments. */
  lemma FreeLast(al: Allocator, off: nat)
    requires al.regions != [] && FindRegion(al.regions, off) == Some(|al.regions| - 1)
    requires forall j :: 0 <= j < |al.fragments| ==>
               al.fragments[j].region1 + 2 == |al.regions| && al.fragments[j].region2 + 1 == |al.regions|
    ensures FreeMemory(al, off) == Freed(Allocator(al.regions[..|al.regions| - 1], []), true)
  {
    var rs := al.regions;
    var n := |rs| - 1;
    RepointDropsLast(rs, al.fragments, n);
    assert FreedGap(rs, [], n, Wrap64(rs[n].offset + rs[n].size) == 0) == [];
    assert rs[..n] + rs[n + 1..] == rs[..n];
  }

  /** The offset an append hands out differs from every existing one. */
  lemma NewOffsetIsFresh(al: Allocator, size: nat, a: nat)
    requires al.fragments == [] && OffsetsIncrease(al.regions) && size < U64
    requires al.regions != [] ==>
               al.regions[|al.regions| - 1].size > 0 &&
               al.regions[|al.regions| - 1].offset + al.regions[|al.regions| - 1].size + a < U64 &&
               (a == 0 || IsPow2(a))
    ensures forall j :: 0 <= j < |al.regions| ==>
              al.regions[j].offset != RequestMemory(al, size, a, 0).region.offset
  {
    if al.regions != [] {
      var last := al.regions[|al.regions| - 1];
      ModSmall(last.offset + last.size, U64);
      assert LastEnd(al.regions) == last.offset + last.size;
      AppendAfterEnd(al, size, a);
      BelowEnd(al.regions, Request(al, size, a, 0, true).region.offset);
    }
  }

  /** With no fragment to reuse, the appended region starts at or after the
      end of the last one. */
  lemma AppendAfterEnd(al: Allocator, size: nat, a: nat)
    requires al.fragments == [] && al.regions != [] && size < U64
    requires LastEnd(al.regions) + a < U64 && (a == 0 || IsPow2(a))
    ensures RequestMemory(al, size, a, 0) == Request(al, size, a, 0, true)
    ensures Request(al, size, a, 0, true).region.offset >= LastEnd(al.regions)
  {
    AppendAligned(al, size, a, 0);
  }

  lemma BelowEnd(rs: seq<Region>, off: nat)
    requires rs != [] && OffsetsIncrease(rs) && rs[|rs| - 1].size > 0
    requires off >= rs[|rs| - 1].offset + rs[|rs| - 1].size
    ensures forall j :: 0 <= j < |rs| ==> rs[j].offset < off
  {
    var last := rs[|rs| - 1];
    forall j | 0 <= j < |rs| ensures rs[j].offset < off {
      if j < |rs| - 1 { assert rs[j].offset < last.offset; }
    }
  }

  /** Fragments that end at the freed last region are dropped. */
  lemma {:induction false} RepointDropsLast(rs: seq<Region>, fs: seq<Fragment>, n: nat)
    requires n + 1 == |rs|
    requires forall j :: 0 <= j < |fs| ==> fs[j].region1 != n && fs[j].region2 == n
    ensures Repoint(rs, fs, n) == []
    decreases |fs|
  {
    if fs != [] {
      RepointDropsLast(rs, fs[1..], n);
    }
  }
}

=== FILE: gpu_memory_manager.dfy ===
/**
 * The main-buffer sub-allocator of GPUMemoryManager: an ordered list of
 * (offset, size) blocks, all 32-bit unsigned. A request either appends a
 * block after the last one (the "F" variant) or first tries to place it in a
 * gap between neighbouring blocks (the "P" variant); a delete looks the block
 * up by offset with a hand-written binary search.
 *
 * All arithmetic is uint32 in the engine; it is written here on `nat` with
 * every wrap-around made explicit through `Wrap32`, and `size_t` index
 * arithmetic of the delete loop through `Wrap64`.
 */
module GpuMemoryManager {
  import opened Wrappers
  import Common

  const U32: nat := 0x1_0000_0000
  const U64: nat := 0x1_0000_0000_0000_0000
  const UINT32_MAX: nat := U32 - 1

  /** One reserved region of the main buffer. */
  datatype Block = Block(offset: nat, size: nat)

  /** The block list after a request, and the offset the request returns. */
  datatype Placement = Placement(blocks: seq<Block>, offset: nat)

  /** C unsigned arithmetic: reduce into [0, 2^32) (Dafny's % is Euclidean,
      so negative differences wrap the way unsigned subtraction does). */
  function Wrap32(x: int): nat { x % U32 }
  function Wrap64(x: int): nat { x % U64 }

  predicate ValidBlock(b: Block) { b.offset < U32 && b.size < U32 }
  predicate ValidBlocks(bs: seq<Block>) { forall i :: 0 <= i < |bs| ==> ValidBlock(bs[i]) }

  /** Exact end of a block, without wrap-around. */
  function End(b: Block): nat { b.offset + b.size }

  /** The padding that lifts `offset` to the next multiple of `stride`. */
  function ComponentPad(offset: nat, stride: nat): nat
    requires stride > 0
  {
    if offset % stride != 0 then stride - offset % stride else 0
  }

  /**
   * The layout invariant the allocator is meant to keep: blocks sorted by
   * offset, no two overlapping, and every block inside the 32-bit range.
   */
  predicate Disjoint(bs: seq<Block>) {
    && ValidBlocks(bs)
    && (forall i :: 0 <= i < |bs| ==> End(bs[i]) < U32)
    && (forall i :: 0 <= i < |bs| - 1 ==> End(bs[i]) <= bs[i + 1].offset)
  }

  /** The multiple-of-stride fact behind `ComponentPad`. */
  lemma ComponentPadSpec(offset: nat, stride: nat)
    requires stride > 0
    ensures ComponentPad(offset, stride) < stride
    ensures (offset + ComponentPad(offset, stride)) % stride == 0
  {
    var q := offset / stride;
    var m := offset % stride;
    assert offset == q * stride + m;
    if m != 0 {
      assert offset + (stride - m) == (q + 1) * stride by {
        assert (q + 1) * stride == q * stride + stride;
      }
      Common.MultipleMod(q + 1, stride);
    }
  }

  /*************************************************************************/
  /* RequestMainMemoryLocationF                                            */
  /*************************************************************************/

  /**
   * Appends a block of `size` bytes after the last block, its offset lifted to
   * a multiple of `stride`; on an empty list the block goes to offset 0.
   */
  function RequestMainMemoryLocationF(blocks: seq<Block>, stride: nat, size: nat): (p: Placement)
    requires stride < U32 && (blocks != [] ==> 0 < stride) && size < U32 && ValidBlocks(blocks)
    ensures |p.blocks| == |blocks| + 1 && p.blocks[..|blocks|] == blocks
    ensures p.blocks[|blocks|] == Block(p.offset, size)
    ensures ValidBlocks(p.blocks)
    ensures blocks == [] ==> p.offset == 0
  {
    if |blocks| > 0 then
      var last := blocks[|blocks| - 1];
      var offset := Wrap32(last.offset + last.size);
      var placed := Wrap32(offset + ComponentPad(offset, stride));
      Placement(blocks + [Block(placed, size)], placed)
    else
      Placement([Block(0, size)], 0)
  }

  /** Without wrap-around the appended block starts at the first multiple of
      the stride at or after the end of the last block. */
  lemma RequestFAligned(blocks: seq<Block>, stride: nat, size: nat)
    requires 0 < stride < U32 && size < U32 && ValidBlocks(blocks)
    requires blocks != [] && End(blocks[|blocks| - 1]) + stride <= U32
    ensures var p := RequestMainMemoryLocationF(blocks, stride, size);
            var e := End(blocks[|blocks| - 1]);
            p.offset % stride == 0 && e <= p.offset < e + stride
  {
    var last := blocks[|blocks| - 1];
    var e := last.offset + last.size;
    var pad := ComponentPad(e, stride);
    Wrap32Small(e);
    ComponentPadSpec(e, stride);
    Wrap32Small(e + pad);
    PlacedAt(e, pad, stride, RequestMainMemoryLocationF(blocks, stride, size).offset);
  }

  lemma PlacedAt(e: nat, pad: nat, stride: nat, offset: nat)
    requires stride > 0 && pad < stride && (e + pad) % stride == 0 && offset == e + pad
    ensures offset % stride == 0 && e <= offset < e + stride
  {}

  lemma Wrap32Small(x: int)
    requires 0 <= x < U32
    ensures Wrap32(x) == x
  {}

  /** Appending keeps the list sorted and non-overlapping when the new block
      still fits in the 32-bit range. */
  lemma RequestFKeepsDisjoint(blocks: seq<Block>, stride: nat, size: nat)
    requires stride < U32 && (blocks != [] ==> 0 < stride) && size < U32 && Disjoint(blocks)
    requires blocks == [] || End(blocks[|blocks| - 1]) + stride + size <= U32
    requires blocks == [] ==> size < U32
    ensures Disjoint(RequestMainMemoryLocationF(blocks, stride, size).blocks)
  {
    var p := RequestMainMemoryLocationF(blocks, stride, size);
    if blocks != [] {
      RequestFAligned(blocks, stride, size);
      assert p.offset < End(blocks[|blocks| - 1]) + stride;
      assert End(p.blocks[|blocks|]) < U32;
      forall i | 0 <= i < |p.blocks| - 1
        ensures End(p.blocks[i]) <= p.blocks[i + 1].offset
      {
        if i < |blocks| - 1 {
          assert p.blocks[i] == blocks[i] && p.blocks[i + 1] == blocks[i + 1];
        }
      }
    }
  }

  /*************************************************************************/
  /* RequestMainMemoryLocationP, as written                                 */
  /*************************************************************************/

  /**
   * The gap test of the engine's scan, index `i`: the free space between the
   * end of block i (plus alignment padding) and the start of block i+1,
   * computed in uint32 so that a negative gap wraps to a huge one.
   */
  predicate GapFitsAsWritten(blocks: seq<Block>, stride: nat, size: nat, i: nat)
    requires stride > 0 && i + 1 < |blocks|
  {
    var first := Wrap32(blocks[i].offset + blocks[i].size);
    var second := blocks[i + 1].offset;
    var componentOffset := ComponentPad(first, stride);
    Wrap32(second - Wrap32(first + componentOffset)) >= size
  }

  /** The offset the engine assigns inside gap `i`: it always adds
      `stride - first % stride`, a whole stride when `first` is aligned. */
  function GapOffsetAsWritten(blocks: seq<Block>, stride: nat, i: nat): nat
    requires stride > 0 && i + 1 < |blocks|
  {
    var first := Wrap32(blocks[i].offset + blocks[i].size);
    Wrap32(first + (stride - first % stride))
  }

  /** First index at or after `from` whose gap passes the test. */
  function FirstGapAsWritten(blocks: seq<Block>, stride: nat, size: nat, from: nat): (r: Option<nat>)
    requires stride > 0
    ensures r.Some? ==> from <= r.value && r.value + 1 < |blocks| &&
                        GapFitsAsWritten(blocks, stride, size, r.value) &&
                        forall j :: from <= j < r.value ==> !GapFitsAsWritten(blocks, stride, size, j)
    ensures r.None? ==> forall j :: from <= j && j + 1 < |blocks| ==> !GapFitsAsWritten(blocks, stride, size, j)
    decreases |blocks| - from
  {
    if from + 1 >= |blocks| then None
    else if GapFitsAsWritten(blocks, stride, size, from) then Some(from)
    else FirstGapAsWritten(blocks, stride, size, from + 1)
  }

  /** `bs` with `b` inserted right after position `i`. */
  function InsertAfter(bs: seq<Block>, i: nat, b: Block): (r: seq<Block>)
    requires i < |bs|
    ensures |r| == |bs| + 1 && r[i + 1] == b
    ensures r[..i + 1] == bs[..i + 1] && r[i + 2..] == bs[i + 1..]
  {
    bs[..i + 1] + [b] + bs[i + 1..]
  }

  /**
   * Looks for the first gap between neighbours that the engine's test
   * accepts and inserts the block there; the sentinel UINT32_MAX means "no
   * gap" and falls back to appending with the F variant.
   */
  function RequestMainMemoryLocationP(blocks: seq<Block>, stride: nat, size: nat): (p: Placement)
    requires stride < U32 && (blocks != [] ==> 0 < stride) && size < U32 && ValidBlocks(blocks)
  {
    if blocks == [] then RequestMainMemoryLocationF(blocks, stride, size)
    else
      match FirstGapAsWritten(blocks, stride, size, 0)
      case Some(i) =>
        var offset := GapOffsetAsWritten(blocks, stride, i);
        if offset != UINT32_MAX then Placement(InsertAfter(blocks, i, Block(offset, size)), offset)
        else RequestMainMemoryLocationF(blocks, stride, size)
      case None => RequestMainMemoryLocationF(blocks, stride, size)
  }

  /** The engine's placement inserts exactly the new block, keeping every
      other block in order, and appends when no gap passes the test. */
  lemma RequestPInsertsOne(blocks: seq<Block>, stride: nat, size: nat)
    requires stride < U32 && (blocks != [] ==> 0 < stride) && size < U32 && ValidBlocks(blocks)
    ensures var p := RequestMainMemoryLocationP(blocks, stride, size);
            && |p.blocks| == |blocks| + 1
            && InsertsOne(blocks, p.blocks, Block(p.offset, size))
            && (blocks == [] || FirstGapAsWritten(blocks, stride, size, 0).None? ==>
                  p == RequestMainMemoryLocationF(blocks, stride, size))
  {
    var f := RequestMainMemoryLocationF(blocks, stride, size);
    if blocks == [] {
      LastInsertsOne(blocks, f.blocks, Block(f.offset, size));
    } else {
      match FirstGapAsWritten(blocks, stride, size, 0)
      case Some(i) =>
        var offset := GapOffsetAsWritten(blocks, stride, i);
        if offset != UINT32_MAX {
          InsertAfterInsertsOne(blocks, i, Block(offset, size));
        } else {
          LastInsertsOne(blocks, f.blocks, Block(f.offset, size));
        }
      case None =>
        LastInsertsOne(blocks, f.blocks, Block(f.offset, size));
    }
  }

  /** `after` is `before` with `b` inserted at some position. */
  predicate InsertsOne(before: seq<Block>, after: seq<Block>, b: Block) {
    exists k :: 0 <= k < |after| && after[k] == b && after[..k] + after[k + 1..] == before
  }

  lemma InsertAfterInsertsOne(bs: seq<Block>, i: nat, b: Block)
    requires i < |bs|
    ensures InsertsOne(bs, InsertAfter(bs, i, b), b)
  {
    var r := InsertAfter(bs, i, b);
    assert r[..i + 1] + r[i + 2..] == bs by {
      assert bs == bs[..i + 1] + bs[i + 1..];
    }
  }

  lemma LastInsertsOne(bs: seq<Block>, after: seq<Block>, b: Block)
    requires |after| == |bs| + 1 && after[..|bs|] == bs && after[|bs|] == b
    ensures InsertsOne(bs, after, b)
  {
    assert after[..|bs|] + after[|bs| + 1..] == bs;
  }

  /** A sorted, disjoint list where the engine's gap placement breaks the
      layout: the gap after (0,4) is probed at offset 4 but the block is put
      at offset 8, overlapping the block at 12. */
  lemma RequestPAlignedGapOverlaps()
    ensures var bs := [Block(0, 4), Block(12, 4)];
            Disjoint(bs) &&
            RequestMainMemoryLocationP(bs, 4, 8).blocks == [Block(0, 4), Block(8, 8), Block(12, 4)] &&
            !Disjoint(RequestMainMemoryLocationP(bs, 4, 8).blocks)
  {
    var bs := [Block(0, 4), Block(12, 4)];
    var r := [Block(0, 4), Block(8, 8), Block(12, 4)];
    AlignedGapPlacement();
    assert Disjoint(bs);
    assert !Disjoint(r) by {
      assert End(r[1]) > r[2].offset;
    }
  }

  lemma AlignedGapPlacement()
    ensures RequestMainMemoryLocationP([Block(0, 4), Block(12, 4)], 4, 8).blocks == [Block(0, 4), Block(8, 8), Block(12, 4)]
  {
    var bs := [Block(0, 4), Block(12, 4)];
    assert Wrap32(4) == 4 && Wrap32(8) == 8 && Wrap32(12 - 4) == 8;
    assert GapFitsAsWritten(bs, 4, 8, 0);
    assert FirstGapAsWritten(bs, 4, 8, 0) == Some(0);
    assert GapOffsetAsWritten(bs, 4, 0) == 8;
    PlacedInGap(bs, 4, 8, 0);
    assert InsertAfter(bs, 0, Block(8, 8)) == [Block(0, 4)] + [Block(8, 8)] + [Block(12, 4)];
  }

  /** Adjacent blocks whose padded end passes the next offset: the uint32
      subtraction wraps, the scan reports a huge gap and inserts a 100-byte
      block on top of the block at offset 3. */
  lemma RequestPWrappedGapOverlaps()
    ensures var bs := [Block(0, 3), Block(3, 4)];
            Disjoint(bs) &&
            RequestMainMemoryLocationP(bs, 4, 100).blocks == [Block(0, 3), Block(4, 100), Block(3, 4)] &&
            !Disjoint(RequestMainMemoryLocationP(bs, 4, 100).blocks)
  {
    var bs := [Block(0, 3), Block(3, 4)];
    var r := [Block(0, 3), Block(4, 100), Block(3, 4)];
    WrappedGapPlacement();
    assert Disjoint(bs);
    assert !Disjoint(r) by {
      assert r[1].offset > r[2].offset;
    }
  }

  lemma WrappedGapPlacement()
    ensures RequestMainMemoryLocationP([Block(0, 3), Block(3, 4)], 4, 100).blocks == [Block(0, 3), Block(4, 100), Block(3, 4)]
  {
    var bs := [Block(0, 3), Block(3, 4)];
    assert Wrap32(3) == 3 && Wrap32(4) == 4 && Wrap32(3 - 4) == UINT32_MAX;
    assert GapFitsAsWritten(bs, 4, 100, 0);
    assert FirstGapAsWritten(bs, 4, 100, 0) == Some(0);
    assert GapOffsetAsWritten(bs, 4, 0) == 4;
    PlacedInGap(bs, 4, 100, 0);
    assert InsertAfter(bs, 0, Block(4, 100)) == [Block(0, 3)] + [Block(4, 100)] + [Block(3, 4)];
  }

  /** When the scan accepts gap `i`, the block goes right after block `i`. */
  lemma PlacedInGap(blocks: seq<Block>, stride: nat, size: nat, i: nat)
    requires 0 < stride < U32 && size < U32 && ValidBlocks(blocks)
    requires FirstGapAsWritten(blocks, stride, size, 0) == Some(i)
    requires GapOffsetAsWritten(blocks, stride, i) != UINT32_MAX
    ensures var off := GapOffsetAsWritten(blocks, stride, i);
            RequestMainMemoryLocationP(blocks, stride, size) == Placement(InsertAfter(blocks, i, Block(off, size)), off)
  {}

  /*************************************************************************/
  /* RequestMainMemoryLocationP, corrected                                  */
  /*************************************************************************/

  /** The intended gap test: the padded end of block i plus `size` reaches no
      further than the start of block i+1. */
  predicate GapFits(blocks: seq<Block>, stride: nat, size: nat, i: nat)
    requires stride > 0 && i + 1 < |blocks|
  {
    var first := End(blocks[i]);
    first + ComponentPad(first, stride) + size <= blocks[i + 1].offset
  }

  function FirstGap(blocks: seq<Block>, stride: nat, size: nat, from: nat): (r: Option<nat>)
    requires stride > 0
    ensures r.Some? ==> from <= r.value && r.value + 1 < |blocks| &&
                        GapFits(blocks, stride, size, r.value)
    ensures r.None? ==> forall j :: from <= j && j + 1 < |blocks| ==> !GapFits(blocks, stride, size, j)
    decreases |blocks| - from
  {
    if from + 1 >= |blocks| then None
    else if GapFits(blocks, stride, size, from) then Some(from)
    else FirstGap(blocks, stride, size, from + 1)
  }

  /**
   * Gap placement with the padding used consistently and no wrap-around in
   * the gap test; falls back to appending when no gap fits.
   */
  function RequestMainMemoryLocationPCorrected(blocks: seq<Block>, stride: nat, size: nat): (p: Placement)
    requires stride < U32 && (blocks != [] ==> 0 < stride) && size < U32 && Disjoint(blocks)
    requires blocks == [] || End(blocks[|blocks| - 1]) + stride + size <= U32
    ensures |p.blocks| == |blocks| + 1
    ensures InsertsOne(blocks, p.blocks, Block(p.offset, size))
    ensures Disjoint(p.blocks)
  {
    if blocks == [] then
      var f := RequestMainMemoryLocationF(blocks, stride, size);
      LastInsertsOne(blocks, f.blocks, Block(f.offset, size));
      RequestFKeepsDisjoint(blocks, stride, size);
      f
    else
      match FirstGap(blocks, stride, size, 0)
      case Some(i) => PlaceInGap(blocks, stride, size, i)
      case None =>
        FallbackPlacement(blocks, stride, size);
        RequestMainMemoryLocationF(blocks, stride, size)
  }

  /** The padded end of block `i`: the first multiple of the stride at or
      after its end. */
  function GapOffset(blocks: seq<Block>, stride: nat, i: nat): (offset: nat)
    requires stride > 0 && i < |blocks|
    ensures offset % stride == 0
    ensures End(blocks[i]) <= offset < End(blocks[i]) + stride
  {
    var first := End(blocks[i]);
    ComponentPadSpec(first, stride);
    first + ComponentPad(first, stride)
  }

  /** The block placed in gap `i`, at the padded end of block `i`. */
  function PlaceInGap(blocks: seq<Block>, stride: nat, size: nat, i: nat): (p: Placement)
    requires 0 < stride < U32 && size < U32 && Disjoint(blocks)
    requires i + 1 < |blocks| && GapFits(blocks, stride, size, i)
    ensures p.offset == GapOffset(blocks, stride, i)
    ensures |p.blocks| == |blocks| + 1
    ensures InsertsOne(blocks, p.blocks, Block(p.offset, size))
    ensures Disjoint(p.blocks)
  {
    var offset := GapOffset(blocks, stride, i);
    var b := Block(offset, size);
    InsertAfterInsertsOne(blocks, i, b);
    InsertKeepsDisjoint(blocks, i, b);
    Placement(InsertAfter(blocks, i, b), offset)
  }

  /** The corrected placement always puts the block at a multiple of the
      stride. */
  lemma CorrectedPlacementAligned(blocks: seq<Block>, stride: nat, size: nat)
    requires 0 < stride < U32 && size < U32 && Disjoint(blocks)
    requires blocks == [] || End(blocks[|blocks| - 1]) + stride + size <= U32
    ensures RequestMainMemoryLocationPCorrected(blocks, stride, size).offset % stride == 0
  {
    var p := RequestMainMemoryLocationPCorrected(blocks, stride, size);
    match FirstGap(blocks, stride, size, 0)
    case Some(i) =>
      assert p == PlaceInGap(blocks, stride, size, i);
    case None =>
      FallbackPlacement(blocks, stride, size);
  }

  /** Appending, the fallback of the corrected placement, keeps the layout
      and aligns the new block. */
  lemma FallbackPlacement(blocks: seq<Block>, stride: nat, size: nat)
    requires 0 < stride < U32 && size < U32 && Disjoint(blocks)
    requires blocks == [] || End(blocks[|blocks| - 1]) + stride + size <= U32
    ensures var p := RequestMainMemoryLocationF(blocks, stride, size);
            && InsertsOne(blocks, p.blocks, Block(p.offset, size))
            && p.offset % stride == 0
            && Disjoint(p.blocks)
  {
    var f := RequestMainMemoryLocationF(blocks, stride, size);
    LastInsertsOne(blocks, f.blocks, Block(f.offset, size));
    RequestFKeepsDisjoint(blocks, stride, size);
    if blocks == [] {
      assert f.offset == 0;
    } else {
      RequestFAligned(blocks, stride, size);
    }
  }

  lemma InsertKeepsDisjoint(bs: seq<Block>, i: nat, b: Block)
    requires Disjoint(bs) && i + 1 < |bs|
    requires End(bs[i]) <= b.offset && End(b) <= bs[i + 1].offset
    ensures Disjoint(InsertAfter(bs, i, b))
  {
    var r := InsertAfter(bs, i, b);
    forall j | 0 <= j < |r|
      ensures ValidBlock(r[j]) && End(r[j]) < U32
    {
      if j <= i { assert r[j] == bs[j]; }
      else if j > i + 1 { assert r[j] == bs[j - 1]; }
    }
    forall j | 0 <= j < |r| - 1
      ensures End(r[j]) <= r[j + 1].offset
    {
      if j < i { assert r[j] == bs[j] && r[j + 1] == bs[j + 1]; }
      else if j > i + 1 { assert r[j] == bs[j - 1] && r[j + 1] == bs[j]; }
    }
  }

  /*************************************************************************/
  /* DeleteMainMemoryLocation                                              */
  /*************************************************************************/

  /** The loop state of the delete search: bounds l and r and the probe. */
  datatype SearchState = SearchState(l: nat, r: nat, index: nat)

  /** One loop iteration: a hit, leaving the loop, or the next state. */
  datatype StepResult = Hit(at: nat) | Exit | Next(state: SearchState)

  /** What the search ends in within a number of iterations. */
  datatype SearchOutcome = FoundAt(index: nat) | NotFound | StillRunning

  function Offsets(bs: seq<Block>): (r: seq<nat>)
    ensures |r| == |bs| && forall i :: 0 <= i < |bs| ==> r[i] == bs[i].offset
  {
    seq(|bs|, i requires 0 <= i < |bs| => bs[i].offset)
  }

  /**
   * One iteration of the engine's loop. The half-distance is computed in
   * size_t and stored in a uint32; a zero half-distance moves the probe by
   * one, and stepping left from 0 wraps the size_t probe past the end.
   */
  function Step(offs: seq<nat>, off: nat, s: SearchState): StepResult
  {
    if !(s.index < |offs|) then Exit
    else if offs[s.index] == off then Hit(s.index)
    else if offs[s.index] > off then
      var r := s.index;
      Next(SearchState(s.l, r, Wrap64(s.index - HalfStep(Wrap64(r - s.l)))))
    else
      var l := s.index;
      Next(SearchState(l, s.r, Wrap64(s.index + HalfStep(Wrap64(s.r - l)))))
  }

  /** Half the distance between the bounds, stored in a uint32; zero moves
      the probe by one instead. */
  function HalfStep(d: nat): nat {
    var h := (d / 2) % U32;
    if h != 0 then h else 1
  }

  /** Runs the loop for at most `fuel` further iterations. */
  function Search(offs: seq<nat>, off: nat, s: SearchState, fuel: nat): SearchOutcome
    decreases fuel
  {
    match Step(offs, off, s)
    case Hit(i) => FoundAt(i)
    case Exit => NotFound
    case Next(n) => if fuel == 0 then StillRunning else Search(offs, off, n, fuel - 1)
  }

  function InitialState(n: nat): SearchState {
    SearchState(0, Wrap64(n - 1), n / 2)
  }

  predicate StrictlySorted(offs: seq<nat>) {
    forall i, j :: 0 <= i < j < |offs| ==> offs[i] < offs[j]
  }

  /** The result of a delete. `Loops` means the search has not ended within
      |blocks| iterations; `DeleteAbsentOffset` and `DeleteBetweenNeverEnds`
      show that on a sorted list such a search never ends. */
  datatype DeleteOutcome = Deleted(blocks: seq<Block>) | Unchanged | Loops

  /**
   * Removes the block whose offset is `off`. On a list sorted by offset that
   * holds such a block, the search finds it within |blocks| iterations.
   */
  function DeleteMainMemoryLocation(blocks: seq<Block>, off: nat): (d: DeleteOutcome)
    ensures StrictlySorted(Offsets(blocks)) && |blocks| < U64 ==>
              forall t :: 0 <= t < |blocks| && blocks[t].offset == off ==>
                d == Deleted(blocks[..t] + blocks[t + 1..])
  {
    var offs := Offsets(blocks);
    var outcome := Search(offs, off, InitialState(|blocks|), |blocks|);
    SearchFindsPresent(blocks, off);
    if outcome.FoundAt? && outcome.index < |blocks| then
      Deleted(blocks[..outcome.index] + blocks[outcome.index + 1..])
    else if outcome.StillRunning? then Loops
    else Unchanged
  }

  lemma SearchFindsPresent(blocks: seq<Block>, off: nat)
    ensures StrictlySorted(Offsets(blocks)) && |blocks| < U64 ==>
              forall t :: 0 <= t < |blocks| && blocks[t].offset == off ==>
                Search(Offsets(blocks), off, InitialState(|blocks|), |blocks|) == FoundAt(t)
  {
    var offs := Offsets(blocks);
    if StrictlySorted(offs) && |blocks| < U64 {
      forall t | 0 <= t < |blocks| && blocks[t].offset == off
        ensures Search(offs, off, InitialState(|blocks|), |blocks|) == FoundAt(t)
      {
        SearchFinds(offs, off, t, InitialState(|blocks|), false, false, |blocks|);
      }
    }
  }

  /** Size of the set of probes that can still hold the key: `l` and `r`
      count only while they have not been probed and found wrong. */
  function Candidates(s: SearchState, lProbed: bool, rProbed: bool): int {
    (s.r - (if rProbed then 1 else 0)) - (s.l + (if lProbed then 1 else 0))
  }

  /** The search invariant: the key sits at `t` between the bounds, and a
      bound that has been probed is on the wrong side of the key and is never
      probed again. */
  predicate SearchInv(offs: seq<nat>, off: nat, t: nat, s: SearchState, lProbed: bool, rProbed: bool) {
    && StrictlySorted(offs) && t < |offs| && offs[t] == off && |offs| < U64
    && s.l <= s.index <= s.r < |offs| && s.l <= t <= s.r
    && (lProbed ==> offs[s.l] < off && s.index != s.l)
    && (rProbed ==> offs[s.r] > off && s.index != s.r)
  }

  /** In a strictly sorted list, value order is index order. */
  lemma SortedOrder(offs: seq<nat>, i: nat, j: nat)
    requires StrictlySorted(offs) && i < |offs| && j < |offs|
    ensures offs[i] < offs[j] <==> i < j
    ensures offs[i] == offs[j] <==> i == j
  {}

  lemma HalfStepBounds(d: nat)
    requires 1 <= d < U64
    ensures 1 <= HalfStep(d) <= d
    ensures d >= 2 ==> HalfStep(d) < d
  {}

  /** A probe right of the key moves left and keeps the invariant. */
  lemma StepLeft(offs: seq<nat>, off: nat, t: nat, s: SearchState, lProbed: bool, rProbed: bool)
      returns (n: SearchState)
    requires SearchInv(offs, off, t, s, lProbed, rProbed) && offs[s.index] > off
    ensures Step(offs, off, s) == Next(n)
    ensures SearchInv(offs, off, t, n, lProbed, true)
    ensures Candidates(n, lProbed, true) < Candidates(s, lProbed, rProbed)
  {
    SortedOrder(offs, t, s.index);
    SortedOrder(offs, s.l, t);
    var d := s.index - s.l;
    HalfStepBounds(d);
    var h := HalfStep(d);
    Wrap64Small(d);
    Wrap64Small(s.index - h);
    n := SearchState(s.l, s.index, s.index - h);
  }

  /** A probe left of the key moves right and keeps the invariant. */
  lemma StepRight(offs: seq<nat>, off: nat, t: nat, s: SearchState, lProbed: bool, rProbed: bool)
      returns (n: SearchState)
    requires SearchInv(offs, off, t, s, lProbed, rProbed) && offs[s.index] < off
    ensures Step(offs, off, s) == Next(n)
    ensures SearchInv(offs, off, t, n, true, rProbed)
    ensures Candidates(n, true, rProbed) < Candidates(s, lProbed, rProbed)
  {
    SortedOrder(offs, s.index, t);
    SortedOrder(offs, t, s.r);
    var d := s.r - s.index;
    HalfStepBounds(d);
    var h := HalfStep(d);
    Wrap64Small(d);
    Wrap64Small(s.index + h);
    n := SearchState(s.index, s.r, s.index + h);
  }

  lemma Wrap64Small(x: int)
    requires 0 <= x < U64
    ensures Wrap64(x) == x
  {}

  /**
   * Each miss shrinks the candidate range, so the key is hit before the
   * fuel runs out.
   */
  lemma {:induction false} SearchFinds(offs: seq<nat>, off: nat, t: nat, s: SearchState,
                                      lProbed: bool, rProbed: bool, fuel: nat)
    requires SearchInv(offs, off, t, s, lProbed, rProbed)
    requires fuel >= Candidates(s, lProbed, rProbed)
    ensures Search(offs, off, s, fuel) == FoundAt(t)
    decreases fuel
  {
    SortedOrder(offs, s.index, t);
    if offs[s.index] == off {
    } else if offs[s.index] > off {
      var n := StepLeft(offs, off, t, s, lProbed, rProbed);
      SearchFinds(offs, off, t, n, lProbed, true, fuel - 1);
    } else {
      var n := StepRight(offs, off, t, s, lProbed, rProbed);
      SearchFinds(offs, off, t, n, true, rProbed, fuel - 1);
    }
  }

  /** A missing offset between two blocks: the probe bounces between indices
      1 and 2 for ever, so the delete never returns. */
  lemma DeleteMissingOffsetLoops(fuel: nat)
    ensures Search([0, 10, 20], 15, InitialState(3), fuel) == StillRunning
  {
    var offs := [0, 10, 20];
    assert InitialState(3) == SearchState(0, 2, 1);
    assert Step(offs, 15, SearchState(0, 2, 1)) == Next(SearchState(1, 2, 2));
    if fuel > 0 {
      BounceForever(fuel - 1, true);
    }
  }

  lemma {:induction false} BounceForever(fuel: nat, atRight: bool)
    ensures Search([0, 10, 20], 15, SearchState(1, 2, if atRight then 2 else 1), fuel) == StillRunning
    decreases fuel
  {
    var offs := [0, 10, 20];
    assert Step(offs, 15, SearchState(1, 2, 2)) == Next(SearchState(1, 2, 1));
    assert Step(offs, 15, SearchState(1, 2, 1)) == Next(SearchState(1, 2, 2));
    if fuel > 0 {
      BounceForever(fuel - 1, !atRight);
    }
  }

  /** No block has the offset. */
  predicate Absent(offs: seq<nat>, off: nat) {
    forall i :: 0 <= i < |offs| ==> offs[i] != off
  }

  /** With every offset below the key the probe only moves right, with `r`
      fixed at the last index, and leaves the loop at `index == size()`. */
  lemma {:induction false} ExitsRight(offs: seq<nat>, off: nat, s: SearchState, fuel: nat)
    requires |offs| < U64 && forall i :: 0 <= i < |offs| ==> offs[i] < off
    requires s.index <= |offs| && s.r + 1 == |offs|
    requires fuel >= |offs| - s.index
    ensures Search(offs, off, s, fuel) == NotFound
    decreases |offs| - s.index
  {
    if s.index < |offs| {
      var d := s.r - s.index;
      Wrap64Small(d);
      var h := HalfStep(d);
      assert h <= d || h == 1;
      Wrap64Small(s.index + h);
      var n := SearchState(s.index, s.r, s.index + h);
      assert Step(offs, off, s) == Next(n);
      ExitsRight(offs, off, n, fuel - 1);
    }
  }

  /** With every offset above the key the probe only moves left, with `l`
      fixed at 0; stepping left from 0 wraps the probe past the end. */
  lemma {:induction false} ExitsLeft(offs: seq<nat>, off: nat, s: SearchState, fuel: nat)
    requires |offs| < U64 && forall i :: 0 <= i < |offs| ==> offs[i] > off
    requires s.l == 0
    requires s.index < |offs| ==> fuel >= s.index + 1
    ensures Search(offs, off, s, fuel) == NotFound
    decreases fuel
  {
    if s.index < |offs| {
      var d := s.index;
      Wrap64Small(d);
      var h := HalfStep(d);
      var n := SearchState(0, s.index, Wrap64(s.index - h));
      assert Step(offs, off, s) == Next(n);
      if s.index > 0 {
        HalfStepBounds(d);
        Wrap64Small(s.index - h);
      } else {
        assert Wrap64(0 - 1) == U64 - 1;
      }
      ExitsLeft(offs, off, n, fuel - 1);
    }
  }

  /** With the key strictly between the offsets at `k` and `k + 1`, the
      bounds stay on either side of that gap and the probe between them, so
      every iteration misses and stays in range: the loop never ends. */
  lemma {:induction false} Bounces(offs: seq<nat>, off: nat, k: nat, s: SearchState, fuel: nat)
    requires StrictlySorted(offs) && Absent(offs, off) && |offs| < U64
    requires k + 1 < |offs| && offs[k] < off && off < offs[k + 1]
    requires s.l <= k && k + 1 <= s.r < |offs| && s.l <= s.index <= s.r
    ensures Search(offs, off, s, fuel) == StillRunning
    decreases fuel
  {
    assert offs[s.index] != off;
    if offs[s.index] > off {
      SortedOrder(offs, k, s.index);
      var d := s.index - s.l;
      HalfStepBounds(d);
      Wrap64Small(d);
      var h := HalfStep(d);
      Wrap64Small(s.index - h);
      var n := SearchState(s.l, s.index, s.index - h);
      assert Step(offs, off, s) == Next(n);
      if fuel > 0 {
        Bounces(offs, off, k, n, fuel - 1);
      }
    } else {
      SortedOrder(offs, s.index, k + 1);
      var d := s.r - s.index;
      HalfStepBounds(d);
      Wrap64Small(d);
      var h := HalfStep(d);
      Wrap64Small(s.index + h);
      var n := SearchState(s.index, s.r, s.index + h);
      assert Step(offs, off, s) == Next(n);
      if fuel > 0 {
        Bounces(offs, off, k, n, fuel - 1);
      }
    }
  }

  /** An absent key inside the range of a sorted list lies strictly between
      two neighbouring offsets at or after `i`. */
  lemma {:induction false} Bracketed(offs: seq<nat>, off: nat, i: nat) returns (k: nat)
    requires StrictlySorted(offs) && Absent(offs, off)
    requires i < |offs| && offs[i] < off && off < offs[|offs| - 1]
    ensures i <= k && k + 1 < |offs| && offs[k] < off && off < offs[k + 1]
    decreases |offs| - i
  {
    if offs[i + 1] > off {
      k := i;
    } else {
      assert offs[i + 1] != off;
      k := Bracketed(offs, off, i + 1);
    }
  }

  /**
   * A delete of an offset no block of a sorted list has returns, with the
   * list unchanged, exactly when the offset lies outside the blocks'
   * offsets; otherwise it is cut off as `Loops`.
   */
  lemma DeleteAbsentOffset(blocks: seq<Block>, off: nat)
    requires StrictlySorted(Offsets(blocks)) && |blocks| < U64 && Absent(Offsets(blocks), off)
    ensures DeleteMainMemoryLocation(blocks, off) == Unchanged <==>
              blocks == [] || off < blocks[0].offset || off > blocks[|blocks| - 1].offset
    ensures DeleteMainMemoryLocation(blocks, off) != Unchanged ==> DeleteMainMemoryLocation(blocks, off) == Loops
  {
    var offs := Offsets(blocks);
    var n := |blocks|;
    var s := InitialState(n);
    if n == 0 {
    } else if off < offs[0] {
      forall i | 0 <= i < n ensures offs[i] > off {
        SortedOrder(offs, 0, i);
      }
      ExitsLeft(offs, off, s, n);
    } else if off > offs[n - 1] {
      forall i | 0 <= i < n ensures offs[i] < off {
        SortedOrder(offs, i, n - 1);
      }
      Wrap64Small(n - 1);
      ExitsRight(offs, off, s, n);
    } else {
      assert offs[0] != off && offs[n - 1] != off;
      var k := Bracketed(offs, off, 0);
      Wrap64Small(n - 1);
      Bounces(offs, off, k, s, n);
    }
  }

  /** An absent offset strictly between two neighbouring blocks of a sorted
      list: the delete's search is still running after any number of
      iterations, so the call never returns. */
  lemma DeleteBetweenNeverEnds(blocks: seq<Block>, off: nat, k: nat, fuel: nat)
    requires StrictlySorted(Offsets(blocks)) && |blocks| < U64 && Absent(Offsets(blocks), off)
    requires k + 1 < |blocks| && blocks[k].offset < off && off < blocks[k + 1].offset
    ensures Search(Offsets(blocks), off, InitialState(|blocks|), fuel) == StillRunning
  {
    Wrap64Small(|blocks| - 1);
    Bounces(Offsets(blocks), off, k, InitialState(|blocks|), fuel);
  }

  /**
   * Deletion with a terminating binary search over the half-open range
   * [lo, hi): a missing offset leaves the list unchanged.
   */
  method DeleteMainMemoryLocationCorrected(blocks: seq<Block>, off: nat) returns (r: seq<Block>)
    requires StrictlySorted(Offsets(blocks))
    ensures (exists t :: 0 <= t < |blocks| && blocks[t].offset == off) ==>
              exists t :: 0 <= t < |blocks| && blocks[t].offset == off && r == blocks[..t] + blocks[t + 1..]
    ensures (forall t :: 0 <= t < |blocks| ==> blocks[t].offset != off) ==> r == blocks
  {
    var lo, hi := 0, |blocks|;
    while lo < hi
      invariant 0 <= lo <= hi <= |blocks|
      invariant forall j :: 0 <= j < lo ==> blocks[j].offset < off
      invariant forall j :: hi <= j < |blocks| ==> blocks[j].offset > off
      decreases hi - lo
    {
      var mid := lo + (hi - lo) / 2;
      if blocks[mid].offset == off {
        return blocks[..mid] + blocks[mid + 1..];
      } else if blocks[mid].offset < off {
        forall j | 0 <= j <= mid ensures blocks[j].offset < off {
          if j < mid { assert Offsets(blocks)[j] < Offsets(blocks)[mid]; }
        }
        lo := mid + 1;
      } else {
        forall j | mid <= j < |blocks| ensures blocks[j].offset > off {
          if j > mid { assert Offsets(blocks)[mid] < Offsets(blocks)[j]; }
        }
        hi := mid;
      }
    }
    return blocks;
  }
}

=== FILE: graphics_shader.dfy ===
/**
 * The graphics shader's 256-bit property identifier, written as the set of
 * positions of its one bits (every position below 256). Each setter ORs its
 * value in at a fixed offset, a shift past bit 255 dropping the bits, and
 * each getter reads its window back. From the most significant end:
 *
 *   246..255  property bits (the low 10 bits of the 32-bit property word)
 *   244..245  pipeline cull mode
 *   242..243  primitive mode
 *   210..241  attribute type CRC-32
 *   178..209  attribute stride CRC-32
 *   146..177  uniform data layout CRC-32
 *   114..145  combined texture hash CRC-32
 *   113       colour multiplier enabled
 *   110..112  enabled joints count
 *   102..109  morph target count
 *   101       shading (1 means PBR)
 */
module GraphicsShader {
  import opened Bits
  import Shader

  type Field = set<nat>

  /** A 32-bit unsigned value. */
  type Word = n: nat | n < 0x1_0000_0000

  const ID_LENGTH: nat := 256
  const SHADER_PROPERTY_OFFSET: nat := 246
  const CULL_MODE_OFFSET: nat := 244
  const PRIMITIVE_MODE_OFFSET: nat := 242
  const ATTRIBUTE_TYPE_CRC_OFFSET: nat := 210
  const ATTRIBUTE_STRIDE_CRC_OFFSET: nat := 178
  const UNIFORM_DATA_CRC_OFFSET: nat := 146
  const TEXTURE_HASH_OFFSET: nat := 114
  const COLOR_MULTIPLIER_OFFSET: nat := 113
  const JOINTS_COUNT_OFFSET: nat := 110
  const MORPH_TARGET_COUNT_OFFSET: nat := 102
  const SHADING_OFFSET: nat := 101

  /** Every position lies inside the 256-bit identifier. */
  predicate InRange(f: Field) {
    forall i :: i in f ==> i < ID_LENGTH
  }

  /** `bitset<256>(v) << off`: the bits of `v` that land below bit 256. */
  function Shifted(v: nat, off: nat): (r: Field)
    requires off <= ID_LENGTH
    ensures InRange(r)
  {
    EncodeWithin(v, off, ID_LENGTH - off);
    Encode(v, off, ID_LENGTH - off)
  }

  /** A shifted value sets no position below its offset. */
  lemma ShiftedAbove(v: nat, off: nat)
    requires off <= ID_LENGTH
    ensures forall i :: i in Shifted(v, off) ==> off <= i
  {
    EncodeWithin(v, off, ID_LENGTH - off);
  }

  /** A value below `2^k` shifted to `off` sets positions in
      `off .. off + k - 1` only. */
  lemma ShiftedIn(v: nat, off: nat, k: nat)
    requires v < Pow2(k) && off <= ID_LENGTH
    ensures forall i :: i in Shifted(v, off) ==> off <= i < off + k
  {
    EncodeWithin(v, off, ID_LENGTH - off);
    EncodeFits(v, off, ID_LENGTH - off, k);
  }

  /** Bitwise exclusive or. */
  function Xor(a: Field, b: Field): Field {
    (a - b) + (b - a)
  }

  /*************************************************************************/
  /* Placing a field                                                        */
  /*************************************************************************/

  /** A value below `2^k` shifted to `off` occupies only `off .. off + k - 1`
      and, ORed into a field whose window is clear, reads back. */
  lemma PlaceField(f: Field, n: nat, off: nat, k: nat)
    requires n < Pow2(k) && off + k <= ID_LENGTH && ClearWindow(f, off, k)
    ensures forall i :: i in Shifted(n, off) ==> off <= i < off + k
    ensures Decode(f + Shifted(n, off), off, k) == n
  {
    EncodeNarrow(n, off, ID_LENGTH - off, k);
    EncodeWithin(n, off, k);
    DecodeEncode(f, n, off, k);
  }

  /** ORing a value into one window leaves any disjoint window's reading as
      it was. */
  lemma OtherWindowKept(f: Field, n: nat, off: nat, k: nat, off2: nat, k2: nat)
    requires n < Pow2(k) && off + k <= ID_LENGTH
    requires off2 + k2 <= off || off + k <= off2
    ensures Decode(f + Shifted(n, off), off2, k2) == Decode(f, off2, k2)
  {
    EncodeNarrow(n, off, ID_LENGTH - off, k);
    EncodeWithin(n, off, k);
    DecodeLocal(f + Shifted(n, off), f, off2, k2);
  }

  /*************************************************************************/
  /* Pipeline modes                                                         */
  /*************************************************************************/

  /** Numeric values of the two pipeline modes. */
  function CullCode(m: Shader.CullMode): (c: nat)
    ensures c < 3
  {
    match m
    case NoCulling => 0
    case Clockwise => 1
    case CounterClockwise => 2
  }

  function PrimitiveCode(m: Shader.PrimitiveMode): (c: nat)
    ensures c < 4
  {
    match m
    case NoPrimitive => 0
    case Points => 1
    case Lines => 2
    case Triangles => 3
  }

  /** ORs the mode's code into the two-bit cull field: no bit is cleared
      and no bit outside the field is set. */
  function SetPipelineCullMode(f: Field, m: Shader.CullMode): (r: Field)
    ensures f <= r
    ensures forall i :: i in r - f ==> CULL_MODE_OFFSET <= i < CULL_MODE_OFFSET + 2
  {
    assert Pow2(2) == 4;
    ShiftedIn(CullCode(m), CULL_MODE_OFFSET, 2);
    f + Shifted(CullCode(m), CULL_MODE_OFFSET)
  }

  /** The two-bit cull field; 3 is no mode the enumeration names. */
  function GetPipelineCullMode(f: Field): (c: nat)
    ensures c < 4
  {
    DecodeBound(f, CULL_MODE_OFFSET, 2);
    assert Pow2(2) == 4;
    Decode(f, CULL_MODE_OFFSET, 2)
  }

  /** ORs the mode's code into the two-bit primitive field: no bit is
      cleared and no bit outside the field is set. */
  function SetPrimitiveMode(f: Field, m: Shader.PrimitiveMode): (r: Field)
    ensures f <= r
    ensures forall i :: i in r - f ==> PRIMITIVE_MODE_OFFSET <= i < PRIMITIVE_MODE_OFFSET + 2
  {
    assert Pow2(2) == 4;
    ShiftedIn(PrimitiveCode(m), PRIMITIVE_MODE_OFFSET, 2);
    f + Shifted(PrimitiveCode(m), PRIMITIVE_MODE_OFFSET)
  }

  function GetPrimitiveMode(f: Field): (c: nat)
    ensures c < 4
  {
    DecodeBound(f, PRIMITIVE_MODE_OFFSET, 2);
    assert Pow2(2) == 4;
    Decode(f, PRIMITIVE_MODE_OFFSET, 2)
  }

  /** Position of bit `i` of the property word in the identifier. */
  function PropertyPos(i: nat): nat {
    SHADER_PROPERTY_OFFSET + i
  }

  /** The field of the property word as the shader interface's property
      bits: position `246 + i` becomes bit `i`. */
  function PropertyView(f: Field): Shader.PropertyBits {
    set i: nat | i < 10 && PropertyPos(i) in f
  }

  /** On a clear cull field the getter returns the mode just set; the
      primitive mode and the property bits keep their values. */
  lemma CullModeRoundTrip(f: Field, m: Shader.CullMode)
    requires ClearWindow(f, CULL_MODE_OFFSET, 2)
    ensures GetPipelineCullMode(SetPipelineCullMode(f, m)) == CullCode(m)
    ensures GetPrimitiveMode(SetPipelineCullMode(f, m)) == GetPrimitiveMode(f)
    ensures PropertyView(SetPipelineCullMode(f, m)) == PropertyView(f)
  {
    PlaceField(f, CullCode(m), CULL_MODE_OFFSET, 2);
    OtherWindowKept(f, CullCode(m), CULL_MODE_OFFSET, 2, PRIMITIVE_MODE_OFFSET, 2);
  }

  /** On a clear primitive field the getter returns the mode just set; the
      cull mode and the property bits keep their values. */
  lemma PrimitiveModeRoundTrip(f: Field, m: Shader.PrimitiveMode)
    requires ClearWindow(f, PRIMITIVE_MODE_OFFSET, 2)
    ensures GetPrimitiveMode(SetPrimitiveMode(f, m)) == PrimitiveCode(m)
    ensures GetPipelineCullMode(SetPrimitiveMode(f, m)) == GetPipelineCullMode(f)
    ensures PropertyView(SetPrimitiveMode(f, m)) == PropertyView(f)
  {
    PlaceField(f, PrimitiveCode(m), PRIMITIVE_MODE_OFFSET, 2);
    OtherWindowKept(f, PrimitiveCode(m), PRIMITIVE_MODE_OFFSET, 2, CULL_MODE_OFFSET, 2);
  }

  /** The setters only OR: on a field already holding Clockwise, setting
      CounterClockwise reads back as 3, which is no cull mode. */
  lemma CullModeSettersAccumulate()
    ensures GetPipelineCullMode(SetPipelineCullMode(SetPipelineCullMode({}, Shader.Clockwise), Shader.CounterClockwise)) == 3
  {
    var once := SetPipelineCullMode({}, Shader.Clockwise);
    var twice := SetPipelineCullMode(once, Shader.CounterClockwise);
    EncodeBit(1, CULL_MODE_OFFSET, ID_LENGTH - CULL_MODE_OFFSET, 0);
    EncodeBit(2, CULL_MODE_OFFSET, ID_LENGTH - CULL_MODE_OFFSET, 1);
  }

  /*************************************************************************/
  /* Property bits                                                          */
  /*************************************************************************/

  /** The low ten bits of a property word, the only ones the identifier
      keeps. */
  function Low10(b: Word): Shader.PropertyBits {
    set i: nat | i < 10 && Bit(b, i)
  }

  /** The low ten bits a property word does not hold. */
  function Unset10(b: Word): Shader.PropertyBits {
    set i: nat | i < 10 && !Bit(b, i)
  }

  /** True when the stored property bits share a bit with the query: some
      bit `i < 10` of the word is set at position `246 + i`. */
  predicate IsPropertySet(f: Field, b: Word): (r: bool)
    ensures r <==> exists i :: 0 <= i < 10 && Bit(b, i) && PropertyPos(i) in f
  {
    PropertyOverlap(f, b);
    f * Shifted(b, SHADER_PROPERTY_OFFSET) != {}
  }

  lemma PropertyOverlap(f: Field, b: Word)
    ensures f * Shifted(b, SHADER_PROPERTY_OFFSET) != {} <==>
              exists i :: 0 <= i < 10 && Bit(b, i) && PropertyPos(i) in f
  {
    var s := Shifted(b, SHADER_PROPERTY_OFFSET);
    if f * s != {} {
      var x :| x in f * s;
      ShiftedAbove(b, SHADER_PROPERTY_OFFSET);
      var i: nat := x - SHADER_PROPERTY_OFFSET;
      ShiftedPropertyBit(b, i);
      assert 0 <= i < 10 && Bit(b, i) && PropertyPos(i) in f;
    }
    if exists i :: 0 <= i < 10 && Bit(b, i) && PropertyPos(i) in f {
      var i :| 0 <= i < 10 && Bit(b, i) && PropertyPos(i) in f;
      ShiftedPropertyBit(b, i);
      assert PropertyPos(i) in f * s;
    }
  }

  /** Disabling as written: the complement of the word is XORed into the
      property bits instead of clearing the given ones. */
  function SetPropertyAsWritten(f: Field, b: Word, enable: bool): (r: Field)
    ensures enable ==> f <= r
    ensures forall i :: i < SHADER_PROPERTY_OFFSET ==> (i in r <==> i in f)
  {
    ShiftedAbove(b, SHADER_PROPERTY_OFFSET);
    ShiftedAbove(0xFFFF_FFFF - b, SHADER_PROPERTY_OFFSET);
    if enable then f + Shifted(b, SHADER_PROPERTY_OFFSET)
    else Xor(f, Shifted(0xFFFF_FFFF - b, SHADER_PROPERTY_OFFSET))
  }

  /** As evidently intended: disabling clears the given bits. */
  function SetProperty(f: Field, b: Word, enable: bool): (r: Field)
    ensures enable ==> f <= r
    ensures !enable ==> r <= f
    ensures forall i :: i < SHADER_PROPERTY_OFFSET ==> (i in r <==> i in f)
  {
    ShiftedAbove(b, SHADER_PROPERTY_OFFSET);
    if enable then f + Shifted(b, SHADER_PROPERTY_OFFSET)
    else f - Shifted(b, SHADER_PROPERTY_OFFSET)
  }

  /** Position `246 + i` of a shifted word is its bit `i`, for `i < 10`. */
  lemma ShiftedPropertyBit(b: nat, i: nat)
    ensures PropertyPos(i) in Shifted(b, SHADER_PROPERTY_OFFSET) <==> i < 10 && Bit(b, i)
  {
    EncodeBit(b, SHADER_PROPERTY_OFFSET, 10, i);
  }

  /** The property query is the shader interface's query on the low ten
      bits of the word. */
  lemma IsPropertySetAgrees(f: Field, b: Word)
    ensures IsPropertySet(f, b) <==> Shader.IsPropertySet(PropertyView(f), Low10(b))
  {
    var s := Shifted(b, SHADER_PROPERTY_OFFSET);
    if IsPropertySet(f, b) {
      var x :| x in f * s;
      EncodeWithin(b, SHADER_PROPERTY_OFFSET, 10);
      var i: nat := x - SHADER_PROPERTY_OFFSET;
      ShiftedPropertyBit(b, i);
      assert i in PropertyView(f) * Low10(b);
    }
    if Shader.IsPropertySet(PropertyView(f), Low10(b)) {
      var i :| i in PropertyView(f) * Low10(b);
      ShiftedPropertyBit(b, i);
      assert PropertyPos(i) in f * s;
    }
  }

  /** The corrected setter acts on the property bits exactly as the shader
      interface's setter does on the low ten bits of the word, and changes
      no position outside them. */
  lemma SetPropertyAgrees(f: Field, b: Word, enable: bool)
    ensures PropertyView(SetProperty(f, b, enable)) == Shader.SetProperty(PropertyView(f), Low10(b), enable)
    ensures forall i :: i < SHADER_PROPERTY_OFFSET ==> (i in SetProperty(f, b, enable) <==> i in f)
  {
    forall i: nat | i < 10
      ensures i in PropertyView(SetProperty(f, b, enable)) <==> i in Shader.SetProperty(PropertyView(f), Low10(b), enable)
    {
      ShiftedPropertyBit(b, i);
    }
    EncodeWithin(b, SHADER_PROPERTY_OFFSET, 10);
  }

  /** As written, disabling toggles every one of the ten property bits the
      word does NOT hold and leaves the word's own bits as they were. */
  lemma SetPropertyAsWrittenDisable(f: Field, b: Word)
    ensures PropertyView(SetPropertyAsWritten(f, b, false)) ==
              Xor(PropertyView(f), Unset10(b))
  {
    var c := 0xFFFF_FFFF - b;
    var after := SetPropertyAsWritten(f, b, false);
    var toggled := Unset10(b);
    Pow2Of32();
    forall i: nat
      ensures i in PropertyView(after) <==> i in Xor(PropertyView(f), toggled)
    {
      if i < 10 {
        ComplementBit(b, 32, i);
        ShiftedPropertyBit(c, i);
      }
    }
    assert PropertyView(after) == Xor(PropertyView(f), toggled);
  }

  /** So enabling bit 0 and disabling it again leaves it set, and disabling
      bit 0 on an empty identifier sets bit 1. */
  lemma SetPropertyAsWrittenKeepsBit()
    ensures IsPropertySet(SetPropertyAsWritten(SetPropertyAsWritten({}, 1, true), 1, false), 1)
    ensures IsPropertySet(SetPropertyAsWritten({}, 1, false), 2)
  {
    var on := SetPropertyAsWritten({}, 1, true);
    var off1 := SetPropertyAsWritten(on, 1, false);
    var off2 := SetPropertyAsWritten({}, 1, false);
    ShiftedPropertyBit(1, 0);
    assert 0 in PropertyView(on);
    SetPropertyAsWrittenDisable(on, 1);
    assert 0 !in Unset10(1);
    assert 0 in PropertyView(off1) * Low10(1);
    IsPropertySetAgrees(off1, 1);
    SetPropertyAsWrittenDisable({}, 1);
    assert Bit(2, 1) && !Bit(1, 1);
    assert 1 in Unset10(1);
    assert 1 in PropertyView(off2) * Low10(2);
    IsPropertySetAgrees(off2, 2);
  }

  /** With the corrected setter, a disabled word reports unset and an enabled
      one set whenever its low ten bits are not all zero. */
  lemma SetPropertyThenQuery(f: Field, b: Word)
    ensures !IsPropertySet(SetProperty(f, b, false), b)
    ensures Low10(b) != {} ==> IsPropertySet(SetProperty(f, b, true), b)
  {
    SetPropertyAgrees(f, b, false);
    IsPropertySetAgrees(SetProperty(f, b, false), b);
    Shader.DisableReportsUnset(PropertyView(f), Low10(b));
    SetPropertyAgrees(f, b, true);
    IsPropertySetAgrees(SetProperty(f, b, true), b);
    if Low10(b) != {} {
      Shader.EnableReportsSet(PropertyView(f), Low10(b));
    }
  }

  /*************************************************************************/
  /* Colour multiplier and shading                                          */
  /*************************************************************************/

  predicate GetEnableColorMultiplier(f: Field) {
    COLOR_MULTIPLIER_OFFSET in f
  }

  /** As written: disabling XORs in the negation of the current bit, so a
      clear bit becomes set and a set bit stays set. */
  function SetEnableColorMultiplierAsWritten(f: Field, enabled: bool): (r: Field)
    ensures r - {COLOR_MULTIPLIER_OFFSET} == f - {COLOR_MULTIPLIER_OFFSET}
  {
    ShiftedFlag(COLOR_MULTIPLIER_OFFSET);
    if enabled then f + Shifted(1, COLOR_MULTIPLIER_OFFSET)
    else Xor(f, Shifted(if COLOR_MULTIPLIER_OFFSET in f then 0 else 1, COLOR_MULTIPLIER_OFFSET))
  }

  /** As evidently intended: disabling clears the bit. */
  function SetEnableColorMultiplier(f: Field, enabled: bool): (r: Field)
    ensures r - {COLOR_MULTIPLIER_OFFSET} == f - {COLOR_MULTIPLIER_OFFSET}
  {
    ShiftedFlag(COLOR_MULTIPLIER_OFFSET);
    if enabled then f + Shifted(1, COLOR_MULTIPLIER_OFFSET)
    else f - Shifted(1, COLOR_MULTIPLIER_OFFSET)
  }

  /** The single bit a shifted 1 or 0 sets. */
  lemma ShiftedFlag(off: nat)
    requires off < ID_LENGTH
    ensures Shifted(1, off) == {off} && Shifted(0, off) == {}
  {
    EncodeOne(off, ID_LENGTH - off);
    EncodeZero(off, ID_LENGTH - off);
  }

  /** As written, disabling the colour multiplier always leaves it enabled. */
  lemma ColorMultiplierAsWrittenStaysOn(f: Field)
    ensures GetEnableColorMultiplier(SetEnableColorMultiplierAsWritten(f, false))
  {
    ShiftedFlag(COLOR_MULTIPLIER_OFFSET);
  }

  /** The corrected setter reads back what it was given and changes no other
      position. */
  lemma ColorMultiplierRoundTrip(f: Field, enabled: bool)
    ensures GetEnableColorMultiplier(SetEnableColorMultiplier(f, enabled)) == enabled
    ensures SetEnableColorMultiplier(f, enabled) - {COLOR_MULTIPLIER_OFFSET} == f - {COLOR_MULTIPLIER_OFFSET}
  {
    ShiftedFlag(COLOR_MULTIPLIER_OFFSET);
  }

  predicate IsPbr(f: Field) {
    SHADING_OFFSET in f
  }

  /** As written: disabling XORs in `!false`, a 1, so it toggles the shading
      bit. */
  function SetIsPbrAsWritten(f: Field, enabled: bool): (r: Field)
    ensures r - {SHADING_OFFSET} == f - {SHADING_OFFSET}
  {
    ShiftedFlag(SHADING_OFFSET);
    if enabled then f + Shifted(1, SHADING_OFFSET)
    else Xor(f, Shifted(1, SHADING_OFFSET))
  }

  /** As evidently intended: disabling clears the bit. */
  function SetIsPbr(f: Field, enabled: bool): (r: Field)
    ensures r - {SHADING_OFFSET} == f - {SHADING_OFFSET}
  {
    ShiftedFlag(SHADING_OFFSET);
    if enabled then f + Shifted(1, SHADING_OFFSET)
    else f - Shifted(1, SHADING_OFFSET)
  }

  /** As written, disabling PBR flips it, so on an identifier without it PBR
      becomes enabled. */
  lemma SetIsPbrAsWrittenToggles(f: Field)
    ensures IsPbr(SetIsPbrAsWritten(f, false)) <==> !IsPbr(f)
  {
    ShiftedFlag(SHADING_OFFSET);
  }

  /** The corrected setter reads back what it was given and changes no other
      position. */
  lemma PbrRoundTrip(f: Field, enabled: bool)
    ensures IsPbr(SetIsPbr(f, enabled)) == enabled
    ensures SetIsPbr(f, enabled) - {SHADING_OFFSET} == f - {SHADING_OFFSET}
  {
    ShiftedFlag(SHADING_OFFSET);
  }

  /*************************************************************************/
  /* Joints and morph targets                                               */
  /*************************************************************************/

  /** ORs the 32-bit count in at the three-bit joints field: no bit is
      cleared, and a count of 8 or more sets bits above the field. */
  function SetEnabledJointsCount(f: Field, n: Word): (r: Field)
    ensures f <= r
    ensures forall i :: i in r - f ==> JOINTS_COUNT_OFFSET <= i < JOINTS_COUNT_OFFSET + 32
  {
    Pow2Of32();
    ShiftedIn(n, JOINTS_COUNT_OFFSET, 32);
    f + Shifted(n, JOINTS_COUNT_OFFSET)
  }

  function GetEnabledJointsCount(f: Field): nat {
    Decode(f, JOINTS_COUNT_OFFSET, 3)
  }

  /** ORs the 32-bit count in at the eight-bit morph target field: no bit is
      cleared, and a count of 256 or more sets bits above the field. */
  function SetMorphTargetCount(f: Field, n: Word): (r: Field)
    ensures f <= r
    ensures forall i :: i in r - f ==> MORPH_TARGET_COUNT_OFFSET <= i < MORPH_TARGET_COUNT_OFFSET + 32
  {
    Pow2Of32();
    ShiftedIn(n, MORPH_TARGET_COUNT_OFFSET, 32);
    f + Shifted(n, MORPH_TARGET_COUNT_OFFSET)
  }

  function GetMorphTargetCount(f: Field): nat {
    Decode(f, MORPH_TARGET_COUNT_OFFSET, 8)
  }

  /** A joints count below 8 set on a clear window reads back, and the morph
      target count, colour multiplier and shading bit keep their values. */
  lemma JointsCountRoundTrip(f: Field, n: Word)
    requires n < 8 && ClearWindow(f, JOINTS_COUNT_OFFSET, 3)
    ensures GetEnabledJointsCount(SetEnabledJointsCount(f, n)) == n
    ensures GetMorphTargetCount(SetEnabledJointsCount(f, n)) == GetMorphTargetCount(f)
    ensures GetEnableColorMultiplier(SetEnabledJointsCount(f, n)) == GetEnableColorMultiplier(f)
    ensures IsPbr(SetEnabledJointsCount(f, n)) == IsPbr(f)
  {
    assert Pow2(3) == 8;
    PlaceField(f, n, JOINTS_COUNT_OFFSET, 3);
    OtherWindowKept(f, n, JOINTS_COUNT_OFFSET, 3, MORPH_TARGET_COUNT_OFFSET, 8);
  }

  /** A morph target count below 256 set on a clear window reads back, and
      the joints count, colour multiplier and shading bit keep their values. */
  lemma MorphTargetCountRoundTrip(f: Field, n: Word)
    requires n < 256 && ClearWindow(f, MORPH_TARGET_COUNT_OFFSET, 8)
    ensures GetMorphTargetCount(SetMorphTargetCount(f, n)) == n
    ensures GetEnabledJointsCount(SetMorphTargetCount(f, n)) == GetEnabledJointsCount(f)
    ensures GetEnableColorMultiplier(SetMorphTargetCount(f, n)) == GetEnableColorMultiplier(f)
    ensures IsPbr(SetMorphTargetCount(f, n)) == IsPbr(f)
  {
    assert Pow2(8) == 256;
    PlaceField(f, n, MORPH_TARGET_COUNT_OFFSET, 8);
    OtherWindowKept(f, n, MORPH_TARGET_COUNT_OFFSET, 8, JOINTS_COUNT_OFFSET, 3);
  }

  /** Without the debug check, a joints count of 8 spills into the colour
      multiplier bit and reads back as 0. */
  lemma JointsCountOverflow()
    ensures GetEnableColorMultiplier(SetEnabledJointsCount({}, 8))
    ensures GetEnabledJointsCount(SetEnabledJointsCount({}, 8)) == 0
  {
    var g := SetEnabledJointsCount({}, 8);
    EncodeBit(8, JOINTS_COUNT_OFFSET, ID_LENGTH - JOINTS_COUNT_OFFSET, 3);
    forall i | JOINTS_COUNT_OFFSET <= i < JOINTS_COUNT_OFFSET + 3
      ensures i !in g
    {
      EncodeBit(8, JOINTS_COUNT_OFFSET, ID_LENGTH - JOINTS_COUNT_OFFSET, i - JOINTS_COUNT_OFFSET);
    }
    DecodeLocal(g, {}, JOINTS_COUNT_OFFSET, 3);
    DecodeEmpty(JOINTS_COUNT_OFFSET, 3);
  }

  /*************************************************************************/
  /* CRC-32 digests; the digest function itself is a parameter              */
  /*************************************************************************/

  /** Each digest setter ORs a CRC-32 into its own 32-bit window. */
  function HashAttributeTypes(f: Field, crc: Word): (r: Field)
    ensures f <= r
    ensures forall i :: i in r - f ==> ATTRIBUTE_TYPE_CRC_OFFSET <= i < ATTRIBUTE_TYPE_CRC_OFFSET + 32
  {
    Pow2Of32();
    ShiftedIn(crc, ATTRIBUTE_TYPE_CRC_OFFSET, 32);
    f + Shifted(crc, ATTRIBUTE_TYPE_CRC_OFFSET)
  }

  function HashAttributeStrides(f: Field, crc: Word): (r: Field)
    ensures f <= r
    ensures forall i :: i in r - f ==> ATTRIBUTE_STRIDE_CRC_OFFSET <= i < ATTRIBUTE_STRIDE_CRC_OFFSET + 32
  {
    Pow2Of32();
    ShiftedIn(crc, ATTRIBUTE_STRIDE_CRC_OFFSET, 32);
    f + Shifted(crc, ATTRIBUTE_STRIDE_CRC_OFFSET)
  }

  function HashUniformDataLayouts(f: Field, crc: Word): (r: Field)
    ensures f <= r
    ensures forall i :: i in r - f ==> UNIFORM_DATA_CRC_OFFSET <= i < UNIFORM_DATA_CRC_OFFSET + 32
  {
    Pow2Of32();
    ShiftedIn(crc, UNIFORM_DATA_CRC_OFFSET, 32);
    f + Shifted(crc, UNIFORM_DATA_CRC_OFFSET)
  }

  function HashTextures(f: Field, crc: Word): (r: Field)
    ensures f <= r
    ensures forall i :: i in r - f ==> TEXTURE_HASH_OFFSET <= i < TEXTURE_HASH_OFFSET + 32
  {
    Pow2Of32();
    ShiftedIn(crc, TEXTURE_HASH_OFFSET, 32);
    f + Shifted(crc, TEXTURE_HASH_OFFSET)
  }

  /** The four digests occupy disjoint 32-bit windows between the primitive
      mode and the colour multiplier: on an identifier whose windows are
      clear each reads back, and the pipeline modes, the property bits and
      every position below 114 keep their values. */
  lemma DigestsRoundTrip(f: Field, a: Word, b: Word, c: Word, d: Word)
    requires ClearWindow(f, TEXTURE_HASH_OFFSET, 128)
    ensures var g := HashTextures(HashUniformDataLayouts(HashAttributeStrides(HashAttributeTypes(f, a), b), c), d);
            && Decode(g, ATTRIBUTE_TYPE_CRC_OFFSET, 32) == a
            && Decode(g, ATTRIBUTE_STRIDE_CRC_OFFSET, 32) == b
            && Decode(g, UNIFORM_DATA_CRC_OFFSET, 32) == c
            && Decode(g, TEXTURE_HASH_OFFSET, 32) == d
            && GetPipelineCullMode(g) == GetPipelineCullMode(f)
            && GetPrimitiveMode(g) == GetPrimitiveMode(f)
            && PropertyView(g) == PropertyView(f)
            && (forall i :: i < TEXTURE_HASH_OFFSET ==> (i in g <==> i in f))
  {
    var g := HashTextures(HashUniformDataLayouts(HashAttributeStrides(HashAttributeTypes(f, a), b), c), d);
    DigestsReadBack(f, a, b, c, d);
    DecodeLocal(f, g, CULL_MODE_OFFSET, 2);
    DecodeLocal(f, g, PRIMITIVE_MODE_OFFSET, 2);
    assert PropertyView(g) == PropertyView(f);
  }

  /** Positions outside `lo .. hi - 1` are the same in both fields. */
  ghost predicate SameOutside(f: Field, g: Field, lo: nat, hi: nat) {
    forall i :: i < lo || hi <= i ==> (i in f <==> i in g)
  }

  lemma SameOutsideChain(f: Field, g: Field, h: Field, lo: nat, mid: nat, hi: nat)
    requires lo <= mid <= hi && SameOutside(f, g, mid, hi) && SameOutside(g, h, lo, mid)
    ensures SameOutside(f, h, lo, hi)
  {}

  /** One digest ORed into its window, with the windows from 114 up to it
      clear: it reads back, touches nothing else, and the windows below it
      stay clear. */
  lemma DigestStep(f: Field, n: Word, off: nat)
    requires TEXTURE_HASH_OFFSET <= off && off + 32 <= PRIMITIVE_MODE_OFFSET
    requires ClearWindow(f, TEXTURE_HASH_OFFSET, off + 32 - TEXTURE_HASH_OFFSET)
    ensures var g := f + Shifted(n, off);
            && Decode(g, off, 32) == n
            && SameOutside(f, g, off, off + 32)
            && ClearWindow(g, TEXTURE_HASH_OFFSET, off - TEXTURE_HASH_OFFSET)
  {
    Pow2Of32();
    PlaceField(f, n, off, 32);
  }

  /** The four digests read back, and nothing outside their windows
      changes. */
  lemma DigestsReadBack(f: Field, a: Word, b: Word, c: Word, d: Word)
    requires ClearWindow(f, TEXTURE_HASH_OFFSET, 128)
    ensures var g := HashTextures(HashUniformDataLayouts(HashAttributeStrides(HashAttributeTypes(f, a), b), c), d);
            && Decode(g, ATTRIBUTE_TYPE_CRC_OFFSET, 32) == a
            && Decode(g, ATTRIBUTE_STRIDE_CRC_OFFSET, 32) == b
            && Decode(g, UNIFORM_DATA_CRC_OFFSET, 32) == c
            && Decode(g, TEXTURE_HASH_OFFSET, 32) == d
            && SameOutside(f, g, TEXTURE_HASH_OFFSET, PRIMITIVE_MODE_OFFSET)
  {
    var g1 := HashAttributeTypes(f, a);
    var g2 := HashAttributeStrides(g1, b);
    var g3 := HashUniformDataLayouts(g2, c);
    var g4 := HashTextures(g3, d);
    DigestStep(f, a, ATTRIBUTE_TYPE_CRC_OFFSET);
    DigestStep(g1, b, ATTRIBUTE_STRIDE_CRC_OFFSET);
    DigestStep(g2, c, UNIFORM_DATA_CRC_OFFSET);
    DigestStep(g3, d, TEXTURE_HASH_OFFSET);
    SameOutsideChain(g2, g3, g4, 114, 146, 178);
    SameOutsideChain(g1, g2, g4, 114, 178, 210);
    SameOutsideChain(f, g1, g4, 114, 210, 242);
    DecodeLocal(g1, g4, ATTRIBUTE_TYPE_CRC_OFFSET, 32);
    DecodeLocal(g2, g4, ATTRIBUTE_STRIDE_CRC_OFFSET, 32);
    DecodeLocal(g3, g4, UNIFORM_DATA_CRC_OFFSET, 32);
  }

  /*************************************************************************/
  /* Texture hashes                                                         */
  /*************************************************************************/

  /** The graphics shader keeps its own texture hash list with the same
      accessors as the shader interface: a push is read back at the id it
      returns, and an id past the end reads and replaces as 0. */
  lemma TextureHashesOutOfRange(hashes: seq<Shader.Hash>, id: nat, h: Shader.Hash)
    requires id >= |hashes|
    ensures Shader.GetTextureHash(hashes, id) == 0
    ensures Shader.ReplaceTextureHash(hashes, id, h) == (hashes, 0)
    ensures Shader.GetTextureHash(Shader.PushTextureHash(hashes, h).0, |hashes|) == h
  {}
}

=== FILE: model_shader_manager.dfy ===
/**
 * The model shader manager: a mesh's present vertex buffers form an
 * attribute mask, the mask selects one of eight shader variants, and each
 * variant's shader is pushed to the renderer once and then served from an
 * eight-slot cache. The renderer's push is a parameter (the id it returns);
 * the shader sources and attribute offsets are left out.
 */
module ModelShaderManager {

  const UINT32_MAX: nat := 0xFFFF_FFFF

  const POS_ATTR_MASK: nat := 0x01
  const UV_ATTR_MASK: nat := 0x02
  const NORMAL_ATTR_MASK: nat := 0x04
  const TANG_ATTR_MASK: nat := 0x08

  const POS_UV_NORMAL_TANG: nat := 0
  const POS_UV_NORMAL: nat := 1
  const POS_UV_TANG: nat := 2
  const POS_NORMAL_TANG: nat := 3
  const POS_UV: nat := 4
  const POS_NORMAL: nat := 5
  const POS_TANG: nat := 6
  const POS: nat := 7

  /** `mask & bit` is non-zero, for a one-bit `bit`. */
  predicate Has(mask: nat, bit: nat)
    requires bit in {1, 2, 4, 8}
  {
    (mask / bit) % 2 == 1
  }

  /** The buffer ids of a mesh primitive; `UINT32_MAX` means absent. */
  datatype MeshPrimitive = MeshPrimitive(vertexBufferId: nat, uvBufferId: nat, vertexNormalBufferId: nat, vertexTangentBufferId: nat)

  /** The mask `RequestShaderModule` builds: one bit per present buffer. */
  function MaskOf(mesh: MeshPrimitive): (mask: nat)
    ensures mask < 16
    ensures Has(mask, POS_ATTR_MASK) <==> mesh.vertexBufferId != UINT32_MAX
    ensures Has(mask, UV_ATTR_MASK) <==> mesh.uvBufferId != UINT32_MAX
    ensures Has(mask, NORMAL_ATTR_MASK) <==> mesh.vertexNormalBufferId != UINT32_MAX
    ensures Has(mask, TANG_ATTR_MASK) <==> mesh.vertexTangentBufferId != UINT32_MAX
  {
    (if mesh.vertexBufferId != UINT32_MAX then POS_ATTR_MASK else 0)
    + (if mesh.uvBufferId != UINT32_MAX then UV_ATTR_MASK else 0)
    + (if mesh.vertexNormalBufferId != UINT32_MAX then NORMAL_ATTR_MASK else 0)
    + (if mesh.vertexTangentBufferId != UINT32_MAX then TANG_ATTR_MASK else 0)
  }

  /** The variant for a mask, picked by the UV, normal and tangent bits. */
  function ResolveMask(mask: nat): (id: nat)
    ensures id < 8
  {
    var uv := Has(mask, UV_ATTR_MASK);
    var normal := Has(mask, NORMAL_ATTR_MASK);
    var tang := Has(mask, TANG_ATTR_MASK);
    if uv && normal && tang then POS_UV_NORMAL_TANG
    else if uv && normal then POS_UV_NORMAL
    else if uv && tang then POS_UV_TANG
    else if normal && tang then POS_NORMAL_TANG
    else if uv then POS_UV
    else if normal then POS_NORMAL
    else if tang then POS_TANG
    else POS
  }

  /** Which of UV, normal and tangent a variant carries. */
  datatype Attributes = Attributes(uv: bool, normal: bool, tangent: bool)

  /** The variants' attribute sets, as their names list them. */
  function AttributesOf(id: nat): Attributes
    requires id < 8
  {
    [ Attributes(true, true, true), Attributes(true, true, false),
      Attributes(true, false, true), Attributes(false, true, true),
      Attributes(true, false, false), Attributes(false, true, false),
      Attributes(false, false, true), Attributes(false, false, false) ][id]
  }

  /** The variant a mask resolves to carries exactly the mask's UV, normal
      and tangent attributes, so the position bit plays no part and no two
      attribute sets share a variant. */
  lemma ResolveMaskAttributes(mask: nat)
    ensures AttributesOf(ResolveMask(mask)) ==
              Attributes(Has(mask, UV_ATTR_MASK), Has(mask, NORMAL_ATTR_MASK), Has(mask, TANG_ATTR_MASK))
  {}

  /** Masks that agree on UV, normal and tangent resolve alike; masks that
      differ on one of them resolve to different variants. */
  lemma ResolveMaskDependsOnAttributes(m1: nat, m2: nat)
    ensures ResolveMask(m1) == ResolveMask(m2) <==>
              && (Has(m1, UV_ATTR_MASK) <==> Has(m2, UV_ATTR_MASK))
              && (Has(m1, NORMAL_ATTR_MASK) <==> Has(m2, NORMAL_ATTR_MASK))
              && (Has(m1, TANG_ATTR_MASK) <==> Has(m2, TANG_ATTR_MASK))
  {
    ResolveMaskAttributes(m1);
    ResolveMaskAttributes(m2);
  }

  lemma ResolveMaskExtremes()
    ensures ResolveMask(POS_ATTR_MASK + UV_ATTR_MASK + NORMAL_ATTR_MASK + TANG_ATTR_MASK) == POS_UV_NORMAL_TANG
    ensures ResolveMask(UV_ATTR_MASK + NORMAL_ATTR_MASK + TANG_ATTR_MASK) == POS_UV_NORMAL_TANG
    ensures ResolveMask(POS_ATTR_MASK) == POS
    ensures ResolveMask(0) == POS
  {}

  /*************************************************************************/
  /* The shader module built for a variant                                  */
  /*************************************************************************/

  datatype AttributeType = Vec2Float | Vec3Float | Vec4Float

  datatype Stage = VertexStage | FragmentStage

  datatype UniformKind = UniformBuffer | ImageSampler

  datatype Uniform = Uniform(kind: UniformKind, binding: nat, stage: Stage)

  /** What a generated module holds beside its sources and offsets. */
  datatype ShaderModule = ShaderModule(sampledFragment: bool, attributes: seq<AttributeType>, uniforms: seq<Uniform>)

  /** Position, then UV, normal and tangent in that order when present. */
  function AttributeTypes(id: nat): seq<AttributeType>
    requires id < 8
  {
    var a := AttributesOf(id);
    [Vec3Float]
    + (if a.uv then [Vec2Float] else [])
    + (if a.normal then [Vec3Float] else [])
    + (if a.tangent then [Vec4Float] else [])
  }

  /** The camera, animation and model buffers at bindings 0 to 2, then a
      fragment sampler at binding 3 for the UV variants. */
  function Uniforms(id: nat): (us: seq<Uniform>)
    requires id < 8
    ensures |us| == 3 || |us| == 4
    ensures forall k :: 0 <= k < |us| ==> us[k].binding == k
    ensures |us| == 4 <==> AttributesOf(id).uv
  {
    [Uniform(UniformBuffer, 0, VertexStage), Uniform(UniformBuffer, 1, VertexStage), Uniform(UniformBuffer, 2, VertexStage)]
    + (if id in {POS_UV_NORMAL_TANG, POS_UV_NORMAL, POS_UV_TANG, POS_UV} then [Uniform(ImageSampler, 3, FragmentStage)] else [])
  }

  function BuildModule(mask: nat): (m: ShaderModule)
    ensures m.sampledFragment <==> Has(mask, UV_ATTR_MASK)
  {
    var id := ResolveMask(mask);
    ShaderModule(Has(mask, UV_ATTR_MASK), AttributeTypes(id), Uniforms(id))
  }

  /** A module has one attribute more than the position for each of UV,
      normal and tangent the mesh has, and samples a texture exactly when it
      has UVs. */
  lemma ModuleMatchesMesh(mesh: MeshPrimitive)
    ensures var m := BuildModule(MaskOf(mesh));
            && |m.attributes| == 1 + (if mesh.uvBufferId != UINT32_MAX then 1 else 0)
                                   + (if mesh.vertexNormalBufferId != UINT32_MAX then 1 else 0)
                                   + (if mesh.vertexTangentBufferId != UINT32_MAX then 1 else 0)
            && m.attributes[0] == Vec3Float
            && (m.sampledFragment <==> mesh.uvBufferId != UINT32_MAX)
            && (|m.uniforms| == 4 <==> mesh.uvBufferId != UINT32_MAX)
  {
    ResolveMaskAttributes(MaskOf(mesh));
  }

  /*************************************************************************/
  /* The shader id cache                                                    */
  /*************************************************************************/

  /** The class's static state: eight cached shader ids, `UINT32_MAX` for
      none, and whether they were initialised. */
  datatype Cache = Cache(shaderIds: seq<nat>, setStage: bool)

  /** Statics start zeroed. */
  const InitialCache: Cache := Cache([0, 0, 0, 0, 0, 0, 0, 0], false)

  predicate ValidCache(c: Cache) {
    |c.shaderIds| == 8
  }

  datatype Request = Request(cache: Cache, shaderId: nat, pushed: seq<ShaderModule>)

  /**
   * The first call fills every slot with `UINT32_MAX`. The mesh's variant
   * is served from its slot; an empty slot builds the module, pushes it and
   * stores the id the renderer returns (`pushedId`).
   */
  function RequestShaderModule(c: Cache, mesh: MeshPrimitive, pushedId: nat): (r: Request)
    requires ValidCache(c)
    ensures ValidCache(r.cache) && r.cache.setStage
    ensures |r.pushed| <= 1
    ensures r.shaderId == r.cache.shaderIds[ResolveMask(MaskOf(mesh))]
    ensures forall k :: 0 <= k < 8 && k != ResolveMask(MaskOf(mesh)) ==>
              r.cache.shaderIds[k] == (if c.setStage then c.shaderIds[k] else UINT32_MAX)
    ensures r.pushed == [] <==> c.setStage && c.shaderIds[ResolveMask(MaskOf(mesh))] != UINT32_MAX
    ensures r.pushed != [] ==> r.shaderId == pushedId && r.pushed == [BuildModule(MaskOf(mesh))]
  {
    var ids := if c.setStage then c.shaderIds else seq(8, _ => UINT32_MAX);
    var mask := MaskOf(mesh);
    var id := ResolveMask(mask);
    if ids[id] == UINT32_MAX then
      Request(Cache(ids[id := pushedId], true), pushedId, [BuildModule(mask)])
    else
      Request(Cache(ids, true), ids[id], [])
  }

  /** After a request whose push returned a real id, a second request for a
      mesh of the same variant returns that id and pushes nothing. */
  lemma SecondRequestCached(c: Cache, mesh1: MeshPrimitive, mesh2: MeshPrimitive, id1: nat, id2: nat)
    requires ValidCache(c) && id1 != UINT32_MAX
    requires ResolveMask(MaskOf(mesh1)) == ResolveMask(MaskOf(mesh2))
    ensures var r1 := RequestShaderModule(c, mesh1, id1);
            var r2 := RequestShaderModule(r1.cache, mesh2, id2);
            && r2.pushed == []
            && r2.shaderId == r1.shaderId
            && r2.cache == r1.cache
  {}

  /** From the initial state every variant's first request pushes. */
  lemma FirstRequestPushes(mesh: MeshPrimitive, id: nat)
    ensures RequestShaderModule(InitialCache, mesh, id).pushed == [BuildModule(MaskOf(mesh))]
    ensures RequestShaderModule(InitialCache, mesh, id).shaderId == id
  {}
}

=== FILE: offset_finder.dfy ===
/**
 * The cross-API offset finder: capacity checks that grow a buffer section by
 * half, per-asset byte offsets for the OpenGL (interleaved) and Vulkan
 * (separate stream) layouts, the ImGui command offsets, and the largest
 * per-asset footprint of a range of assets.
 *
 * The padding macro `ZERO_MOD_CEIL_REM(x, n)` is not part of this model; it
 * is the parameter `pad`, and `CeilRem` gives the reading its name suggests
 * (the bytes that lift x to a multiple of n), under which the alignment
 * lemmas hold. Byte counts are unbounded naturals.
 */
module OffsetFinder {
  import opened Wrappers
  import Common
  import opened Assets

  /** The size and capacity of the three sections of the shared buffer. */
  datatype Section = Section(
    assetSize: nat, assetCap: nat,
    indicesSize: nat, indicesCap: nat,
    uiSize: nat, uiCap: nat)

  /** A capacity check reports whether it grew the section. */
  datatype CapCheck = CapCheck(grown: bool, section: Section)

  /** An asset with its offsets written, and the section after it. */
  datatype Placed = Placed(asset: Asset, section: Section)

  /** One ImGui draw command: its vertex and index counts and the offsets the
      finder writes. */
  datatype UiCmd = UiCmd(vertCount: nat, indCount: nat, voffset: nat, ioffset: nat)

  /** Byte sizes of ImGui's vertex and index types. */
  datatype UiSizes = UiSizes(vertSize: nat, idxSize: nat)

  /** The result of a full offset pass. */
  datatype Calc = Calc(assets: seq<Asset>, ui: Option<seq<UiCmd>>, section: Section)

  type Pad = (nat, nat) -> nat

  /** The bytes that lift `x` to a multiple of `n`. */
  function CeilRem(x: nat, n: nat): nat {
    if n == 0 || x % n == 0 then 0 else n - x % n
  }

  function Max(a: nat, b: nat): nat { if a >= b then a else b }

  /*************************************************************************/
  /* Capacity checks                                                        */
  /*************************************************************************/

  /**
   * The shared growth rule: nothing happens while the size is below the
   * capacity; otherwise the capacity becomes the larger of 1.5 times itself
   * and 1.5 times the size, padded to the index size.
   */
  function Grow(size: nat, cap: nat, pad: Pad): (r: CapacityStep)
    ensures size < cap ==> r == CapacityStep(false, cap)
    ensures size >= cap ==> r.grown && r.cap >= cap * 3 / 2 && r.cap >= size * 3 / 2
  {
    if size < cap then CapacityStep(false, cap)
    else
      var c := Max(cap * 3 / 2, size * 3 / 2);
      CapacityStep(true, c + pad(c, INDEX_SIZE))
  }

  datatype CapacityStep = CapacityStep(grown: bool, cap: nat)

  /** With `CeilRem` padding the grown capacity is the least multiple of the
      index size not below the scaled capacity. */
  lemma GrowAligned(size: nat, cap: nat)
    requires size >= cap
    ensures var c := Max(cap * 3 / 2, size * 3 / 2);
            var r := Grow(size, cap, CeilRem).cap;
            r % INDEX_SIZE == 0 && c <= r < c + INDEX_SIZE
  {
    var c := Max(cap * 3 / 2, size * 3 / 2);
    assert Grow(size, cap, CeilRem).cap == c + CeilRem(c, INDEX_SIZE);
    CeilRemSpec(c, INDEX_SIZE);
  }

  /** Once grown, the section holds its size, so the next check is a no-op;
      the 1.5 factor only exceeds the size from size 2 upwards. */
  lemma {:induction false} GrowSettles(size: nat, cap: nat, pad: Pad)
    requires size >= cap && size >= 2
    ensures size < Grow(size, cap, pad).cap
    ensures Grow(size, Grow(size, cap, pad).cap, pad) == CapacityStep(false, Grow(size, cap, pad).cap)
  {}

  function AssetCapCheck(s: Section, pad: Pad): (r: CapCheck)
    ensures s.assetSize < s.assetCap ==> r == CapCheck(false, s)
    ensures s.assetSize >= s.assetCap ==>
              r.grown && r.section == s.(assetCap := r.section.assetCap) &&
              r.section.assetCap >= Max(s.assetCap * 3 / 2, s.assetSize * 3 / 2)
  {
    var g := Grow(s.assetSize, s.assetCap, pad);
    CapCheck(g.grown, s.(assetCap := g.cap))
  }

  function IndicesCapCheck(s: Section, pad: Pad): (r: CapCheck)
    ensures s.indicesSize < s.indicesCap ==> r == CapCheck(false, s)
    ensures s.indicesSize >= s.indicesCap ==>
              r.grown && r.section == s.(indicesCap := r.section.indicesCap) &&
              r.section.indicesCap >= Max(s.indicesCap * 3 / 2, s.indicesSize * 3 / 2)
  {
    var g := Grow(s.indicesSize, s.indicesCap, pad);
    CapCheck(g.grown, s.(indicesCap := g.cap))
  }

  function UiCapCheck(s: Section, pad: Pad): (r: CapCheck)
    ensures s.uiSize < s.uiCap ==> r == CapCheck(false, s)
    ensures s.uiSize >= s.uiCap ==>
              r.grown && r.section == s.(uiCap := r.section.uiCap) &&
              r.section.uiCap >= Max(s.uiCap * 3 / 2, s.uiSize * 3 / 2)
  {
    var g := Grow(s.uiSize, s.uiCap, pad);
    CapCheck(g.grown, s.(uiCap := g.cap))
  }

  /*************************************************************************/
  /* Asset offsets                                                          */
  /*************************************************************************/

  /**
   * OpenGL layout: interleaved vertices in the asset section, padded to the
   * index size, and indices in their own section. Texture and normal
   * offsets are not touched; an unhandled layout changes nothing.
   */
  function FindGLAssetOffsets(s: Section, a: Asset, pad: Pad): (r: Placed)
    ensures Handled(a.mode) ==>
              && r.asset == a.(offsets := a.offsets.(pos := s.assetSize, ind := s.indicesSize))
              && r.section.assetSize >= s.assetSize + a.vertCount * GlVertexSize(a.mode)
              && r.section.indicesSize == s.indicesSize + a.indexCount * INDEX_SIZE
              && r.section == s.(assetSize := r.section.assetSize, indicesSize := r.section.indicesSize)
    ensures !Handled(a.mode) ==> r == Placed(a, s)
  {
    var vertexSize :=
      match a.mode
      case Unmapped2D => GL_2D_VERTEX_UNMAPPED_SIZE
      case TextureMapped2D => GL_2D_VERTEX_SIZE
      case Unmapped3D => GL_3D_VERTEX_UNMAPPED_SIZE
      case TextureMapped3D => GL_3D_VERTEX_SIZE
      case _ => 0;
    if !Handled(a.mode) then Placed(a, s)
    else
      var pos := s.assetSize;
      var vertexEnd := pos + a.vertCount * vertexSize;
      var assetSize := vertexEnd + pad(vertexEnd, INDEX_SIZE);
      var ind := s.indicesSize;
      Placed(a.(offsets := a.offsets.(pos := pos, ind := ind)),
             s.(assetSize := assetSize, indicesSize := ind + a.indexCount * INDEX_SIZE))
  }

  /** Whether a Vulkan layout carries texture coordinates or normals. */
  predicate HasTexture(m: AssetMode) { m.TextureMapped2D? || m.TextureMapped3D? }
  predicate HasNormals(m: AssetMode) { m.Unmapped3D? || m.TextureMapped3D? }

  function PosSize(m: AssetMode): nat {
    if m.Unmapped2D? || m.TextureMapped2D? then POS_DATA_2D_SIZE else POS_DATA_SIZE
  }

  /**
   * Vulkan layout: position, texture and normal streams one after another,
   * padding to the index size, then the index streams, all in the asset
   * section. A stream the layout lacks gets the offset UINT64_MAX; an
   * unhandled layout is a runtime error.
   */
  function FindVkAssetOffsets(s: Section, a: Asset, pad: Pad): (r: Result<Placed, string>)
    ensures r.Err? <==> !Handled(a.mode)
    ensures r.Ok? ==>
              var o := r.value.asset.offsets;
              && r.value.asset == a.(offsets := o)
              && o.pos == s.assetSize
              && r.value.section == s.(assetSize := o.ind + IndexStreams(a.mode) * a.indexCount * INDEX_SIZE)
  {
    var pos := s.assetSize;
    match a.mode
    case Unmapped2D =>
      var size := pos + a.pn * POS_DATA_2D_SIZE;
      var ind := size + pad(size, INDEX_SIZE);
      Ok(Placed(a.(offsets := Offsets(pos, UINT64_MAX, UINT64_MAX, ind)),
                s.(assetSize := ind + a.indexCount * INDEX_SIZE)))
    case TextureMapped2D =>
      var tex := pos + a.pn * POS_DATA_2D_SIZE;
      var size := pos + (a.pn * POS_DATA_2D_SIZE + a.tn * TEXTURE_DATA_SIZE);
      var ind := size + pad(size, INDEX_SIZE);
      Ok(Placed(a.(offsets := Offsets(pos, tex, UINT64_MAX, ind)),
                s.(assetSize := ind + 2 * a.indexCount * INDEX_SIZE)))
    case Unmapped3D =>
      var nor := pos + a.pn * POS_DATA_SIZE;
      var size := pos + (a.pn * POS_DATA_SIZE + a.nn * NORMAL_DATA_SIZE);
      var ind := size + pad(size, INDEX_SIZE);
      Ok(Placed(a.(offsets := Offsets(pos, UINT64_MAX, nor, ind)),
                s.(assetSize := ind + 2 * a.indexCount * INDEX_SIZE)))
    case TextureMapped3D =>
      var tex := pos + a.pn * POS_DATA_SIZE;
      var nor := pos + a.pn * POS_DATA_SIZE + a.tn * TEXTURE_DATA_SIZE;
      var size := pos + (a.pn * POS_DATA_SIZE + a.tn * TEXTURE_DATA_SIZE + a.nn * NORMAL_DATA_SIZE);
      var ind := size + pad(size, INDEX_SIZE);
      Ok(Placed(a.(offsets := Offsets(pos, tex, nor, ind)),
                s.(assetSize := ind + 3 * a.indexCount * INDEX_SIZE)))
    case _ =>
      Err("Invalid asset vertices format for asset")
  }

  /** The streams follow each other: texture coordinates after the
      positions, normals after both, and the index streams after the vertex
      data and its padding. */
  lemma VkStreamOffsets(s: Section, a: Asset, pad: Pad)
    requires Handled(a.mode)
    ensures var o := FindVkAssetOffsets(s, a, pad).value.asset.offsets;
            var vertexEnd := o.pos + VkVertexBytes(a);
            && o.tex == (if HasTexture(a.mode) then o.pos + a.pn * PosSize(a.mode) else UINT64_MAX)
            && o.nor == (if !HasNormals(a.mode) then UINT64_MAX
                         else if HasTexture(a.mode) then o.pos + a.pn * PosSize(a.mode) + a.tn * TEXTURE_DATA_SIZE
                         else o.pos + a.pn * PosSize(a.mode))
            && o.ind == vertexEnd + pad(vertexEnd, INDEX_SIZE)
  {}

  /** With `CeilRem` padding the index streams of a Vulkan asset start at a
      multiple of the index size, at most 3 bytes after the vertex data. */
  lemma VkIndicesAligned(s: Section, a: Asset)
    requires Handled(a.mode)
    ensures var o := FindVkAssetOffsets(s, a, CeilRem).value.asset.offsets;
            o.ind % INDEX_SIZE == 0 && o.ind < o.pos + VkVertexBytes(a) + INDEX_SIZE
  {
    var size := s.assetSize + VkVertexBytes(a);
    VkStreamOffsets(s, a, CeilRem);
    CeilRemSpec(size, INDEX_SIZE);
  }

  lemma CeilRemSpec(x: nat, n: nat)
    requires n > 0
    ensures (x + CeilRem(x, n)) % n == 0 && CeilRem(x, n) < n
  {
    var q := x / n;
    assert x == q * n + x % n;
    if x % n != 0 {
      assert x + CeilRem(x, n) == (q + 1) * n;
      Common.MultipleMod(q + 1, n);
    } else {
      Common.MultipleMod(q, n);
    }
  }

  /** Dispatch on the asset's API. */
  function FindAssetOffsets(s: Section, a: Asset, pad: Pad): (r: Result<Placed, string>)
    ensures a.isOpenGL ==> r == Ok(FindGLAssetOffsets(s, a, pad))
    ensures !a.isOpenGL ==> r == FindVkAssetOffsets(s, a, pad)
  {
    if a.isOpenGL then Ok(FindGLAssetOffsets(s, a, pad)) else FindVkAssetOffsets(s, a, pad)
  }

  /** Placing an asset never moves the section ends backwards, and its
      position is where the asset section ended. */
  lemma PlaceGrows(s: Section, a: Asset, pad: Pad)
    ensures var r := FindAssetOffsets(s, a, pad);
            r.Ok? ==>
              && r.value.section.assetSize >= s.assetSize
              && r.value.section.indicesSize >= s.indicesSize
              && (Handled(a.mode) ==> r.value.asset.offsets.pos == s.assetSize)
  {}

  /** Places the assets in list order, threading the section through; the
      first unhandled Vulkan asset aborts the pass. */
  function PlaceAll(assets: seq<Asset>, s: Section, pad: Pad): (r: Result<(seq<Asset>, Section), string>)
    ensures r.Ok? ==> |r.value.0| == |assets|
    ensures r.Ok? ==> r.value.1.uiSize == s.uiSize
    decreases |assets|
  {
    if assets == [] then Ok(([], s))
    else
      match FindAssetOffsets(s, assets[0], pad)
      case Err(e) => Err(e)
      case Ok(p) =>
        match PlaceAll(assets[1..], p.section, pad)
        case Err(e) => Err(e)
        case Ok(rest) => Ok(([p.asset] + rest.0, rest.1))
  }

  /** Every asset placed from section `s` on starts at or after its end. */
  lemma {:induction false} PlaceAllStartsAfter(assets: seq<Asset>, s: Section, pad: Pad)
    requires forall i :: 0 <= i < |assets| ==> Handled(assets[i].mode)
    ensures var r := PlaceAll(assets, s, pad);
            r.Ok? ==>
              && r.value.1.assetSize >= s.assetSize
              && forall i :: 0 <= i < |r.value.0| ==> s.assetSize <= r.value.0[i].offsets.pos <= r.value.1.assetSize
    decreases |assets|
  {
    if assets != [] {
      PlaceGrows(s, assets[0], pad);
      var h := FindAssetOffsets(s, assets[0], pad);
      if h.Ok? {
        PlaceAllStartsAfter(assets[1..], h.value.section, pad);
      }
    }
  }

  /** Asset positions increase along the list. */
  lemma {:induction false} PlaceAllOrdered(assets: seq<Asset>, s: Section, pad: Pad)
    requires forall i :: 0 <= i < |assets| ==> Handled(assets[i].mode)
    ensures var r := PlaceAll(assets, s, pad);
            r.Ok? ==> forall i, j :: 0 <= i < j < |r.value.0| ==>
                        r.value.0[i].offsets.pos <= r.value.0[j].offsets.pos
    decreases |assets|
  {
    if assets != [] {
      PlaceGrows(s, assets[0], pad);
      var h := FindAssetOffsets(s, assets[0], pad);
      if h.Ok? {
        PlaceAllOrdered(assets[1..], h.value.section, pad);
        PlaceAllStartsAfter(assets[1..], h.value.section, pad);
      }
    }
  }

  /** The section after one command: its vertices, padding to the index
      size, and its indices in the index section (OpenGL) or right after
      the padding. */
  function UiNext(c: UiCmd, s: Section, isOpenGL: bool, sizes: UiSizes, pad: Pad): (s': Section)
    ensures s'.uiSize >= s.uiSize + c.vertCount * sizes.vertSize
    ensures s'.indicesSize >= s.indicesSize
    ensures s' == s.(uiSize := s'.uiSize, indicesSize := s'.indicesSize)
    ensures !isOpenGL ==> s'.indicesSize == s.indicesSize
  {
    var afterVerts := s.uiSize + c.vertCount * sizes.vertSize;
    var padded := afterVerts + pad(afterVerts, sizes.idxSize);
    if isOpenGL then s.(uiSize := padded, indicesSize := s.indicesSize + c.indCount * sizes.idxSize)
    else s.(uiSize := padded + c.indCount * sizes.idxSize)
  }

  /**
   * ImGui commands: each command's vertices follow the previous command's
   * data in the ui section, padded to the index size; indices go to the
   * index section under OpenGL and right after the vertices otherwise.
   */
  function GuiEntitiesOffsets(cmds: seq<UiCmd>, s: Section, isOpenGL: bool, sizes: UiSizes, pad: Pad)
    : (r: (seq<UiCmd>, Section))
    ensures |r.0| == |cmds|
    ensures r.1.uiSize >= s.uiSize && r.1.indicesSize >= s.indicesSize
    ensures r.1 == s.(uiSize := r.1.uiSize, indicesSize := r.1.indicesSize)
    ensures !isOpenGL ==> r.1.indicesSize == s.indicesSize
    decreases |cmds|
  {
    if cmds == [] then ([], s)
    else
      var c := cmds[0];
      var c' := if isOpenGL then c.(voffset := s.uiSize, ioffset := s.indicesSize) else c.(voffset := s.uiSize);
      var rest := GuiEntitiesOffsets(cmds[1..], UiNext(c, s, isOpenGL, sizes, pad), isOpenGL, sizes, pad);
      ([c'] + rest.0, rest.1)
  }

  /** Each command keeps its counts and its vertices lie inside the ui
      section. */
  lemma {:induction false} GuiOffsetsBounds(cmds: seq<UiCmd>, s: Section, isOpenGL: bool, sizes: UiSizes, pad: Pad)
    ensures var r := GuiEntitiesOffsets(cmds, s, isOpenGL, sizes, pad);
            forall i :: 0 <= i < |cmds| ==>
              r.0[i].vertCount == cmds[i].vertCount && r.0[i].indCount == cmds[i].indCount &&
              s.uiSize <= r.0[i].voffset &&
              r.0[i].voffset + cmds[i].vertCount * sizes.vertSize <= r.1.uiSize
    decreases |cmds|
  {
    if cmds != [] {
      var s' := UiNext(cmds[0], s, isOpenGL, sizes, pad);
      var r := GuiEntitiesOffsets(cmds, s, isOpenGL, sizes, pad);
      var rest := GuiEntitiesOffsets(cmds[1..], s', isOpenGL, sizes, pad);
      GuiOffsetsBounds(cmds[1..], s', isOpenGL, sizes, pad);
      forall i | 0 <= i < |cmds|
        ensures r.0[i].vertCount == cmds[i].vertCount && r.0[i].indCount == cmds[i].indCount
        ensures s.uiSize <= r.0[i].voffset
        ensures r.0[i].voffset + cmds[i].vertCount * sizes.vertSize <= r.1.uiSize
      {
        if i > 0 {
          assert r.0[i] == rest.0[i - 1] && cmds[i] == cmds[1..][i - 1];
        }
      }
    }
  }

  /** Each command keeps its counts, its vertices start inside the ui
      section, and the vertex data of earlier commands ends before later
      commands start. */
  lemma {:induction false} GuiOffsetsOrdered(cmds: seq<UiCmd>, s: Section, isOpenGL: bool, sizes: UiSizes, pad: Pad)
    ensures var r := GuiEntitiesOffsets(cmds, s, isOpenGL, sizes, pad);
            && (forall i :: 0 <= i < |cmds| ==>
                  r.0[i].vertCount == cmds[i].vertCount && r.0[i].indCount == cmds[i].indCount &&
                  s.uiSize <= r.0[i].voffset &&
                  r.0[i].voffset + cmds[i].vertCount * sizes.vertSize <= r.1.uiSize)
            && (forall i, j :: 0 <= i < j < |cmds| ==>
                  r.0[i].voffset + cmds[i].vertCount * sizes.vertSize <= r.0[j].voffset)
    decreases |cmds|
  {
    GuiOffsetsBounds(cmds, s, isOpenGL, sizes, pad);
    if cmds != [] {
      var s' := UiNext(cmds[0], s, isOpenGL, sizes, pad);
      var r := GuiEntitiesOffsets(cmds, s, isOpenGL, sizes, pad);
      var rest := GuiEntitiesOffsets(cmds[1..], s', isOpenGL, sizes, pad);
      GuiOffsetsOrdered(cmds[1..], s', isOpenGL, sizes, pad);
      forall i, j | 0 <= i < j < |cmds|
        ensures r.0[i].voffset + cmds[i].vertCount * sizes.vertSize <= r.0[j].voffset
      {
        assert r.0[j] == rest.0[j - 1] && cmds[j] == cmds[1..][j - 1];
        if i > 0 {
          assert r.0[i] == rest.0[i - 1] && cmds[i] == cmds[1..][i - 1];
        }
      }
    }
  }

  /**
   * The full pass: asset and index sizes restart at 0, assets are placed in
   * list order, and when ImGui data is present the ui section restarts at 0
   * and is laid out after them.
   */
  function CalcOffsets(assets: seq<Asset>, s: Section, isOpenGL: bool, ui: Option<seq<UiCmd>>,
                       sizes: UiSizes, pad: Pad): (r: Result<Calc, string>)
    ensures r.Ok? ==> |r.value.assets| == |assets|
    ensures r.Ok? ==> r.value.ui.Some? == ui.Some?
  {
    match PlaceAll(assets, s.(assetSize := 0, indicesSize := 0), pad)
    case Err(e) => Err(e)
    case Ok(placed) =>
      match ui
      case None => Ok(Calc(placed.0, None, placed.1))
      case Some(cmds) =>
        var g := GuiEntitiesOffsets(cmds, placed.1.(uiSize := 0), isOpenGL, sizes, pad);
        Ok(Calc(placed.0, Some(g.0), g.1))
  }

  /** The pass does not depend on the sizes left by an earlier pass, the
      first asset starts at 0 and positions increase along the list. */
  lemma CalcOffsetsFromZero(assets: seq<Asset>, s1: Section, s2: Section, isOpenGL: bool,
                            ui: Option<seq<UiCmd>>, sizes: UiSizes, pad: Pad)
    requires forall i :: 0 <= i < |assets| ==> Handled(assets[i].mode)
    requires s1.(assetSize := 0, indicesSize := 0) == s2.(assetSize := 0, indicesSize := 0)
    ensures CalcOffsets(assets, s1, isOpenGL, ui, sizes, pad) == CalcOffsets(assets, s2, isOpenGL, ui, sizes, pad)
    ensures var r := CalcOffsets(assets, s1, isOpenGL, ui, sizes, pad);
            r.Ok? ==>
              && (|assets| > 0 ==> r.value.assets[0].offsets.pos == 0)
              && forall i, j :: 0 <= i < j < |assets| ==>
                   r.value.assets[i].offsets.pos <= r.value.assets[j].offsets.pos
  {
    var s := s1.(assetSize := 0, indicesSize := 0);
    PlaceAllOrdered(assets, s, pad);
    PlaceAllStartsAfter(assets, s, pad);
    if |assets| > 0 {
      PlaceGrows(s, assets[0], pad);
    }
  }

  /*************************************************************************/
  /* Largest asset                                                          */
  /*************************************************************************/

  /**
   * The bytes an asset needs in a buffer of its own: vertex streams, padding
   * and index streams. Both 2D layouts count positions at the 3D record
   * size; an unhandled layout has no footprint of its own.
   */
  function Footprint(a: Asset, pad: Pad): Option<nat> {
    var vertices :=
      match a.mode
      case Unmapped2D => a.pn * POS_DATA_SIZE
      case TextureMapped2D => a.pn * POS_DATA_SIZE + a.tn * TEXTURE_DATA_SIZE
      case Unmapped3D => a.pn * POS_DATA_SIZE + a.nn * NORMAL_DATA_SIZE
      case TextureMapped3D => a.pn * POS_DATA_SIZE + a.tn * TEXTURE_DATA_SIZE + a.nn * NORMAL_DATA_SIZE
      case _ => 0;
    if Handled(a.mode) then
      Some(vertices + pad(vertices, INDEX_SIZE) + IndexStreams(a.mode) * a.indexCount * INDEX_SIZE)
    else None
  }

  /**
   * The largest footprint over assets [first, second): 0 for an empty range.
   * An unhandled asset re-uses the previous asset's size, which never
   * changes the maximum.
   */
  method FindMaxAssetSize(assets: seq<Asset>, first: nat, second: nat, pad: Pad) returns (maxSize: nat)
    requires second <= |assets|
    ensures first >= second ==> maxSize == 0
    ensures forall i :: first <= i < second && Footprint(assets[i], pad).Some? ==>
              Footprint(assets[i], pad).value <= maxSize
    ensures maxSize == 0 || exists i :: first <= i < second && Footprint(assets[i], pad) == Some(maxSize)
  {
    maxSize := 0;
    var curSize := 0;
    var i := first;
    while i < second
      invariant first <= i
      invariant curSize <= maxSize
      invariant forall j :: first <= j < i && j < second && Footprint(assets[j], pad).Some? ==>
                  Footprint(assets[j], pad).value <= maxSize
      invariant maxSize == 0 || exists j :: first <= j < i && j < second && Footprint(assets[j], pad) == Some(maxSize)
      decreases second - i
    {
      var f := Footprint(assets[i], pad);
      if f.Some? {
        curSize := f.value;
      }
      if curSize > maxSize {
        maxSize := curSize;
      }
      i := i + 1;
    }
  }
}

=== FILE: registry.dfy ===
/**
 * The engine's registry: every element pushed under a string id is kept in
 * an entry list, reachable from the id through a hash map, and the id is
 * also appended to the list of ids of its type. Retrieval checks the stored
 * type against a bit mask of accepted types.
 */
module Registry {
  import opened Wrappers

  type Id = string

  /**
   * A 32-bit type word or mask, written as the set of positions of its one
   * bits: `&` becomes intersection and `0` the empty set. Each registry type
   * is a single bit.
   */
  type TypeMask = set<nat>

  const ASSET: TypeMask := {0}       // 0x0001
  const VK_ASSET: TypeMask := {1}    // 0x0002
  const TEXTURE: TypeMask := {3}     // 0x0008
  const VK_TEXTURE: TypeMask := {4}  // 0x0010
  const GL_TEXTURE: TypeMask := {5}  // 0x0020
  const PT_LIGHT: TypeMask := {6}    // 0x0040
  const SUN_LIGHT: TypeMask := {7}   // 0x0080
  const DIR_LIGHT: TypeMask := {8}   // 0x0100

  /** The types that have a per-type id list. */
  const ListedTypes: set<TypeMask> :=
    {ASSET, VK_ASSET, TEXTURE, VK_TEXTURE, GL_TEXTURE, PT_LIGHT, SUN_LIGHT, DIR_LIGHT}

  datatype Entry<D> = Entry(element: D, kind: TypeMask, index: nat)

  /**
   * `entries` only grows; `ids` maps an id to its entry's position and is
   * what push and pop consult; `byType` holds the per-type id lists.
   */
  datatype Reg<D> = Reg(entries: seq<Entry<D>>, ids: map<Id, nat>, byType: map<TypeMask, seq<Id>>)

  /** Every id points at an entry, and every listed type has its list. */
  ghost predicate WellFormed<D>(r: Reg<D>) {
    && (forall id :: id in r.ids ==> r.ids[id] < |r.entries|)
    && r.byType.Keys == ListedTypes
  }

  function Empty<D>(): (r: Reg<D>)
    ensures WellFormed(r) && Size(r) == 0 && r.ids == map[]
  {
    Reg([], map[], map t | t in ListedTypes :: [])
  }

  function Size<D>(r: Reg<D>): nat {
    |r.entries|
  }

  /**
   * Adds an element under a fresh id; an id the map already holds is a
   * runtime error. The id goes to its type's list, or to none for a value
   * outside the listed types.
   */
  function Push<D>(r: Reg<D>, id: Id, kind: TypeMask, data: D): (res: Result<Reg<D>, string>)
    requires WellFormed(r)
    ensures res.Err? <==> id in r.ids
    ensures res.Ok? ==>
              && WellFormed(res.value)
              && res.value.entries == r.entries + [Entry(data, kind, |r.entries|)]
              && res.value.ids == r.ids[id := |r.entries|]
              && (forall t :: t in r.byType ==>
                    res.value.byType[t] == r.byType[t] + (if t == kind then [id] else []))
  {
    if id in r.ids then Err("Value with identifier already exists")
    else
      var byType := if kind in r.byType then r.byType[kind := r.byType[kind] + [id]] else r.byType;
      Ok(Reg(r.entries + [Entry(data, kind, |r.entries|)], r.ids[id := |r.entries|], byType))
  }

  /** The per-type lists that gain exactly the given id between two states. */
  function ListsGaining<D>(before: Reg<D>, after: Reg<D>, id: Id): set<TypeMask>
    requires before.byType.Keys <= after.byType.Keys
  {
    set t | t in before.byType && after.byType[t] == before.byType[t] + [id]
  }

  /** A successful push of a listed type records the id in exactly one list,
      that of its type, and an unlisted type in none. */
  lemma PushRecordsOnce<D>(r: Reg<D>, id: Id, kind: TypeMask, data: D)
    requires WellFormed(r) && id !in r.ids
    ensures Push(r, id, kind, data).Ok?
    ensures var after := Push(r, id, kind, data).value;
            ListsGaining(r, after, id) == (if kind in ListedTypes then {kind} else {})
  {
    var after := Push(r, id, kind, data).value;
    forall t | t in r.byType
      ensures after.byType[t] == r.byType[t] + [id] <==> t == kind
    {
      if t != kind {
        assert |after.byType[t]| != |r.byType[t] + [id]|;
      }
    }
  }

  /** Accepted when every bit of the stored type lies in the mask. */
  predicate Accepts(mask: TypeMask, kind: TypeMask) {
    kind * mask == kind
  }

  /**
   * Looks an id up: a missing id, or a stored type with a bit outside the
   * expected mask, is a runtime error; otherwise the element comes back
   * together with its stored type.
   */
  function Retrieve<D>(r: Reg<D>, id: Id, mask: TypeMask): (res: Result<(D, TypeMask), string>)
    requires WellFormed(r)
    ensures res.Ok? <==> id in r.ids && Accepts(mask, r.entries[r.ids[id]].kind)
    ensures res.Ok? ==> res.value == (r.entries[r.ids[id]].element, r.entries[r.ids[id]].kind)
  {
    if id !in r.ids then Err("Invalid element id")
    else
      var e := r.entries[r.ids[id]];
      if e.kind * mask != e.kind then Err("Expected and retrieved registry entry types do not match")
      else Ok((e.element, e.kind))
  }

  /** Outcome of a pop: the registry afterwards, and the element or error. */
  datatype Popped<D> = Popped(reg: Reg<D>, result: Result<D, string>)

  /**
   * Removes an id from the map, then checks that the stored type shares a
   * bit with the expected mask. The entry list and the per-type lists keep
   * their contents, so a failed type check still loses the id.
   */
  function Pop<D>(r: Reg<D>, id: Id, expected: TypeMask): (p: Popped<D>)
    requires WellFormed(r)
    ensures WellFormed(p.reg)
    ensures p.reg.entries == r.entries && p.reg.byType == r.byType
    ensures id !in r.ids ==> p == Popped(r, p.result) && p.result.Err?
    ensures id in r.ids ==> p.reg.ids == r.ids - {id}
    ensures p.result.Ok? <==> id in r.ids && r.entries[r.ids[id]].kind * expected != {}
    ensures p.result.Ok? ==> p.result.value == r.entries[r.ids[id]].element
  {
    if id !in r.ids then Popped(r, Err("Invalid entry ID"))
    else
      var e := r.entries[r.ids[id]];
      var after := r.(ids := r.ids - {id});
      if e.kind * expected == {} then Popped(after, Err("Expected and retrieved registry entry types do not match"))
      else Popped(after, Ok(e.element))
  }

  /** What was pushed is retrieved under its id by any mask covering its
      type, along with that type. */
  lemma PushThenRetrieve<D>(r: Reg<D>, id: Id, kind: TypeMask, data: D, mask: TypeMask)
    requires WellFormed(r) && id !in r.ids
    ensures Push(r, id, kind, data).Ok?
    ensures Retrieve(Push(r, id, kind, data).value, id, mask) ==
              if Accepts(mask, kind) then Ok((data, kind))
              else Err("Expected and retrieved registry entry types do not match")
  {}

  /** A push leaves every other id's retrieval as it was. */
  lemma PushKeepsOthers<D>(r: Reg<D>, id: Id, kind: TypeMask, data: D, other: Id, mask: TypeMask)
    requires WellFormed(r) && id !in r.ids && other != id
    ensures Push(r, id, kind, data).Ok?
    ensures Retrieve(Push(r, id, kind, data).value, other, mask) == Retrieve(r, other, mask)
  {
    var after := Push(r, id, kind, data).value;
    if other in r.ids {
      assert after.entries[after.ids[other]] == r.entries[r.ids[other]];
    }
  }

  /** Pushing and popping an element gives it back when the expected mask
      shares a bit with its type; either way the id is free again, and the
      size stays at one more than before. */
  lemma PushThenPop<D>(r: Reg<D>, id: Id, kind: TypeMask, data: D, expected: TypeMask)
    requires WellFormed(r) && id !in r.ids
    ensures Push(r, id, kind, data).Ok?
    ensures var p := Pop(Push(r, id, kind, data).value, id, expected);
            && (p.result.Ok? <==> kind * expected != {})
            && (p.result.Ok? ==> p.result.value == data)
            && p.reg.ids == r.ids
            && Size(p.reg) == Size(r) + 1
            && Push(p.reg, id, kind, data).Ok?
  {
    var after := Push(r, id, kind, data).value;
    assert after.ids - {id} == r.ids;
  }
}

=== FILE: shader.dfy ===
/**
 * The shader interface's plain state: a 32-bit word of property flags, the
 * pipeline cull and primitive modes, and the list of texture hashes the
 * shader's samplers use.
 */
module Shader {

  /**
   * The 32-bit property word, written as the set of positions of its one
   * bits: `|` is union, `& ~` is difference and a zero `&` an empty
   * intersection. Each property is one bit.
   */
  type PropertyBits = set<nat>

  const ENABLE_PUSH_CONSTANTS: PropertyBits := {0}    // 1 << 0
  const ENABLE_CUSTOM_VIEWPORT: PropertyBits := {1}   // 1 << 1
  const ENABLE_2D_TEXTURES: PropertyBits := {2}       // 1 << 2
  const ENABLE_3D_TEXTURES: PropertyBits := {3}       // 1 << 3
  const ENABLE_SCISSOR: PropertyBits := {4}           // 1 << 4
  const ENABLE_DEPTH_TESTING: PropertyBits := {5}     // 1 << 5
  const ENABLE_STENCIL_TESTING: PropertyBits := {6}   // 1 << 6
  const ENABLE_BLEND: PropertyBits := {7}             // 1 << 7
  const ENABLE_INDEXING: PropertyBits := {8}          // 1 << 8
  const ENABLE_MATERIAL: PropertyBits := {9}          // 1 << 9
  const NON_STANDARD_SHADER: PropertyBits := {10}     // 1 << 10

  datatype CullMode = NoCulling | Clockwise | CounterClockwise

  datatype PrimitiveMode = NoPrimitive | Points | Lines | Triangles

  /** A texture hash; the hash function itself is not part of this model. */
  type Hash = nat

  /** The pipeline modes of a shader; the property word and the texture
      hashes are handled by the functions below on their own. */
  datatype ShaderState = ShaderState(cullMode: CullMode, primitiveMode: PrimitiveMode)

  /** A new shader: no culling and triangles. */
  const Initial: ShaderState := ShaderState(NoCulling, Triangles)

  /** Sets the given bits of the property word, or clears them when
      `enable` is false. */
  function SetProperty(word: PropertyBits, bits: PropertyBits, enable: bool): (r: PropertyBits)
    ensures enable ==> bits <= r && word <= r
    ensures !enable ==> r * bits == {} && r <= word
    ensures r - bits == word - bits
  {
    if enable then word + bits else word - bits
  }

  /** True when the property word shares any bit with the query. */
  predicate IsPropertySet(word: PropertyBits, bits: PropertyBits): (r: bool)
    ensures r <==> exists b :: b in bits && b in word
  {
    if word * bits == {} then
      assert forall b :: b in bits && b in word ==> b in word * bits;
      false
    else
      var b :| b in word * bits;
      assert b in bits && b in word;
      true
  }

  /** Enabling a non-empty set of bits makes it report set. */
  lemma EnableReportsSet(word: PropertyBits, bits: PropertyBits)
    requires bits != {}
    ensures IsPropertySet(SetProperty(word, bits, true), bits)
  {
    var b :| b in bits;
    assert b in SetProperty(word, bits, true) * bits;
  }

  /** Disabling bits makes them report unset. */
  lemma DisableReportsUnset(word: PropertyBits, bits: PropertyBits)
    ensures !IsPropertySet(SetProperty(word, bits, false), bits)
  {}

  /** Bits outside the changed ones keep their values, so a query disjoint
      from the changed bits keeps its answer. */
  lemma SetPropertyKeepsOthers(word: PropertyBits, bits: PropertyBits, enable: bool, query: PropertyBits)
    requires bits * query == {}
    ensures SetProperty(word, bits, enable) - bits == word - bits
    ensures IsPropertySet(SetProperty(word, bits, enable), query) <==> IsPropertySet(word, query)
  {
    var after := SetProperty(word, bits, enable);
    forall x | x in query
      ensures x in after <==> x in word
    {
      assert x !in bits * query;
    }
    assert after * query == word * query;
  }

  /** The cull getter, the field, reads back the mode just set, and the
      primitive getter reads what it read before. */
  function SetPipelineCullMode(s: ShaderState, m: CullMode): (r: ShaderState)
    ensures r.cullMode == m && r.primitiveMode == s.primitiveMode
  {
    s.(cullMode := m)
  }

  /** The primitive getter reads back the mode just set, and the cull getter
      reads what it read before. */
  function SetPrimitiveMode(s: ShaderState, m: PrimitiveMode): (r: ShaderState)
    ensures r.primitiveMode == m && r.cullMode == s.cullMode
  {
    s.(primitiveMode := m)
  }

  /** The two modes are independent fields: setting one never disturbs the
      other, and the order of the two setters does not matter. */
  lemma ModesIndependent(s: ShaderState, c: CullMode, p: PrimitiveMode)
    ensures SetPrimitiveMode(s, p).cullMode == s.cullMode
    ensures SetPipelineCullMode(s, c).primitiveMode == s.primitiveMode
    ensures SetPrimitiveMode(SetPipelineCullMode(s, c), p) == SetPipelineCullMode(SetPrimitiveMode(s, p), c)
  {}

  /**
   * Appends a hash and returns the sampler id it got, which is the length
   * of the list before the push.
   */
  function PushTextureHash(hashes: seq<Hash>, h: Hash): (r: (seq<Hash>, nat))
    ensures r.1 == |hashes| && |r.0| == |hashes| + 1
    ensures r.0[..|hashes|] == hashes && r.0[r.1] == h
  {
    (hashes + [h], |hashes|)
  }

  /** The hash of a sampler, or 0 for an id past the end. */
  function GetTextureHash(hashes: seq<Hash>, id: nat): (h: Hash)
    ensures id >= |hashes| ==> h == 0
    ensures id < |hashes| ==> h == hashes[id]
  {
    if |hashes| <= id then 0 else hashes[id]
  }

  /**
   * Replaces a sampler's hash and returns the new hash; an id past the end
   * returns 0 and leaves the list as it was.
   */
  function ReplaceTextureHash(hashes: seq<Hash>, id: nat, h: Hash): (r: (seq<Hash>, Hash))
    ensures id >= |hashes| ==> r == (hashes, 0)
    ensures id < |hashes| ==> r.1 == h && |r.0| == |hashes| && r.0[id] == h
    ensures forall k :: 0 <= k < |hashes| && k != id ==> r.0[k] == hashes[k]
  {
    if |hashes| <= id then (hashes, 0) else (hashes[id := h], h)
  }

  /** The id a push returns reads back the pushed hash, and every earlier
      id reads back what it did before. */
  lemma PushThenGet(hashes: seq<Hash>, h: Hash, id: nat)
    ensures var (after, given) := PushTextureHash(hashes, h);
            GetTextureHash(after, given) == h &&
            (id != given ==> GetTextureHash(after, id) == GetTextureHash(hashes, id))
  {}

  /** After a replacement the id reads back what the replacement returned,
      both in range and past the end. */
  lemma ReplaceThenGet(hashes: seq<Hash>, id: nat, h: Hash)
    ensures var (after, returned) := ReplaceTextureHash(hashes, id, h);
            GetTextureHash(after, id) == returned
  {}
}

=== FILE: uber_shader.dfy ===
/**
 * The uber shader's properties: from the first primitive of a mesh it
 * numbers the vertex, geometry and fragment shader input and output
 * locations. Each present attribute group takes the next free locations,
 * as many as it has slots; an absent group keeps the location -1.
 */
module UberShader {

  /** UINT32_MAX, the buffer id of a missing buffer. */
  const NO_BUFFER: nat := 0xFFFF_FFFF

  /** The fields of a mesh primitive the properties are built from. */
  datatype MeshPrimitive = MeshPrimitive(
    vertexBufferId: nat,
    vertexNormalBufferId: nat,
    vertexTangentBufferId: nat,
    textureCount: nat,
    colorMulCount: nat,
    jointSetCount: nat,
    morphTargetCount: nat)

  /** The buffers of the primitive's first morph target. */
  datatype MorphTarget = MorphTarget(vertexNormalBufferId: nat, vertexTangentBufferId: nat)

  datatype VertexProperties = VertexProperties(
    normalLocation: int, normalOutputLocation: int,
    tangentLocation: int, tangentOutputLocation: int,
    uvLocation: int, uvAttributeCount: int, uvOutputLocation: int,
    colorMultiplierLocation: int, colorMultiplierAttributeCount: int, colorMultiplierOutputLocation: int,
    useJointTransforms: bool,
    jointIndicesLocation: int, jointWeightsLocation: int, jointSetCount: int, jointCount: int,
    useMorphTargets: bool,
    morphSetCount: int, morphTargetCount: int,
    morphPositionsLocation: int, morphNormalsLocation: int, morphTangentsLocation: int)

  datatype GeometryProperties = GeometryProperties(
    useGeometryShader: bool,
    uvLocation: int, uvAttributeCount: int, uvOutputLocation: int,
    colorMultipliersLocation: int, colorMultipliersAttributeCount: int, colorMultipliersOutputLocation: int)

  datatype FragmentProperties = FragmentProperties(
    vertexNormalLocation: int, vertexTangentLocation: int,
    uvLocation: int, uvAttributeCount: int,
    colorMultipliersLocation: int, colorMultiplierAttributeCount: int)

  datatype Properties = Properties(vertex: VertexProperties, geometry: GeometryProperties, fragment: FragmentProperties)

  /** Every location -1, every count 0 and every flag false. */
  const DefaultVertex: VertexProperties :=
    VertexProperties(-1, -1, -1, -1, -1, 0, -1, -1, 0, -1, false, -1, -1, 0, 0, false, 0, 0, -1, -1, -1)

  const DefaultGeometry: GeometryProperties := GeometryProperties(false, -1, 0, -1, -1, 0, -1)

  const DefaultFragment: FragmentProperties := FragmentProperties(-1, -1, -1, 0, -1, 0)

  /*************************************************************************/
  /* Reference numbering                                                    */
  /*************************************************************************/

  /** Total slots of a list of attribute groups. */
  function Sum(ws: seq<nat>): nat {
    if ws == [] then 0 else Sum(ws[..|ws| - 1]) + ws[|ws| - 1]
  }

  /**
   * The location group `k` gets when groups are numbered one after another
   * from `first`, each taking as many locations as it has slots: -1 for a
   * group with no slots, else `first` plus the slots of the groups before.
   */
  function Location(ws: seq<nat>, first: int, k: nat): int
    requires k < |ws|
  {
    if ws[k] == 0 then -1 else first + Sum(ws[..k])
  }

  /** Extending a prefix by one group adds that group's slots. */
  lemma SumStep(ws: seq<nat>, k: nat)
    requires k < |ws|
    ensures Sum(ws[..k + 1]) == Sum(ws[..k]) + ws[k]
  {
    assert ws[..k + 1][..k] == ws[..k];
  }

  lemma {:induction false} SumPrefixMonotone(ws: seq<nat>, j: nat, k: nat)
    requires j <= k <= |ws|
    ensures Sum(ws[..j]) <= Sum(ws[..k])
    decreases k - j
  {
    if j < k {
      SumPrefixMonotone(ws, j, k - 1);
      assert ws[..k][..k - 1] == ws[..k - 1];
    }
  }

  /** Present groups never share a location: an earlier group's locations
      all come before a later group's first one. */
  lemma LocationsDisjoint(ws: seq<nat>, first: int, j: nat, k: nat)
    requires j < k < |ws| && ws[j] > 0 && ws[k] > 0
    ensures Location(ws, first, j) + ws[j] <= Location(ws, first, k)
  {
    SumPrefixMonotone(ws, j + 1, k);
    assert ws[..j + 1][..j] == ws[..j];
  }

  /** Slots of the two one-location groups, from the presence of a buffer. */
  function Present(bufferId: nat): nat {
    if bufferId != NO_BUFFER then 1 else 0
  }

  /** Slots of a morph attribute: one per morph target when the first morph
      target has that buffer. */
  function MorphSlots(p: MeshPrimitive, bufferId: nat): nat {
    if p.morphTargetCount != 0 && bufferId != NO_BUFFER then p.morphTargetCount else 0
  }

  /** Vertex input groups in order: normal, tangent, UV sets, colour
      multipliers, joint indices, joint weights, morph normals, morph
      tangents. */
  function VertexInputs(p: MeshPrimitive, m: MorphTarget): seq<nat> {
    [Present(p.vertexBufferId), Present(p.vertexTangentBufferId), p.textureCount, p.colorMulCount,
     p.jointSetCount, p.jointSetCount,
     MorphSlots(p, m.vertexNormalBufferId), MorphSlots(p, m.vertexTangentBufferId)]
  }

  /** Vertex output groups in order: normal, tangent, UV sets, colour
      multipliers. */
  function VertexOutputs(p: MeshPrimitive): seq<nat> {
    [Present(p.vertexBufferId), Present(p.vertexTangentBufferId), p.textureCount, p.colorMulCount]
  }

  /*************************************************************************/
  /* The three shader stages                                                */
  /*************************************************************************/

  /** Morph sets hold four targets each. */
  function MorphSetCount(n: nat): (r: nat)
    ensures n > 0 ==> 4 * (r - 1) < n <= 4 * r
    ensures n == 0 ==> r == 0
  {
    if n % 4 != 0 then n / 4 + 1 else n / 4
  }

  /**
   * The first four vertex groups: normal, tangent, UV sets and colour
   * multipliers. Inputs and outputs are counted in step, so each output
   * location equals its input location; `next` is the first free input.
   */
  method PlaceVertexAttributes(p: MeshPrimitive) returns (v: VertexProperties, next: int)
    ensures var outs := VertexOutputs(p);
            && v.normalLocation == v.normalOutputLocation == Location(outs, 1, 0)
            && v.tangentLocation == v.tangentOutputLocation == Location(outs, 1, 1)
            && v.uvLocation == v.uvOutputLocation == Location(outs, 1, 2)
            && v.colorMultiplierLocation == v.colorMultiplierOutputLocation == Location(outs, 1, 3)
            && next == 1 + Sum(outs)
    ensures v.uvAttributeCount == p.textureCount && v.colorMultiplierAttributeCount == p.colorMulCount
    ensures v == DefaultVertex.(normalLocation := v.normalLocation, normalOutputLocation := v.normalOutputLocation,
                                tangentLocation := v.tangentLocation, tangentOutputLocation := v.tangentOutputLocation,
                                uvLocation := v.uvLocation, uvOutputLocation := v.uvOutputLocation,
                                uvAttributeCount := v.uvAttributeCount,
                                colorMultiplierLocation := v.colorMultiplierLocation,
                                colorMultiplierOutputLocation := v.colorMultiplierOutputLocation,
                                colorMultiplierAttributeCount := v.colorMultiplierAttributeCount)
  {
    ghost var outs := VertexOutputs(p);
    v := DefaultVertex;
    var location: int := 1;
    var output: int := 1;
    if p.vertexBufferId != NO_BUFFER {
      v := v.(normalLocation := location, normalOutputLocation := output);
      location := location + 1;
      output := output + 1;
    }
    SumStep(outs, 0);
    if p.vertexTangentBufferId != NO_BUFFER {
      v := v.(tangentLocation := location, tangentOutputLocation := output);
      location := location + 1;
      output := output + 1;
    }
    SumStep(outs, 1);
    if p.textureCount != 0 {
      v := v.(uvLocation := location, uvOutputLocation := output, uvAttributeCount := p.textureCount);
      location := location + p.textureCount;
      output := output + p.textureCount;
    }
    SumStep(outs, 2);
    if p.colorMulCount != 0 {
      v := v.(colorMultiplierLocation := location, colorMultiplierOutputLocation := output,
              colorMultiplierAttributeCount := p.colorMulCount);
      location := location + p.colorMulCount;
      output := output + p.colorMulCount;
    }
    SumStep(outs, 3);
    assert outs[..4] == outs;
    next := location;
  }

  /**
   * The skinning groups after them: joint indices and joint weights, one
   * location per joint set each, then morph normals and morph tangents,
   * one location per morph target each when the first morph target has
   * that buffer. `location` is the first free input location.
   */
  method PlaceVertexSkinning(v0: VertexProperties, p: MeshPrimitive, firstMorph: MorphTarget, jointCount: nat, location0: int)
    returns (v: VertexProperties)
    ensures var ws := [p.jointSetCount, p.jointSetCount,
                       MorphSlots(p, firstMorph.vertexNormalBufferId), MorphSlots(p, firstMorph.vertexTangentBufferId)];
            && v.jointIndicesLocation == (if ws[0] == 0 then v0.jointIndicesLocation else Location(ws, location0, 0))
            && v.jointWeightsLocation == (if ws[1] == 0 then v0.jointWeightsLocation else Location(ws, location0, 1))
            && v.morphNormalsLocation == (if ws[2] == 0 then v0.morphNormalsLocation else Location(ws, location0, 2))
            && v.morphTangentsLocation == (if ws[3] == 0 then v0.morphTangentsLocation else Location(ws, location0, 3))
    ensures v.useJointTransforms == (p.jointSetCount != 0 || v0.useJointTransforms)
    ensures v.jointSetCount == (if p.jointSetCount != 0 then p.jointSetCount else v0.jointSetCount)
    ensures v.jointCount == (if p.jointSetCount != 0 then jointCount else v0.jointCount)
    ensures v.useMorphTargets == (p.morphTargetCount != 0 || v0.useMorphTargets)
    ensures v.morphTargetCount == (if p.morphTargetCount != 0 then p.morphTargetCount else v0.morphTargetCount)
    ensures v.morphSetCount == (if p.morphTargetCount != 0 then MorphSetCount(p.morphTargetCount) else v0.morphSetCount)
    ensures v == v0.(jointIndicesLocation := v.jointIndicesLocation, jointWeightsLocation := v.jointWeightsLocation,
                     useJointTransforms := v.useJointTransforms, jointSetCount := v.jointSetCount,
                     jointCount := v.jointCount, useMorphTargets := v.useMorphTargets,
                     morphSetCount := v.morphSetCount, morphTargetCount := v.morphTargetCount,
                     morphNormalsLocation := v.morphNormalsLocation, morphTangentsLocation := v.morphTangentsLocation)
  {
    ghost var ws := [p.jointSetCount, p.jointSetCount,
                     MorphSlots(p, firstMorph.vertexNormalBufferId), MorphSlots(p, firstMorph.vertexTangentBufferId)];
    v := v0;
    var location := location0;
    SumStep(ws, 0);
    SumStep(ws, 1);
    SumStep(ws, 2);
    if p.jointSetCount != 0 {
      v := v.(useJointTransforms := true, jointIndicesLocation := location);
      location := location + p.jointSetCount;
      v := v.(jointWeightsLocation := location);
      location := location + p.jointSetCount;
      v := v.(jointSetCount := p.jointSetCount, jointCount := jointCount);
    }
    if p.morphTargetCount != 0 {
      v := v.(useMorphTargets := true, morphSetCount := MorphSetCount(p.morphTargetCount),
              morphTargetCount := p.morphTargetCount);
      if firstMorph.vertexNormalBufferId != NO_BUFFER {
        v := v.(morphNormalsLocation := location);
        location := location + p.morphTargetCount;
      }
      if firstMorph.vertexTangentBufferId != NO_BUFFER {
        v := v.(morphTangentsLocation := location);
        location := location + p.morphTargetCount;
      }
    }
  }

  /** Groups numbered from `first` and then more groups numbered from where
      the first list ends get the locations of the joined list. */
  lemma LocationJoin(a: seq<nat>, b: seq<nat>, first: int, k: nat)
    requires k < |b|
    ensures Location(a + b, first, |a| + k) == Location(b, first + Sum(a), k)
    ensures forall j :: 0 <= j < |a| ==> Location(a + b, first, j) == Location(a, first, j)
  {
    LocationAfter(a, b, first, k);
    forall j | 0 <= j < |a|
      ensures Location(a + b, first, j) == Location(a, first, j)
    {
      LocationBefore(a, b, first, j);
    }
  }

  lemma LocationAfter(a: seq<nat>, b: seq<nat>, first: int, k: nat)
    requires k < |b|
    ensures Location(a + b, first, |a| + k) == Location(b, first + Sum(a), k)
  {
    var ab := a + b;
    assert ab[|a| + k] == b[k];
    PrefixSum(a, b, k);
    var x := Sum(ab[..|a| + k]);
    var y := Sum(b[..k]);
    assert x == Sum(a) + y;
    if b[k] == 0 {
      assert Location(ab, first, |a| + k) == -1;
    } else {
      assert Location(ab, first, |a| + k) == first + x;
      assert Location(b, first + Sum(a), k) == first + Sum(a) + y;
    }
  }

  lemma PrefixSum(a: seq<nat>, b: seq<nat>, k: nat)
    requires k < |b|
    ensures Sum((a + b)[..|a| + k]) == Sum(a) + Sum(b[..k])
  {
    assert (a + b)[..|a| + k] == a + b[..k];
    SumJoin(a, b[..k]);
  }

  lemma LocationBefore(a: seq<nat>, b: seq<nat>, first: int, j: nat)
    requires j < |a|
    ensures Location(a + b, first, j) == Location(a, first, j)
  {
    var ab := a + b;
    assert ab[j] == a[j];
    assert ab[..j] == a[..j];
  }

  lemma {:induction false} SumJoin(a: seq<nat>, b: seq<nat>)
    ensures Sum(a + b) == Sum(a) + Sum(b)
    decreases |b|
  {
    if b != [] {
      var b' := b[..|b| - 1];
      assert (a + b)[..|a + b| - 1] == a + b';
      SumJoin(a, b');
    } else {
      assert a + b == a;
    }
  }

  /**
   * Vertex stage. The normal group is keyed on the vertex (position)
   * buffer id; `firstMorph` stands for the first morph target, consulted
   * only when the primitive has morph targets, and `jointCount` for the
   * model's number of joints.
   */
  method CreateVertexShaderProperties(p: MeshPrimitive, firstMorph: MorphTarget, jointCount: nat)
    returns (v: VertexProperties)
    ensures var ins := VertexInputs(p, firstMorph);
            && v.normalLocation == Location(ins, 1, 0)
            && v.tangentLocation == Location(ins, 1, 1)
            && v.uvLocation == Location(ins, 1, 2)
            && v.colorMultiplierLocation == Location(ins, 1, 3)
            && v.jointIndicesLocation == Location(ins, 1, 4)
            && v.jointWeightsLocation == Location(ins, 1, 5)
            && v.morphNormalsLocation == Location(ins, 1, 6)
            && v.morphTangentsLocation == Location(ins, 1, 7)
    ensures var outs := VertexOutputs(p);
            && v.normalOutputLocation == Location(outs, 1, 0)
            && v.tangentOutputLocation == Location(outs, 1, 1)
            && v.uvOutputLocation == Location(outs, 1, 2)
            && v.colorMultiplierOutputLocation == Location(outs, 1, 3)
    ensures v.uvAttributeCount == p.textureCount && v.colorMultiplierAttributeCount == p.colorMulCount
    ensures v.useJointTransforms <==> p.jointSetCount != 0
    ensures v.jointSetCount == p.jointSetCount
    ensures v.jointCount == if p.jointSetCount != 0 then jointCount else 0
    ensures v.useMorphTargets <==> p.morphTargetCount != 0
    ensures v.morphTargetCount == p.morphTargetCount && v.morphSetCount == MorphSetCount(p.morphTargetCount)
    ensures v.morphPositionsLocation == -1
  {
    var basic, next := PlaceVertexAttributes(p);
    v := PlaceVertexSkinning(basic, p, firstMorph, jointCount, next);
    ghost var outs := VertexOutputs(p);
    ghost var ws := [p.jointSetCount, p.jointSetCount,
                     MorphSlots(p, firstMorph.vertexNormalBufferId), MorphSlots(p, firstMorph.vertexTangentBufferId)];
    assert VertexInputs(p, firstMorph) == outs + ws;
    LocationJoin(outs, ws, 1, 0);
    LocationJoin(outs, ws, 1, 1);
    LocationJoin(outs, ws, 1, 2);
    LocationJoin(outs, ws, 1, 3);
  }

  /** Geometry stage: used exactly when the primitive has no vertex normals,
      to generate them; its inputs start at 1 and its outputs at 2, after
      the position and the generated normal. */
  function CreateGeometryShaderProperties(p: MeshPrimitive): (g: GeometryProperties)
    ensures g.useGeometryShader <==> p.vertexNormalBufferId == NO_BUFFER
    ensures !g.useGeometryShader ==> g == DefaultGeometry
    ensures g.useGeometryShader ==>
              var ws := [p.textureCount, p.colorMulCount];
              && g.uvLocation == Location(ws, 1, 0) && g.uvOutputLocation == Location(ws, 2, 0)
              && g.colorMultipliersLocation == Location(ws, 1, 1)
              && g.colorMultipliersOutputLocation == Location(ws, 2, 1)
              && g.uvAttributeCount == p.textureCount
              && g.colorMultipliersAttributeCount == p.colorMulCount
  {
    SumStep([p.textureCount, p.colorMulCount], 0);
    if p.vertexNormalBufferId != NO_BUFFER then DefaultGeometry
    else
      var withUv :=
        if p.textureCount != 0 then
          DefaultGeometry.(useGeometryShader := true, uvLocation := 1, uvOutputLocation := 2,
                           uvAttributeCount := p.textureCount)
        else DefaultGeometry.(useGeometryShader := true);
      if p.colorMulCount != 0 then
        withUv.(colorMultipliersLocation := 1 + p.textureCount,
                colorMultipliersOutputLocation := 2 + p.textureCount,
                colorMultipliersAttributeCount := p.colorMulCount)
      else withUv
  }

  /** Fragment input groups in order: normal (always), tangent, UV sets,
      colour multipliers. */
  function FragmentInputs(p: MeshPrimitive): seq<nat> {
    [1, Present(p.vertexTangentBufferId), p.textureCount, p.colorMulCount]
  }

  /** Fragment stage: the normal always comes first at 1, and a tangent
      takes 2. */
  method CreateFragmentShaderProperties(p: MeshPrimitive) returns (f: FragmentProperties)
    ensures f.vertexNormalLocation == 1
    ensures f.vertexTangentLocation == if p.vertexTangentBufferId != NO_BUFFER then 2 else -1
    ensures var ins := FragmentInputs(p);
            && f.uvLocation == Location(ins, 1, 2)
            && f.colorMultipliersLocation == Location(ins, 1, 3)
    ensures f.uvAttributeCount == p.textureCount && f.colorMultiplierAttributeCount == p.colorMulCount
  {
    ghost var ins := FragmentInputs(p);
    f := DefaultFragment;
    var location := 1;
    f := f.(vertexNormalLocation := location);
    location := location + 1;
    if p.vertexTangentBufferId != NO_BUFFER {
      f := f.(vertexTangentLocation := location);
      location := location + 1;
    }
    SumStep(ins, 0);
    SumStep(ins, 1);
    assert location == 1 + Sum(ins[..2]);
    if p.textureCount != 0 {
      f := f.(uvLocation := location, uvAttributeCount := p.textureCount);
      location := location + p.textureCount;
    }
    SumStep(ins, 2);
    assert location == 1 + Sum(ins[..3]);
    if p.colorMulCount != 0 {
      f := f.(colorMultipliersLocation := location, colorMultiplierAttributeCount := p.colorMulCount);
      location := location + p.colorMulCount;
    }
  }

  /** The constructor runs the three stages on fresh properties. */
  method Create(p: MeshPrimitive, firstMorph: MorphTarget, jointCount: nat) returns (props: Properties)
    ensures props.geometry == CreateGeometryShaderProperties(p)
    ensures props.fragment.vertexNormalLocation == 1
    ensures props.vertex.normalLocation == if p.vertexBufferId != NO_BUFFER then 1 else -1
    ensures forall j, k :: 0 <= j < k < 8 && VertexInputs(p, firstMorph)[j] > 0 && VertexInputs(p, firstMorph)[k] > 0 ==>
              Location(VertexInputs(p, firstMorph), 1, j) + VertexInputs(p, firstMorph)[j]
                <= Location(VertexInputs(p, firstMorph), 1, k)
  {
    var v := CreateVertexShaderProperties(p, firstMorph, jointCount);
    var f := CreateFragmentShaderProperties(p);
    props := Properties(v, CreateGeometryShaderProperties(p), f);
    forall j, k | 0 <= j < k < 8 && VertexInputs(p, firstMorph)[j] > 0 && VertexInputs(p, firstMorph)[k] > 0
      ensures Location(VertexInputs(p, firstMorph), 1, j) + VertexInputs(p, firstMorph)[j]
                <= Location(VertexInputs(p, firstMorph), 1, k)
    {
      LocationsDisjoint(VertexInputs(p, firstMorph), 1, j, k);
    }
  }
}

=== FILE: wrappers.dfy ===
/** Small failure-carrying datatypes shared by the engine modules. */
module Wrappers {

  /** A value that may be absent; models a null pointer or a "not found" answer. */
  datatype Option<+T> = None | Some(value: T)

  /** Either a value or the error the engine raises or reports instead. */
  datatype Result<+T, +E> = Ok(value: T) | Err(error: E)
}
